=== FILE: README.md ===
# Pilates studio booking: a Dafny model

This project models the core of a booking system for a Pilates studio.
The backend is a web API over four tables: users, class sessions, bookings
and subscriptions. It lets a client book and cancel classes, counts the
lessons left on a package subscription, applies the plan rules that decide
whether a booking is allowed, creates users with auto-numbered passwords,
lists classes and users with their participant counts, records acceptance
of the terms of use, and imports users from a CSV file. The web frontend
adds a terms-signature page, a subscription modal, a create-user page, a
bookings table, a subscription page and a programs calendar. The model
covers each page's state transitions and what it draws.

The database is a value of type `Models.Store`: one sequence per table.
Each route is a pure function from a store and a request to a `Result`.
An HTTP error becomes `Err(ApiError(status, detail))`. An exception that
would escape a route becomes an error with status 500 named after the
exception (`Crash("TypeError")`). Calendar dates are whole day numbers,
and day 0 is a Monday. A class starts at `date * 1440 + time` minutes, and
the current time is a parameter in minutes on the same scale. A browser
page is a datatype of its state, and each handler is a function from the
old state and the event's inputs to the new state. The browser's
`localStorage` is a `map<string, string>`.

Modules, one per source file of the core:

- `Models`: the persisted entities and the subscription-plan enumeration (`db/models/*.py`).
- `UserTable`: the second plan enumeration, which the user table's plan column and the CSV import use (`db/models/user.py`).
- `CalcClass`: the remaining-lesson count (`utils/calc_class.py`).
- `BookingRules`: the plan rules (`utils/subscription.py`).
- `BookingRoutes`: the authenticated booking router (`routes/bookings.py`).
- `MainApi`: the application's own routes (`main.py`).
- `UserRoutes`: the user router (`routes/users.py`).
- `PopulateDb`: the CSV import and Python's `int()`, `strptime` and enum lookup as it uses them (`scripts/populate_db.py`).
- `TermsStore`: the signature hook over `localStorage` (`hooks/useTermsSignature.js`).
- `TermsSignature`: the terms-signature page.
- `SubscriptionModal`: the subscription modal.
- `CreateUserPage`: the create-user page.
- `BookingsPage`: the bookings page.
- `SubscriptionsPage`: the subscription page.
- `ProgramsPage`: the programs page.
- Support modules: `Wrappers`, `Text`, `Seqs` and `CalendarDates`.

## Model

| member | source | states |
|---|---|---|
| Models.Weekday | backend/utils/subscription.py:42 | The weekday is below 7, and subtracting it from the date lands on a Monday, as Python's `date.weekday()` does. |
| Models.AllModelsComplete | backend/db/models/subscription.py:16-29 | The subscription-plan enumeration has thirteen members, each listed once. |
| Models.ModelValuesDistinct | backend/db/models/subscription.py:16-29 | Distinct plans have distinct stored values, so a stored value names exactly one plan. |
| Models.ModelNamesDistinct | backend/db/models/subscription.py:16-29 | Distinct plans have distinct member names. |
| Models.PackageModels | backend/utils/calc_class.py:16-17 | The lower-cased member name contains "package" exactly for the five package plans (10, 15, 20, Cadillac 5, Cadillac 10). |
| Models.YogaIsNotAPackage | backend/db/models/subscription.py:23 | The yoga plan's value begins with "πακέτο" ("package"), but its member name has no "package", so the lesson count skips it. |
| Models.CadillacModels | backend/utils/calc_class.py:19-22 | The member name contains "cadillac" exactly for family 3 + Cadillac and the two Cadillac packages. |
| Models.FindUser | backend/routes/users.py:101-103 | A found user is in the table with the requested identifier. Not finding one means no user has that identifier. |
| Models.FindClass | backend/routes/bookings.py:33-35 | A found class is in the table with the requested identifier. Not finding one means no class has it. |
| Models.SubscriptionsOf | backend/db/models/subscription.py:35 | A subscription is among a user's subscriptions exactly when it is stored with that user's identifier. |
| Models.EnumerationsDiverge | backend/db/models/user.py:14-23 | The user table's enumeration has nine plans. None of them carries the name of family 2, family 3, family 3 + Cadillac or the yoga plan. Its values differ from the subscription table's exactly for the 3- and 5-session subscriptions. |
| Models.FromSubscriptionTable | backend/db/models/user.py:14-23 | A subscription-table plan has a same-named member in the user table exactly when it is not one of the family plans or the yoga plan, and that member corresponds back to it. |
| CalcClass.Remaining | backend/utils/calc_class.py:32 | The remaining count is never negative. It is zero or total minus used, and never more than a non-negative total. When used is at most total, used plus remaining is the total. |
| CalcClass.IsCadillacClass | backend/utils/calc_class.py:19-22 | A class is a Cadillac class when its lower-cased name contains "cadillac" anywhere. |
| CalcClass.CadillacClassNames | backend/utils/calc_class.py:19-22 | The match ignores case and position: "Cadillac Flow" and "Morning CADILLAC" match, "Reformer" does not. |
| CalcClass.EntryFor | backend/utils/calc_class.py:24-43 | The entry reports the subscription's identifier, plan, start and end. Its used count is the number of the user's confirmed bookings whose class lies in the window, both ends included, and is a Cadillac class exactly when the plan is a Cadillac plan. Its remaining count is the total minus that, or zero when the package is overdrawn. |
| CalcClass.Refreshed | backend/utils/calc_class.py:15-34 | Refreshing changes only the remaining-classes column. It does so exactly for the user's package subscriptions, and stores the computed remaining count there. |
| CalcClass.CalculateRemainingClasses | backend/utils/calc_class.py:8-46 | An unknown user is a 404. A package subscription with no total is a TypeError. Otherwise there is one entry per package subscription of the user, in table order, each with its confirmed bookings in the window and the matching class kind. Those subscriptions' stored remaining counts are updated, and nothing else changes. |
| CalcClass.CalculateRemainingForSubscription | backend/utils/calc_class.py:48-89 | The 404 is returned exactly when no subscription has that identifier and owner. For the first one that does, a non-package plan reports its identifier and plan with no count. A package with no total is a TypeError. Any other package reports its identifier and plan, its used lessons, and the remaining count computed from its total. |
| CalcClass.ForSubscriptionAgrees | backend/utils/calc_class.py:48-89 | For a package the user owns, the single-subscription report is exactly the entry that the whole-user calculation produces for it. |
| CalcClass.UnconfirmedBookingUsesNothing | backend/utils/calc_class.py:26 | A booking whose status is not "confirmed" never reduces the remaining count. |
| CalcClass.BoundaryBookingCounts | backend/utils/calc_class.py:27-28 | A confirmed booking on the first or last day of the window counts: both ends are inclusive. |
| CalcClass.PackagesPartitionBookings | backend/utils/calc_class.py:19-22 | A Cadillac and a non-Cadillac package over the same window together count every booking in it exactly once. |
| BookingRules.LatestSubscription | backend/utils/subscription.py:10-15 | There is no latest subscription only when the user has none. Otherwise it is one of the user's subscriptions, and no other starts later. |
| BookingRules.WeekWindow | backend/utils/subscription.py:42-43 | The week runs from a Monday to the following Sunday and contains the class date. Another date is in that week exactly when it has the same Monday. |
| BookingRules.CommonChecks | backend/utils/subscription.py:10-64 | No active subscription is reported exactly when the user has none. Otherwise the latest subscription is judged. It is rejected as expired exactly when it ends before the class day. It passes on, as itself, exactly when it has not expired, the user has no booking that day, and a Cadillac class meets a Cadillac plan. |
| BookingRules.WeeklyCap | backend/utils/subscription.py:68-73 | Exactly the 2-, 3- and 5-session plans have a weekly cap, and the cap is the number that ends the plan's name. |
| BookingRules.RemainingOnPackage | backend/utils/subscription.py:83-84 | The lessons left on the judged package are positive exactly when its used lessons are below its total. A package with no total is a TypeError. |
| BookingRules.PlanRules | backend/utils/subscription.py:66-92 | The plan rules pass exactly when a capped plan's week is below the cap and a package has a total, lessons left, and a Cadillac class if it is a Cadillac package. A full week is rejected with the plan's cap. The only error raised is the TypeError of a package with no total. |
| BookingRules.ValidateBookingRules | backend/utils/subscription.py:9-92 | No active subscription is reported exactly when the user has none. A booking passes exactly when the user has a subscription and the latest one passes both the common checks and its plan's rules. |
| BookingRules.ValidateBookingRulesAsWritten | backend/utils/subscription.py:9-92 | With the expiry test read as comparing days, the code as written never passes a package subscriber, and whatever it passes the corrected rules pass too. |
| BookingRules.ValidateUpToExpiryAsWritten | backend/utils/subscription.py:10-24 | Up to the expiry test as written, no active subscription is reported exactly when the user has none. Every other user reaches the test. |
| BookingRules.AsWrittenExpiryAlwaysRaises | backend/utils/subscription.py:23 | Every user holding a subscription gets a 500 TypeError from the expiry test as written, whatever the class. |
| BookingRules.ExpiryCounterexample | backend/utils/subscription.py:23 | A concrete store in which a user on a two-session plan is accepted by the corrected rules and gets a TypeError from the expiry test as written. |
| BookingRules.FirstFailure | backend/utils/subscription.py:16-92 | The rules pass exactly when no check fails. A rejection is the reason of the first failing check. |
| BookingRules.FirstFailureOfThree | backend/utils/subscription.py:68-73 | With three checks, the first that fails decides the outcome. |
| BookingRules.FirstFailureAppend | backend/utils/subscription.py:16-92 | Checking a list followed by another equals checking the first list, and checking the second only when the first passes. |
| BookingRules.PlanRulesAreChecks | backend/utils/subscription.py:66-92 | The plan-specific rules are the first failure of the weekly-cap and package check lists. |
| BookingRules.ValidateIsFirstFailure | backend/utils/subscription.py:9-92 | Validating a booking equals taking the first failure of the full, ordered check list: subscription exists, not expired, one booking a day, Cadillac plan for a Cadillac class, weekly cap, package rules. |
| BookingRules.NoSubscriptionRejected | backend/utils/subscription.py:17-18 | A user with no subscription is rejected for having no active subscription. |
| BookingRules.JudgedIsLatest | backend/utils/subscription.py:10-15 | The subscription that the rules judge starts no earlier than any other subscription of the user. |
| BookingRules.ExpiryBoundary | backend/utils/subscription.py:23-24 | A subscription ending before the class day is rejected as expired. One ending on the class day or later is never rejected for expiry. |
| BookingRules.SameDayRejected | backend/utils/subscription.py:29-40 | Any booking of the user on the class day, whatever its status, blocks a second one that day. |
| BookingRules.CadillacClassNeedsCadillacPlanRejected | backend/utils/subscription.py:57-64 | A class whose name mentions Cadillac is refused to every plan other than family 3 + Cadillac and the two Cadillac packages. |
| BookingRules.WeeklyCaps | backend/utils/subscription.py:68-73 | The 2-, 3- and 5-session plans are rejected exactly when the week already holds that many bookings, and otherwise pass. The family, yoga and free plans always pass this stage. |
| BookingRules.PackageRules | backend/utils/subscription.py:76-92 | An exhausted package is rejected as completed. A Cadillac package with lessons left passes exactly for Cadillac classes. The other packages with lessons left pass. |
| BookingRules.AsWrittenPackagePlansNeverPass | backend/utils/subscription.py:83-84 | As written, every package subscriber who reaches the package rules gets an error, a 404 or a 500, and never a pass. |
| BookingRules.AsWrittenAgreesOffPackages | backend/utils/subscription.py:25-82 | With the expiry test read as comparing days, off the package branch the code as written and the corrected rules give the same outcome. |
| BookingRules.PackageBookingCounterexample | backend/utils/subscription.py:83-84 | A concrete store in which a package subscriber with lessons left is refused by the code as written and accepted by the corrected rules. |
| BookingRoutes.CreateBooking | backend/routes/bookings.py:13-57 | A second booking of the same class is a 400, exactly in that case. An unknown class is a 404, exactly when no earlier check refused. A class less than ninety minutes away is a 400, exactly in that case. The booking succeeds exactly when none of these applies. It then appends one row with the signed-in user, changes nothing else, and the class reports its participants plus the new one. |
| BookingRoutes.FindBooking | backend/routes/bookings.py:65-67 | A found position holds the requested identifier. Finding none means no booking has it. |
| BookingRoutes.CancelBooking | backend/routes/bookings.py:59-85 | An unknown booking is a 404, exactly in that case. Another user's booking is a 403, exactly when it exists. A missing class is a 404, and a class less than two hours away a 400, each exactly when the earlier checks passed. Success happens exactly when none applies, and it deletes exactly that row and nothing else. |
| BookingRoutes.CreatePreservesOneBooking | backend/routes/bookings.py:21-31 | Booking keeps every user to at most one booking per class. |
| BookingRoutes.CancelPreservesOneBooking | backend/routes/bookings.py:82-83 | Cancelling keeps every user to at most one booking per class. |
| BookingRoutes.CreatePreservesDistinctIds | backend/db/models/booking.py:12 | With a fresh identifier, booking identifiers stay distinct. |
| BookingRoutes.CreateThenCancel | backend/routes/bookings.py:13-85 | Booking a class and then cancelling the new booking while the class is still two hours away gives back the original store. |
| BookingRoutes.CancelThenRebook | backend/routes/bookings.py:21-41 | After a cancel, the same user can book the same class again if it is still ninety minutes away. |
| BookingRoutes.LateBookingCannotBeCancelled | backend/routes/bookings.py:40-41 | A booking made less than two hours before its class can never be cancelled later, because the cancel window (two hours) is wider than the booking window (ninety minutes). |
| BookingRoutes.CancelDropsOneParticipant | backend/routes/bookings.py:55 | A successful cancel lowers the class's participant count by exactly one. |
| MainApi.MaxPassword | backend/main.py:83-88 | The result is none only when no user has a password. Otherwise it is a password some user holds and no user holds a larger one. |
| MainApi.NextPassword | backend/main.py:82-89 | With no stored password, or a largest password of 0, the next password is 1. Otherwise it is the largest stored password plus one. |
| MainApi.CreateUser | backend/main.py:73-97 | A phone in use is a 400, exactly in that case. A password already held fails the unique constraint. Otherwise exactly one user is appended, with the given phone, name, role, plan and package total, the given password or the next number, and terms not yet accepted. |
| MainApi.AutoPasswordNeverCollides | backend/main.py:82-90 | A user created with a new phone and password 0, which the route treats as no password, is always created, with the next password. |
| MainApi.CreateUserPreservesUniquePasswords | backend/db/models/user.py:35 | Creating a user keeps passwords distinct. |
| MainApi.PasswordNumberingCountsUp | backend/main.py:82-90 | The first auto-numbered password in an empty table is 1, and the next one is one more than the previous. |
| MainApi.CreateBookingByBody | backend/main.py:100-125 | A second booking of the same user and class is a 400, the only refusal the route itself makes. Otherwise exactly that row is appended, with no check of the class or the time. |
| MainApi.CreateByBodyPreservesOneBooking | backend/main.py:102-112 | The body-named booking endpoint also keeps one booking per user and class. |
| MainApi.BookedUsers | backend/main.py:67 | The listed users are those holding a booking of the class, one entry per such booking. |
| MainApi.ListClasses | backend/main.py:58-70 | Every class is listed once, unchanged apart from its participant count, which equals the number of its bookings that have a user. |
| MainApi.GetUser | backend/main.py:36-55 | An unknown user is a 404, exactly in that case. A known user whose row the `UserOut` response model refuses (a null password, role, plan or package total, or a booking without a class) is a 500, exactly in that case. Otherwise there is one view per booking the user holds, in table order, each showing that booking with its class. Each class carries the count of its confirmed bookings. |
| MainApi.UnservableUserViews | backend/db/schemas/user.py:15-21 | A user imported with empty password, role, plan and total fields, and a user holding a booking of a missing class, both get a 500 from the user view. |
| MainApi.ViewBooking | backend/main.py:47-52 | A view shows its booking. Its class is missing exactly when no class has the booking's class identifier. A found class is the stored one with its participant count replaced by the number of confirmed bookings of that class. |
| MainApi.GetUserListsOwnBookings | backend/main.py:36-55 | The user view succeeds exactly for a known user whose row the response model accepts. The bookings it shows are then a subsequence of the table, all the user's, and include every booking the user holds. |
| MainApi.ParticipantCountsDiffer | backend/main.py:48-53 | The class list and the user view disagree on a class with one cancelled booking: 1 and 0. |
| UserRoutes.FindByPhone | backend/routes/users.py:23 | The first user with that phone. Finding none means no user has it. |
| UserRoutes.Login | backend/routes/users.py:18-27 | Login succeeds exactly when the first user with the phone holds that password, and returns that user's identifier. Any failure is a 401. |
| UserRoutes.LoginAfterCreateUser | backend/routes/users.py:18-27 | A user just created can log in with their phone and their assigned password. |
| UserRoutes.WrongPasswordRejected | backend/routes/users.py:24-25 | A known phone with a password no holder of that phone has is refused. |
| UserRoutes.GetUserSubscription | backend/routes/users.py:53-74 | An unknown user is a 404, exactly in that case. Otherwise the result is exactly the user's subscriptions active today (both ends included), in table order. |
| UserRoutes.ActiveOn | backend/routes/users.py:71 | A subscription is active on a day that lies between its start and its end, both included. |
| UserRoutes.UserIndex | backend/routes/users.py:101 | The position of the first user with the identifier, consistent with the user lookup. |
| UserRoutes.AcceptTerms | backend/routes/users.py:96-110 | An unknown user is a 404, exactly in that case. A user who already accepted is told so and nothing changes. Otherwise only that user's flag is set. |
| UserRoutes.AcceptTermsIdempotent | backend/routes/users.py:105-106 | Accepting twice is accepting once: the second call changes nothing and says the terms were already accepted. |
| UserRoutes.UnknownUserIsNotFound | backend/main.py:45-46 | An unknown user is refused as not found by the user view, the subscription query (backend/routes/users.py:65-66), accept-terms (backend/routes/users.py:101-103) and the per-subscription count, which finds no subscription (backend/utils/calc_class.py:54-55). |
| PopulateDb.TrimStart | backend/scripts/populate_db.py:11 | The result is a suffix of the input that does not begin with white space, and every character removed is white space. Input that does not begin with white space is returned whole. |
| PopulateDb.TrimEnd | backend/scripts/populate_db.py:11 | The result is a prefix of the input that does not end with white space, and every character removed is white space. Input that does not end with white space is returned whole. |
| PopulateDb.Strip | backend/scripts/populate_db.py:11 | The result is a slice of the input that neither begins nor ends with white space, and every character before and after it is white space. |
| PopulateDb.IsSpace | backend/scripts/populate_db.py:11 | The characters `int()` skips: tab to carriage return and the space, and the Unicode white space above U+007F. The ASCII separators U+001C to U+001F are not among them. |
| PopulateDb.SkippedCharacters | backend/scripts/populate_db.py:11 | Spaces, tabs, newlines, U+00A0 and U+3000 are skipped, while U+001C, U+001F and the underscore are not. A field starting with U+001C is a ValueError, and " 5\n" reads as 5. |
| PopulateDb.ParseIntText | backend/scripts/populate_db.py:11 | `int()` succeeds exactly when the stripped text, after an optional sign, is a digit group. Any failure is a ValueError. |
| PopulateDb.ParseSigned | backend/scripts/populate_db.py:11 | A signed digit group reads exactly when the text after the sign is a digit group. A leading minus gives a value at most zero, and otherwise the value is at least zero. Any failure is a ValueError. |
| PopulateDb.ParseInt | backend/scripts/populate_db.py:10-11 | An empty field is null, exactly in that case. Any failure is a ValueError. |
| PopulateDb.ParseIntRoundTrip | backend/scripts/populate_db.py:10-11 | Every integer's decimal text reads back as that integer. |
| PopulateDb.ParseUnsigned | backend/scripts/populate_db.py:10-11 | A run of decimal digits reads as its value. |
| PopulateDb.ParseNegative | backend/scripts/populate_db.py:10-11 | A minus sign followed by digits reads as the negated value. |
| PopulateDb.ParseDateText | backend/scripts/populate_db.py:8 | A parsed date is a valid calendar date. Any failure is a ValueError. |
| PopulateDb.MonthToken | backend/scripts/populate_db.py:8 | A month read by `%m` lies between 1 and 12, takes one or two characters, and is followed by the hyphen. |
| PopulateDb.DayToken | backend/scripts/populate_db.py:8 | A day read by `%d` lies between 1 and 31 and takes one or two characters of the rest. |
| PopulateDb.ParseDate | backend/scripts/populate_db.py:7-8 | An empty field is null, exactly in that case. A parsed date is valid. Any failure is a ValueError. |
| PopulateDb.ParseDateRoundTrip | backend/scripts/populate_db.py:7-8 | Every valid date from year 1000 on, written year-month-day, reads back as itself. |
| PopulateDb.ParseKey | backend/scripts/populate_db.py:7-8 | Ten characters holding a valid date's four-digit year, two-digit month and two-digit day, separated by hyphens, parse as that date. |
| PopulateDb.ByName | backend/scripts/populate_db.py:13-18 | An enumeration lookup by member name finds a member with that name, or reports that no member has it. |
| PopulateDb.ParseRole | backend/scripts/populate_db.py:37 | A role is found exactly for "client", "instructor" and "admin", and it is the role with that name. |
| PopulateDb.ParsePlan | backend/scripts/populate_db.py:38 | A plan is found only under its own member name, and none is found when no member has the name. |
| PopulateDb.ParseRoleRoundTrip | backend/scripts/populate_db.py:37 | Every role's name reads back as that role. |
| PopulateDb.ParsePlanRoundTrip | backend/scripts/populate_db.py:38 | Every plan's member name reads back as that plan. |
| PopulateDb.FamilyAndYogaPlansUnknown | backend/scripts/populate_db.py:5 | The names of family 2, family 3, family 3 + Cadillac and the yoga plan are unknown to the import, so their rows are skipped. Every other plan's name is found, as its user-table member. |
| PopulateDb.ImportRow | backend/scripts/populate_db.py:31-58 | A stored phone is skipped. A given but unknown plan name is skipped, exactly in that case. The row aborts with a ValueError exactly when neither applies and a field fails to parse. An added user keeps the row's name and phone, the looked-up role and plan, and the city, null exactly when it is empty. Its password, dates, package total and remaining count are what their fields parse to. |
| PopulateDb.ImportUsers | backend/scripts/populate_db.py:21-61 | The import succeeds exactly when every row does. The counts of added and skipped rows sum to the number of rows. The users added are exactly the rows' additions, none with a phone already stored. |
| ProgramsPage.TwoDigitText | frontend/app/programs/page.jsx:19-20 | A number below 100 is written as two digits that read back as it. |
| ProgramsPage.FormatDateYMD | frontend/app/programs/page.jsx:17-22 | The key ends in hyphen, two-digit month, hyphen, two-digit day, and those digits read back as the month and the day. |
| ProgramsPage.FourDigitYearsGiveFullDate | frontend/app/programs/page.jsx:17-22 | A four-digit year gives a ten-character key with its fields in place. |
| ProgramsPage.KeysAreInjective | frontend/app/programs/page.jsx:27 | Distinct dates with four-digit years get distinct keys, so a date never shows another date's programs. |
| ProgramsPage.ProgramsFor | frontend/app/programs/page.jsx:27-28 | The programs shown are the table's entry for the date's key, or none when the key is absent. |
| ProgramsPage.TileClassName | frontend/app/programs/page.jsx:42-47 | A tile is marked "has-program" exactly in month view on a date with programs, and is otherwise unmarked. |
| TermsStore.GetItem | frontend/app/hooks/useTermsSignature.js:9 | A stored key yields its value. An absent key yields null. |
| TermsStore.Mark | frontend/app/hooks/useTermsSignature.js:16-21 | Marking stores "true", the image and the date under their three keys, adds exactly those keys, and leaves every other key as it was. |
| TermsStore.Clear | frontend/app/hooks/useTermsSignature.js:23-28 | Clearing removes exactly the three keys and leaves every other key as it was. |
| TermsStore.MarkHook | frontend/app/hooks/useTermsSignature.js:16-21 | Marking through the hook marks the storage and sets the hook's flag to signed, leaving loading as it was. |
| TermsStore.ClearHook | frontend/app/hooks/useTermsSignature.js:23-28 | Clearing through the hook clears the storage and sets the hook's flag to unsigned, leaving loading as it was. |
| TermsStore.GetSignatureData | frontend/app/hooks/useTermsSignature.js:30-36 | The report says signed exactly when the flag holds the text "true". It has an image or a date exactly when that key is stored, and then it is the stored text. |
| TermsStore.Mounted | frontend/app/hooks/useTermsSignature.js:7-14 | After mounting, loading is over and the hook's flag mirrors the stored one. |
| TermsStore.HookStaysConsistent | frontend/app/hooks/useTermsSignature.js:7-28 | After mounting, marking or clearing, the hook's flag agrees with what is stored. |
| TermsStore.ClearThenGet | frontend/app/hooks/useTermsSignature.js:23-36 | After a clear, the report is unsigned, with no image and no date. |
| TermsStore.ClearIdempotent | frontend/app/hooks/useTermsSignature.js:23-28 | Clearing twice is clearing once. |
| TermsStore.LastMarkWins | frontend/app/hooks/useTermsSignature.js:16-21 | Marking twice leaves only the second signature and date. |
| TermsStore.MarkThenClear | frontend/app/hooks/useTermsSignature.js:16-28 | A clear undoes a mark completely. |
| TermsStore.UserEntryUntouched | frontend/app/hooks/useTermsSignature.js:16-28 | Marking and clearing never touch the stored user. |
| TermsSignature.RouteForRole | frontend/app/terms-signature/page.js:27-33 | "instructor" goes to the instructor dashboard and exactly "Admin" to the admin dashboard. Every other role text goes to the client dashboard. |
| TermsSignature.BackendRolesRouted | frontend/app/terms-signature/page.js:164-170 | A backend instructor reaches the instructor dashboard. A backend admin, stored as "admin", reaches the client dashboard. |
| TermsSignature.RoutePathsDistinct | frontend/app/terms-signature/page.js:28-32 | The four destinations are distinct paths. |
| TermsSignature.MountRedirect | frontend/app/terms-signature/page.js:20-39 | The page redirects at mount exactly for a readable stored user who already accepted, and to that user's dashboard. |
| TermsSignature.ErrorText | frontend/app/terms-signature/page.js:174 | A refusal shows the server's non-empty detail, or else the default message. |
| TermsSignature.SaveSignature | frontend/app/terms-signature/page.js:121-182 | A request is sent exactly for a signed canvas and a readable user. An empty canvas only adds a toast. The page stays submitting exactly when the user is missing or the server accepted. It goes to the login page exactly when the user is missing, and to the dashboard on acceptance. Storage is marked only on acceptance. A refusal shows its error text, and an unreadable user or unreachable server shows the connection error. |
| TermsSignature.ClickSave | frontend/app/terms-signature/page.js:310-311 | While a save is in progress, a click does nothing. Otherwise it saves. |
| TermsSignature.NoSecondRequestAfterSuccess | frontend/app/terms-signature/page.js:152-171 | After a successful save, no later click sends a request or changes the page. |
| TermsSignature.ReplyFrom | frontend/app/terms-signature/page.js:143-180 | The page sees an ok response exactly when the backend accepts. An HTTP error below 500 reaches it with the backend's detail. A server error, which carries no CORS headers, is the connection-error case, exactly when the status is 500 or above. |
| TermsSignature.ServerErrorShowsConnectionError | frontend/app/terms-signature/page.js:177-180 | A server error from the accept-terms endpoint shows the connection error, leaves storage alone, does not navigate, and lets the user try again. |
| TermsSignature.SaveAgainstBackend | frontend/app/terms-signature/page.js:143-176 | Against the accept-terms route, a known user ends signed and is sent to their dashboard. An unknown user sees the backend's "not found" text, can retry, and is not redirected. |
| TermsSignature.CanvasHeight | frontend/app/terms-signature/page.js:42-56 | The height is one of five sizes, each exactly on its band of widths: 128 below 640 pixels, 160 from 640, 192 from 768, 256 from 1024 and 288 from 1280. |
| TermsSignature.CanvasHeightMonotone | frontend/app/terms-signature/page.js:42-56 | A wider window never gets a shorter canvas. |
| SubscriptionModal.FormatDateDMY | frontend/app/components/SubscriptionModal.jsx:6-12 | The date is written day/month/year, with two-digit day and month that read back as themselves. |
| SubscriptionModal.FormatDateDMYInjective | frontend/app/components/SubscriptionModal.jsx:6-12 | Distinct dates of non-negative years are written differently. |
| SubscriptionModal.BlocksOf | frontend/app/components/SubscriptionModal.jsx:180-228 | The timed block shows exactly for a "συνδρομή" plan with an expiry. The package block shows exactly for a "πακέτο" plan, within it the total when non-zero, a bare "0" instead exactly when the total is 0, and the remaining count when not null. The extra expiry line shows exactly when both dates are present. |
| SubscriptionModal.BlocksForBackendPlans | frontend/app/components/SubscriptionModal.jsx:180-201 | For the backend's plans, the timed block belongs to the three weekly plans and the package block to the five packages and the yoga plan. |
| SubscriptionModal.PanelsOf | frontend/app/components/SubscriptionModal.jsx:152-165 | The spinner shows exactly while loading. The error box shows exactly for a non-empty error. Content or the no-subscription message shows only when neither is showing. |
| SubscriptionModal.ContentOrNoSubscription | frontend/app/components/SubscriptionModal.jsx:165-243 | Content and the no-subscription message never show together. Once nothing loads and no error shows, exactly one of them does. |
| SubscriptionModal.StartFetch | frontend/app/components/SubscriptionModal.jsx:59-60 | A fetch starts loading and clears the error, keeping the snapshot. |
| SubscriptionModal.FinishFetch | frontend/app/components/SubscriptionModal.jsx:61-79 | Loading always ends. A body replaces the snapshot. A failed status sets the translated error. An exception sets its message. |
| SubscriptionModal.OnOpen | frontend/app/components/SubscriptionModal.jsx:22-25 | The fetch runs only for an open modal with a user. Otherwise nothing changes. |
| SubscriptionModal.DrawAsWritten | frontend/app/components/SubscriptionModal.jsx:165-201 | As written, drawing fails with a TypeError exactly when an array is held and neither the spinner nor the error shows. Otherwise it draws the panels of the one-snapshot reading of the held value. |
| SubscriptionModal.BackendReplyBreaksModal | backend/routes/users.py:53-74 | A known user's subscription query succeeds with a list, and the modal holding that list, loading over and no error, fails to draw. |
| SubscriptionModal.EmptyListCounterexample | frontend/app/components/SubscriptionModal.jsx:165 | A user with no active subscription: the empty list breaks the modal as written, while the corrected reading shows the "no subscription" message. |
| SubscriptionModal.FirstSnapshot | frontend/app/components/SubscriptionModal.jsx:74 | The corrected reading of the list is null exactly for an empty list, and otherwise one of its subscriptions. |
| SubscriptionModal.CorrectedListOutcome | frontend/app/components/SubscriptionModal.jsx:58-243 | With the corrected reading, drawing never fails and agrees with the one-snapshot panels: content exactly for a non-empty list, the "no subscription" message exactly for an empty one. |
| SubscriptionModal.FetchOutcome | frontend/app/components/SubscriptionModal.jsx:58-80 | After a fetch, nothing loads. A body leaves no error and shows content exactly when it holds a subscription. A failed status shows only the error box. |
| CreateUserPage.InitialPicker | frontend/app/create-user-page/page.jsx:40-45 | The calendar starts with no range, no last click and no pending clear. |
| CreateUserPage.DayClick | frontend/app/create-user-page/page.jsx:50-67 | A second click on the same day within 300 ms clears the range and forgets the click. Any other click selects that one day and records it. |
| CreateUserPage.CalendarChange | frontend/app/create-user-page/page.jsx:69-77 | The change right after a clear is swallowed. Otherwise only a pair with a second end replaces the range. The last click is never touched. |
| CreateUserPage.DoubleClickClears | frontend/app/create-user-page/page.jsx:50-77 | A double click leaves no range, even after the change event it fires. |
| CreateUserPage.ThreeHundredMsIsNotDouble | frontend/app/create-user-page/page.jsx:55 | Clicks exactly 300 ms apart are two single clicks, and the day stays selected. |
| CreateUserPage.NameValid | frontend/app/create-user-page/page.jsx:82 | A name is valid exactly when it is one or more ASCII digits. |
| CreateUserPage.CityValid | frontend/app/create-user-page/page.jsx:87 | A city is valid exactly when it is one or more ASCII letters, digits, underscores or JavaScript white space. |
| CreateUserPage.ClickAfterClearSelects | frontend/app/create-user-page/page.jsx:52-65 | After a clear, the next click selects its day however soon it comes. |
| CreateUserPage.SecondChangeApplies | frontend/app/create-user-page/page.jsx:69-77 | Only the first change after a clear is swallowed. |
| CreateUserPage.GreekCityRejected | frontend/app/create-user-page/page.jsx:87-90 | A city in Greek letters fails the city check, while "Athens 2" passes. |
| CreateUserPage.ResolveDates | frontend/app/create-user-page/page.jsx:92-101 | Dates resolve exactly when a start is chosen. The end is the chosen end, or the start itself. |
| CreateUserPage.Submit | frontend/app/create-user-page/page.jsx:79-123 | Within the submit handler, the name is checked first, then the city, then the dates, and the first failure sets the toast to its message key and changes nothing else. A user is created exactly when all three pass, and the form and the range are then emptied. |
| CreateUserPage.SubmitAfterSingleClick | frontend/app/create-user-page/page.jsx:50-101 | After a single click, a valid form is created for that one day. |
| CreateUserPage.SubmitAfterDoubleClick | frontend/app/create-user-page/page.jsx:50-101 | After a double click, a valid form is refused for want of dates. |
| CreateUserPage.SuccessCannotRepeat | frontend/app/create-user-page/page.jsx:116-122 | After a success, the submit handler called again at once refuses at the name. |
| CreateUserPage.FormSubmit | frontend/app/create-user-page/page.jsx:160-193 | The browser runs the submit handler exactly when the name, phone, city and plan are all filled, and otherwise blocks the submit and changes nothing. |
| CreateUserPage.BrowserBlocksRepeat | frontend/app/create-user-page/page.jsx:116-193 | After a success, the emptied form is blocked by the browser before the handler runs. |
| CreateUserPage.RequiredGateOrder | frontend/app/create-user-page/page.jsx:79-193 | A filled form reaches the handler unchanged. An empty name is blocked by the browser, although the handler alone would refuse it at the name check. |
| CreateUserPage.RenderToastAsWritten | frontend/app/create-user-page/page.jsx:11-15 | As written, the page draws no toast exactly when none is set, and fails with an error exactly when one is. |
| CreateUserPage.RenderToast | frontend/app/create-user-page/page.jsx:143 | The page draws no toast exactly when none is set, and otherwise the toast of the set key. |
| CreateUserPage.RefusalToastCrashesAsWritten | frontend/app/create-user-page/page.jsx:79-143 | As written, the page fails to draw exactly when the submit handler refuses. The intended page shows the refusal's message then, and a success draws no toast in either. |
| CreateUserPage.LetterNameCounterexample | frontend/app/create-user-page/page.jsx:82-83 | A concrete form whose name has letters: the intended page shows the digits-only message, and the page as written raises a ReferenceError. |
| BookingsPage.CancelRows | frontend/app/bookings/page.jsx:50-52 | No booking with the identifier remains, every other booking stays, and the order is kept. No control on the page calls this handler. |
| BookingsPage.CancelAbsentIsNoop | frontend/app/bookings/page.jsx:50-52 | Cancelling an identifier that no booking has changes nothing. |
| BookingsPage.CancelTwiceIsOnce | frontend/app/bookings/page.jsx:50-52 | Cancelling twice is cancelling once. |
| BookingsPage.CancelsCommute | frontend/app/bookings/page.jsx:50-52 | Two cancels give the same table in either order. |
| BookingsPage.Columns | frontend/app/bookings/page.jsx:67-74 | The user column appears exactly for instructors, giving six columns or five. |
| BookingsPage.Cells | frontend/app/bookings/page.jsx:86-96 | A row has as many cells as the header, with the user in the fifth for instructors. |
| BookingsPage.Render | frontend/app/bookings/page.jsx:78-98 | An empty table shows one "No bookings found." row spanning six or five columns. Otherwise there is one row per booking. |
| BookingsPage.BodyMatchesHeader | frontend/app/bookings/page.jsx:71-93 | Every row, and the empty row's span, is exactly as wide as the header. |
| BookingsPage.CancellingTheLastBooking | frontend/app/bookings/page.jsx:50-83 | Cancelling the only booking leaves the empty row. |
| SubscriptionsPage.HandleCancel | frontend/app/subscriptions/page.jsx:34-36 | A declined confirmation changes nothing. A confirmed one only marks the cancel as pending. |
| SubscriptionsPage.CompleteCancel | frontend/app/subscriptions/page.jsx:37-45 | The timer sets the status to "Cancelled", ends renewal, clears the pending mark, notes completion, and keeps every other field. |
| SubscriptionsPage.CancelButtonOf | frontend/app/subscriptions/page.jsx:99-106 | The button exists exactly for an "Active" subscription. It is disabled, and reads "Cancelling...", exactly while a cancel is pending. |
| SubscriptionsPage.NextBillingShown | frontend/app/subscriptions/page.jsx:90-95 | The next-billing line is shown exactly while the subscription renews. |
| SubscriptionsPage.CancelFlow | frontend/app/subscriptions/page.jsx:34-110 | A completed cancel leaves no button and no next-billing line, shows the notice, and changes only status and renewal. |
| SubscriptionsPage.PendingCancelDisablesButton | frontend/app/subscriptions/page.jsx:103-105 | While a cancel is pending, the button is disabled. |
| SubscriptionsPage.CompleteCancelIdempotent | frontend/app/subscriptions/page.jsx:37-45 | Completing a cancel again changes nothing more. |
| SubscriptionsPage.DeclineKeepsView | frontend/app/subscriptions/page.jsx:35 | A declined confirmation leaves the button and the fields as they were. |

## Left out

- `validate_booking_rules` is not called by any route. It is modelled on its own, and the booking routes do not apply the plan rules.
- The expiry comparison at backend/utils/subscription.py:23 orders a timestamp against a date, which Python refuses; this is a finding below. The corrected rules and the other routes compare day numbers, so subscription start and end are whole days throughout.
- Time zones and clock readings are left out: `now` and `today` are parameters. The model has minute granularity; seconds are dropped.
- The user model in the source declares neither `has_accepted_terms` nor a `subscriptions` relationship, although the routes use both. The model gives users the flag and relates subscriptions to users by `user_id`.
- `LoginRequest` and the token routes (`routes/auth.py`, `routes/admin_auth.py`) are not part of this model. Login compares the stored integer password with the given one.
- A booking's `status` comes from the request and may be any text. A null status is not distinguished from other non-"confirmed" texts.
- The `current_participants` column is recomputed for responses only. The model does not enforce `max_participants`: no route checks it.
- `GET /users` returns all rows unchanged and has no member.
- The duplicate class routes in `routes/classes.py` are not part of this model.
- MainApi.CreateBookingByBody: the foreign keys on `bookings.user_id` and `bookings.class_id` (backend/db/models/booking.py:13-14) make the commit fail for an unknown user or class. The model appends the row, since commit-time errors are left out.
- CreateUserPage.Submit: the handler alone is modelled here, and its toast is the message key it sets. Drawing that toast is `RenderToast`, and as written it fails (see Findings). The browser's check of the required inputs (frontend/app/create-user-page/page.jsx:160-193) runs before it and is modelled by `FormSubmit`.
- No control on the bookings page calls its cancel handler (frontend/app/bookings/page.jsx:94-96 renders an empty cell). `BookingsPage.CancelRows` models the handler as defined.
- Database commits, sessions and `IntegrityError` at commit time are left out. A password collision is reported as the insert's failure. Within one CSV import, rows are checked against the stored users only, since the pending rows are not flushed before the next query. Two rows with the same phone are both added, and the commit would then fail. That commit failure is not modelled.
- Python's `int()` and `strptime` also accept non-ASCII digits. The model accepts ASCII digits only. Field widths and leading zeros are as the model's parsers state.
- The import's printed messages and its counters' output are left out.
- The user table's plan and package-total columns are stored on each user, are set by the import and by user creation, and matter to the user view only through the response model, which requires them. `subscription_starts`, `subscription_expires` and `remaining_classes` are not modelled on the user.
- PopulateDb.ImportRow, MainApi.CreateUser and MainApi.NextPassword: `users.password`, `package_total` and `remaining_classes` are 32-bit PostgreSQL `Integer` columns (backend/db/models/user.py:35, 42, 45). A value of 2^31 or more fails at commit, while the model stores unbounded integers, as it leaves commit-time errors out.
- Prices are floating point and are not modelled.
- PopulateDb.ParseDateRoundTrip: stated only for years from 1000 on, because `%Y` reads up to four digits and shorter years are written unpadded.
- ProgramsPage.KeysAreInjective: stated only for four-digit years, because JavaScript writes other years with other widths.
- JavaScript `Date` objects, time zones and `toLocaleDateString` are left out. Days are day numbers, and the modal's dates are year-month-day records. A missing start date would be formatted as 1 January 1970 and is not modelled.
- Translated texts are modelled by their translation keys. The toast components, their timers, and the delays before the terms page redirects and before a subscription cancel completes are left out. Each delayed action is a separate event.
- The subscription page renders nothing without a stored user. The model describes the page once a user is present.
- The create-user page's `handleChange` only copies a field into the form and has no member. The page's success alert is modelled as the returned dates.
- The backend's `/subscription` route returns a list of subscriptions, while the modal reads the body as one subscription; drawing the list fails (see Findings). `FetchReply` carries the corrected reading, one snapshot or none, and `DrawAsWritten` the code as written. The modal also reads `subscription_starts`, `subscription_expires` and `remaining_classes`, which the backend's subscription rows do not have; a snapshot holds them as given.
- The terms page's signature canvas, its clear button and the browser's resize events are left out. Only the canvas's emptiness, its image text and the window width are inputs.
- After a save with no stored user, the page is left submitting while the browser moves to the login page. The login page itself is not modelled.

## Findings

| source | as written | input that shows it | evidently intended | confidence | as-written member | corrected member |
|---|---|---|---|---|---|---|
| backend/utils/subscription.py:83-84 | Reading the expiry test at line 23 as a day comparison (see the next row), the package rule compares the whole list returned by `calculate_remaining_classes` with 0. In Python 3 that comparison raises a TypeError, so every package subscriber who reaches it gets a 500. | A user with a "πακέτο 10" subscription, total 10 and no bookings, booking a non-Cadillac class: the code as written fails. | Compare the remaining count of the judged subscription with 0, and reject only an exhausted package. | not executed | BookingRules.ValidateBookingRulesAsWritten | BookingRules.ValidateBookingRules |
| backend/utils/subscription.py:23 | The expiry test orders the subscription's end, a timezone-aware timestamp that is never null (backend/db/models/subscription.py:38), against the class's date (backend/db/models/class_.py:13). Python refuses to order a `datetime` against a `date` and raises a TypeError, so every user with a subscription gets a 500. | A user with a two-session subscription from day 0 to day 30 and no bookings, booking a mat class on day 10: the code as written fails. | Compare the calendar day of the subscription's end with the class date. | not executed | BookingRules.ValidateUpToExpiryAsWritten | BookingRules.ValidateBookingRules |
| frontend/app/create-user-page/page.jsx:12 | The page's local `Toast` component calls `React.useEffect`, but the page imports only `useRef` and `useState` from React and never binds `React`. Drawing a toast therefore raises a ReferenceError, so every refused submit breaks the page instead of showing its message. | Submitting the name "anna": the handler sets the digits-only toast, and drawing it fails. | Import `useEffect` from React and call it, so the toast shows its message for 2.5 seconds. | not executed; medium, it depends on the bundler not providing a global `React` | CreateUserPage.RenderToastAsWritten | CreateUserPage.RenderToast |
| frontend/app/components/SubscriptionModal.jsx:74 | The modal stores the body of `POST /subscription` as its subscription, but the backend answers with a list (backend/routes/users.py:53). Every list is truthy, so the content block is drawn, and `subscription.subscription_model.includes(...)` at line 180 reads a property of an array that is undefined and raises a TypeError while drawing. | Opening the modal for a user with no active subscription: the body is `[]`, and drawing fails instead of showing the "no subscription" message. | Store the first subscription of the list, or null for an empty list, so the modal shows that subscription or the "no subscription" message. | not executed | SubscriptionModal.DrawAsWritten | SubscriptionModal.FirstSnapshot |

=== FILE: booking_routes.dfy ===
/**
 * The authenticated booking router: a user books a class for themself, or
 * cancels one of their own bookings, subject to a lead-time window before
 * the class starts. The clock reading `now` is a parameter, on the minute
 * scale of `ClassStart`.
 */
module BookingRoutes {
  import opened Wrappers
  import opened Seqs
  import opened Models

  const BookingExists: ApiError := ApiError(400, "Booking already exists")
  const ClassNotFound: ApiError := ApiError(404, "Class not found")
  const TooLateToBook: ApiError := ApiError(400, "Booking cannot be booked")
  const BookingNotFound: ApiError := ApiError(404, "Booking not found")
  const NotYourBooking: ApiError := ApiError(403, "Not allowed to cancel this booking")
  const TooLateToCancel: ApiError := ApiError(400, "Booking cannot be canceled")

  /** Booking closes an hour and a half before the class starts. */
  const BookingLeadMinutes: int := 90
  /** Cancelling closes two hours before the class starts. */
  const CancelLeadMinutes: int := 120

  /** The request body: the class to book and the status to record. */
  datatype BookingRequest = BookingRequest(classId: Id, status: string)

  /** A successful booking: the new store, the new row, and its class as reported. */
  datatype Created = Created(store: Store, booking: Booking, bookedClass: ClassSession)

  /** Booking `b` holds user `userId`'s place in class `classId`. */
  predicate Holds(b: Booking, userId: Id, classId: Id) {
    b.userId == Some(userId) && b.classId == classId
  }

  /** A user already has a booking, of any status, in the class. */
  predicate HasBooking(s: Store, userId: Id, classId: Id) {
    exists i :: 0 <= i < |s.bookings| && Holds(s.bookings[i], userId, classId)
  }

  /** `b` counts as a participant of class `classId`: it belongs to a user. */
  predicate Participates(classId: Id, b: Booking) {
    b.classId == classId && b.userId.Some?
  }

  /** `Participates` as a filter argument. */
  function ParticipantOf(classId: Id): Booking -> bool {
    (b: Booking) => Participates(classId, b)
  }

  /** The bookings of a class that belong to a user: the reported participant count. */
  function ParticipantCount(s: Store, classId: Id): nat {
    Count(s.bookings, ParticipantOf(classId))
  }

  /** No user holds two bookings of the same class. */
  predicate OneBookingPerUserAndClass(s: Store) {
    forall i, j :: 0 <= i < j < |s.bookings| && s.bookings[i].userId.Some? ==>
      !Holds(s.bookings[j], s.bookings[i].userId.value, s.bookings[i].classId)
  }

  /** Booking identifiers are distinct. */
  predicate DistinctBookingIds(s: Store) {
    forall i, j :: 0 <= i < j < |s.bookings| ==> s.bookings[i].id != s.bookings[j].id
  }

  /** `id` names no existing booking: a freshly generated UUID. */
  predicate FreshBookingId(s: Store, id: Id) {
    forall i :: 0 <= i < |s.bookings| ==> s.bookings[i].id != id
  }

  /**
   * `POST /bookings` for the signed-in user `userId`: refused when the user
   * already holds the class, when the class does not exist, or when it
   * starts less than ninety minutes from now; otherwise a booking row is
   * appended and the class is reported with its recounted participants.
   */
  function CreateBooking(s: Store, userId: Id, req: BookingRequest, now: Minutes, newId: Id): (r: Result<Created, ApiError>)
    ensures r == Err(BookingExists) <==> HasBooking(s, userId, req.classId)
    ensures r == Err(ClassNotFound) <==> !HasBooking(s, userId, req.classId) && FindClass(s.classes, req.classId).None?
    ensures r.Err? ==> r.error in {BookingExists, ClassNotFound, TooLateToBook}
    ensures r == Err(TooLateToBook) <==>
      (!HasBooking(s, userId, req.classId) && FindClass(s.classes, req.classId).Some? &&
       ClassStart(FindClass(s.classes, req.classId).value) - now < BookingLeadMinutes)
    ensures r.Ok? <==>
      (!HasBooking(s, userId, req.classId) && FindClass(s.classes, req.classId).Some? &&
       ClassStart(FindClass(s.classes, req.classId).value) - now >= BookingLeadMinutes)
    ensures r.Ok? ==> && r.value.store.bookings == s.bookings + [Booking(newId, Some(userId), req.classId, req.status)]
                      && r.value.store.users == s.users
                      && r.value.store.classes == s.classes
                      && r.value.store.subscriptions == s.subscriptions
                      && r.value.booking == Booking(newId, Some(userId), req.classId, req.status)
                      && r.value.bookedClass.id == req.classId
                      && r.value.bookedClass.currentParticipants == ParticipantCount(s, req.classId) + 1
                      && ClassStart(r.value.bookedClass) - now >= BookingLeadMinutes
  {
    if HasBooking(s, userId, req.classId) then Err(BookingExists)
    else match FindClass(s.classes, req.classId)
      case None => Err(ClassNotFound)
      case Some(c) =>
        if ClassStart(c) - now < BookingLeadMinutes then Err(TooLateToBook)
        else
          var b := Booking(newId, Some(userId), req.classId, req.status);
          var s' := s.(bookings := s.bookings + [b]);
          CountAppend(s.bookings, [b], ParticipantOf(req.classId));
          Ok(Created(s', b, c.(currentParticipants := ParticipantCount(s', req.classId))))
  }

  /** The position of the booking with identifier `id`: a primary-key lookup. */
  function FindBooking(s: Store, id: Id): (r: Option<nat>)
    ensures r.Some? ==> r.value < |s.bookings| && s.bookings[r.value].id == id
    ensures r.None? <==> forall i :: 0 <= i < |s.bookings| ==> s.bookings[i].id != id
  {
    FirstIndex(s.bookings, (b: Booking) => b.id == id)
  }

  /**
   * `DELETE /bookings/{id}` by user `userId`: refused when the booking does
   * not exist, is someone else's, its class is gone, or the class starts
   * less than two hours from now; otherwise the row is deleted.
   */
  function CancelBooking(s: Store, userId: Id, bookingId: Id, now: Minutes): (r: Result<Store, ApiError>)
    ensures FindBooking(s, bookingId).None? <==> r == Err(BookingNotFound)
    ensures r.Err? ==> r.error in {BookingNotFound, NotYourBooking, ClassNotFound, TooLateToCancel}
    ensures r == Err(NotYourBooking) <==>
      FindBooking(s, bookingId).Some? && s.bookings[FindBooking(s, bookingId).value].userId != Some(userId)
    ensures r == Err(ClassNotFound) <==>
      && FindBooking(s, bookingId).Some?
      && s.bookings[FindBooking(s, bookingId).value].userId == Some(userId)
      && FindClass(s.classes, s.bookings[FindBooking(s, bookingId).value].classId).None?
    ensures r == Err(TooLateToCancel) <==>
      && FindBooking(s, bookingId).Some?
      && var b := s.bookings[FindBooking(s, bookingId).value];
      && b.userId == Some(userId)
      && FindClass(s.classes, b.classId).Some?
      && ClassStart(FindClass(s.classes, b.classId).value) - now < CancelLeadMinutes
    ensures r.Ok? <==>
      && FindBooking(s, bookingId).Some?
      && var b := s.bookings[FindBooking(s, bookingId).value];
      && b.userId == Some(userId)
      && FindClass(s.classes, b.classId).Some?
      && ClassStart(FindClass(s.classes, b.classId).value) - now >= CancelLeadMinutes
    ensures r.Ok? ==> && FindBooking(s, bookingId).Some?
                      && var i := FindBooking(s, bookingId).value;
                      && s.bookings[i].userId == Some(userId)
                      && FindClass(s.classes, s.bookings[i].classId).Some?
                      && ClassStart(FindClass(s.classes, s.bookings[i].classId).value) - now >= CancelLeadMinutes
                      && r.value == s.(bookings := RemoveAt(s.bookings, i))
  {
    match FindBooking(s, bookingId)
    case None => Err(BookingNotFound)
    case Some(i) =>
      var b := s.bookings[i];
      if b.userId != Some(userId) then Err(NotYourBooking)
      else match FindClass(s.classes, b.classId)
        case None => Err(ClassNotFound)
        case Some(c) =>
          if ClassStart(c) - now < CancelLeadMinutes then Err(TooLateToCancel)
          else Ok(s.(bookings := RemoveAt(s.bookings, i)))
  }

  /** Booking keeps every user to at most one booking per class. */
  lemma CreatePreservesOneBooking(s: Store, userId: Id, req: BookingRequest, now: Minutes, newId: Id)
    requires OneBookingPerUserAndClass(s)
    requires CreateBooking(s, userId, req, now, newId).Ok?
    ensures OneBookingPerUserAndClass(CreateBooking(s, userId, req, now, newId).value.store)
  {
    var s' := CreateBooking(s, userId, req, now, newId).value.store;
    var n := |s.bookings|;
    forall i, j | 0 <= i < j < |s'.bookings| && s'.bookings[i].userId.Some?
      ensures !Holds(s'.bookings[j], s'.bookings[i].userId.value, s'.bookings[i].classId)
    {
      if j == n && Holds(s'.bookings[j], s'.bookings[i].userId.value, s'.bookings[i].classId) {
        assert Holds(s.bookings[i], userId, req.classId);
      }
    }
  }

  /** Cancelling keeps every user to at most one booking per class. */
  lemma CancelPreservesOneBooking(s: Store, userId: Id, bookingId: Id, now: Minutes)
    requires OneBookingPerUserAndClass(s)
    requires CancelBooking(s, userId, bookingId, now).Ok?
    ensures OneBookingPerUserAndClass(CancelBooking(s, userId, bookingId, now).value)
  {
    var k := FindBooking(s, bookingId).value;
    var s' := CancelBooking(s, userId, bookingId, now).value;
    forall i, j | 0 <= i < j < |s'.bookings| && s'.bookings[i].userId.Some?
      ensures !Holds(s'.bookings[j], s'.bookings[i].userId.value, s'.bookings[i].classId)
    {
      var i0 := if i < k then i else i + 1;
      var j0 := if j < k then j else j + 1;
      assert s'.bookings[i] == s.bookings[i0] && s'.bookings[j] == s.bookings[j0];
    }
  }

  /** Booking keeps booking identifiers distinct when the new identifier is fresh. */
  lemma CreatePreservesDistinctIds(s: Store, userId: Id, req: BookingRequest, now: Minutes, newId: Id)
    requires DistinctBookingIds(s) && FreshBookingId(s, newId)
    requires CreateBooking(s, userId, req, now, newId).Ok?
    ensures DistinctBookingIds(CreateBooking(s, userId, req, now, newId).value.store)
  {
  }

  /**
   * Booking and then cancelling the new booking, while the class is still
   * at least two hours away, gives back the store as it was.
   */
  lemma CreateThenCancel(s: Store, userId: Id, req: BookingRequest, now: Minutes, newId: Id, later: Minutes)
    requires FreshBookingId(s, newId)
    requires CreateBooking(s, userId, req, now, newId).Ok?
    requires ClassStart(FindClass(s.classes, req.classId).value) - later >= CancelLeadMinutes
    ensures CancelBooking(CreateBooking(s, userId, req, now, newId).value.store, userId, newId, later) == Ok(s)
  {
    var s' := CreateBooking(s, userId, req, now, newId).value.store;
    var n := |s.bookings|;
    assert s'.bookings[n].id == newId;
    var k := FindBooking(s', newId).value;
    assert k == n;
    assert RemoveAt(s'.bookings, n) == s.bookings;
  }

  /** After a successful cancel the user may book the same class again, timing permitting. */
  lemma CancelThenRebook(s: Store, userId: Id, bookingId: Id, now: Minutes, later: Minutes, newId: Id)
    requires OneBookingPerUserAndClass(s)
    requires CancelBooking(s, userId, bookingId, now).Ok?
    ensures var b := s.bookings[FindBooking(s, bookingId).value];
            var s' := CancelBooking(s, userId, bookingId, now).value;
            ClassStart(FindClass(s.classes, b.classId).value) - later >= BookingLeadMinutes ==>
              CreateBooking(s', userId, BookingRequest(b.classId, b.status), later, newId).Ok?
  {
    var k := FindBooking(s, bookingId).value;
    var b := s.bookings[k];
    var s' := CancelBooking(s, userId, bookingId, now).value;
    forall j | 0 <= j < |s'.bookings|
      ensures !Holds(s'.bookings[j], userId, b.classId)
    {
      if j < k {
        assert s'.bookings[j] == s.bookings[j];
      } else {
        assert s'.bookings[j] == s.bookings[j + 1];
      }
    }
  }

  /**
   * The booking window is wider than the cancelling window: a booking made
   * less than two hours before its class can never be cancelled afterwards.
   */
  lemma LateBookingCannotBeCancelled(s: Store, userId: Id, req: BookingRequest, now: Minutes, newId: Id, later: Minutes)
    requires FreshBookingId(s, newId)
    requires CreateBooking(s, userId, req, now, newId).Ok?
    requires ClassStart(FindClass(s.classes, req.classId).value) - now < CancelLeadMinutes
    requires now <= later
    ensures CancelBooking(CreateBooking(s, userId, req, now, newId).value.store, userId, newId, later) == Err(TooLateToCancel)
  {
    var s' := CreateBooking(s, userId, req, now, newId).value.store;
    var n := |s.bookings|;
    assert s'.bookings[n].id == newId;
    assert FindBooking(s', newId).value == n;
  }

  /** Cancelling removes exactly one participant from the class. */
  lemma CancelDropsOneParticipant(s: Store, userId: Id, bookingId: Id, now: Minutes)
    requires CancelBooking(s, userId, bookingId, now).Ok?
    ensures var b := s.bookings[FindBooking(s, bookingId).value];
            ParticipantCount(CancelBooking(s, userId, bookingId, now).value, b.classId) + 1 == ParticipantCount(s, b.classId)
  {
    var k := FindBooking(s, bookingId).value;
    var b := s.bookings[k];
    var p := ParticipantOf(b.classId);
    assert s.bookings == s.bookings[..k] + [b] + s.bookings[k + 1..];
    CountAppend(s.bookings[..k] + [b], s.bookings[k + 1..], p);
    CountAppend(s.bookings[..k], [b], p);
    CountAppend(s.bookings[..k], s.bookings[k + 1..], p);
    assert RemoveAt(s.bookings, k) == s.bookings[..k] + s.bookings[k + 1..];
  }
}

=== FILE: booking_rules.dfy ===
/**
 * The booking policy: the ordered chain of checks that accepts or rejects a
 * user's booking of a class, judged against the user's latest subscription
 * and existing bookings.
 */
module BookingRules {
  import opened Wrappers
  import opened Text
  import opened Seqs
  import opened Models
  import opened CalcClass
  import UserTable

  /** Why a booking is refused. `Raised` carries an error from code the rules call. */
  datatype Rejection =
    | NoActiveSubscription
    | ExpiresBeforeClass
    | OneBookingPerDay
    | CadillacClassNeedsCadillacPlan
    | WeeklyLimit(limit: nat)
    | PackageCompleted
    | CadillacPackageOnly
    | Raised(error: ApiError)

  /** The HTTP status a rejection is reported with. */
  function RejectionStatus(r: Rejection): int {
    if r.Raised? then r.error.status else 400
  }

  /**
   * The subscription with the latest start date; among several with the
   * same start date, the first in table order.
   */
  function LatestSubscription(subs: seq<Subscription>): (r: Option<Subscription>)
    ensures r.None? <==> |subs| == 0
    ensures r.Some? ==> r.value in subs
    ensures r.Some? ==> forall x :: x in subs ==> x.startDate <= r.value.startDate
  {
    if |subs| == 0 then None
    else match LatestSubscription(subs[1..])
      case None => Some(subs[0])
      case Some(l) => if subs[0].startDate >= l.startDate then Some(subs[0]) else Some(l)
  }

  /** The Monday of the week holding day `d`. */
  function WeekStart(d: Day): Day {
    d - Weekday(d)
  }

  /** The Sunday of the week holding day `d`. */
  function WeekEnd(d: Day): Day {
    WeekStart(d) + 6
  }

  /**
   * The week window runs from a Monday to the following Sunday and holds
   * the class date; two days share a window exactly when they share a Monday.
   */
  lemma WeekWindow(d: Day, e: Day)
    ensures WeekStart(d) <= d <= WeekEnd(d)
    ensures WeekStart(d) % 7 == 0
    ensures WeekStart(d) <= e <= WeekEnd(d) <==> WeekStart(e) == WeekStart(d)
  {
  }

  /** Booking `b` is the user's and its class is on day `day`. */
  predicate OnDay(s: Store, userId: Id, day: Day, b: Booking) {
    b.userId == Some(userId) && match ClassOf(s, b) case None => false case Some(c) => c.date == day
  }

  /** Booking `b` is the user's and its class lies in the week of `day`. */
  predicate InWeekOf(s: Store, userId: Id, day: Day, b: Booking) {
    b.userId == Some(userId) &&
    match ClassOf(s, b) case None => false case Some(c) => WeekStart(day) <= c.date <= WeekEnd(day)
  }

  /** The user's bookings, of any status, on the class's day. */
  function SameDayBookings(s: Store, userId: Id, day: Day): nat {
    Count(s.bookings, (b: Booking) => OnDay(s, userId, day, b))
  }

  /** The user's bookings, of any status, in the class's Monday-to-Sunday week. */
  function WeeklyBookings(s: Store, userId: Id, day: Day): nat {
    Count(s.bookings, (b: Booking) => InWeekOf(s, userId, day, b))
  }

  /** Where the checks common to every plan leave a request. */
  datatype Stage = Rejected(why: Rejection) | Continue(sub: Subscription)

  /** The user's subscription the rules judge: the one with the latest start. */
  function Judged(s: Store, userId: Id): Option<Subscription> {
    LatestSubscription(SubscriptionsOf(s, userId))
  }

  /**
   * Subscription `sub` admits the class on the checks common to every
   * plan: it ends on the class's day or later, the user has no booking
   * that day, and a Cadillac class needs a Cadillac plan.
   */
  predicate PassesCommon(s: Store, userId: Id, cls: ClassSession, sub: Subscription) {
    && cls.date <= sub.endDate
    && SameDayBookings(s, userId, cls.date) == 0
    && (IsCadillacClass(cls.className) ==> IsCadillacModel(sub.model))
  }

  /**
   * Subscription `sub` admits the class on its plan's own rules: a timed
   * plan's week is below its cap, and a package has a total, lessons left,
   * and, for a Cadillac package, a Cadillac class.
   */
  predicate PassesPlan(s: Store, userId: Id, cls: ClassSession, sub: Subscription) {
    && (WeeklyCap(sub.model).Some? ==> WeeklyBookings(s, userId, cls.date) < WeeklyCap(sub.model).value)
    && (IsPackageModel(sub.model) ==>
          && sub.packageTotal.Some?
          && UsedClasses(s, userId, sub) < sub.packageTotal.value
          && (IsCadillacModel(sub.model) ==> IsCadillacClass(cls.className)))
  }

  /**
   * The checks every plan goes through, in order: a subscription exists,
   * it has not expired by the class date, the user has no booking that
   * day, and only Cadillac plans book Cadillac classes.
   */
  function CommonChecks(s: Store, userId: Id, cls: ClassSession): (r: Stage)
    ensures r == Rejected(NoActiveSubscription) <==> Judged(s, userId).None?
    ensures r.Continue? <==> Judged(s, userId).Some? && PassesCommon(s, userId, cls, Judged(s, userId).value)
    ensures r.Continue? ==> Judged(s, userId) == Some(r.sub) && r.sub in s.subscriptions && r.sub.userId == userId
    ensures r == Rejected(ExpiresBeforeClass) <==> Judged(s, userId).Some? && Judged(s, userId).value.endDate < cls.date
  {
    match LatestSubscription(SubscriptionsOf(s, userId))
    case None => Rejected(NoActiveSubscription)
    case Some(sub) =>
      if sub.endDate < cls.date then Rejected(ExpiresBeforeClass)
      else if SameDayBookings(s, userId, cls.date) >= 1 then Rejected(OneBookingPerDay)
      else if IsCadillacClass(cls.className) && !IsCadillacModel(sub.model) then Rejected(CadillacClassNeedsCadillacPlan)
      else Continue(sub)
  }

  /** The weekly cap of a timed plan, the number its name ends in; the other plans have none. */
  function WeeklyCap(m: SubscriptionModel): (r: Option<nat>)
    ensures r.Some? <==> m in {Subscription2, Subscription3, Subscription5}
    ensures r.Some? ==> ModelName(m) == "subscription_" + NatToString(r.value)
  {
    match m
    case Subscription2 => Some(2)
    case Subscription3 => Some(3)
    case Subscription5 => Some(5)
    case _ => None
  }

  /** The lessons left on the judged package, or the error computing them raises. */
  function RemainingOnPackage(s: Store, userId: Id, sub: Subscription): (r: Result<nat, ApiError>)
    ensures r.Err? <==> sub.packageTotal.None?
    ensures r.Err? ==> r.error == Crash("TypeError")
    ensures r.Ok? ==> (r.value > 0 <==> UsedClasses(s, userId, sub) < sub.packageTotal.value)
  {
    if sub.packageTotal.None? then Err(Crash("TypeError"))
    else Ok(EntryFor(s, userId, sub).remainingClasses)
  }

  /** The plan-specific rules: weekly caps, then package exhaustion and Cadillac-only packages. */
  function PlanRules(s: Store, userId: Id, cls: ClassSession, sub: Subscription): (r: Outcome<Rejection>)
    ensures r == Pass <==> PassesPlan(s, userId, cls, sub)
    ensures WeeklyCap(sub.model).Some? && WeeklyBookings(s, userId, cls.date) >= WeeklyCap(sub.model).value ==>
      r == Fail(WeeklyLimit(WeeklyCap(sub.model).value))
    ensures r.Fail? && r.error.Raised? ==> r.error.error == Crash("TypeError") && sub.packageTotal.None?
  {
    var weekly := WeeklyBookings(s, userId, cls.date);
    if WeeklyCap(sub.model).Some? && weekly >= WeeklyCap(sub.model).value then
      Fail(WeeklyLimit(WeeklyCap(sub.model).value))
    else if IsPackageModel(sub.model) then
      match RemainingOnPackage(s, userId, sub)
      case Err(e) => Fail(Raised(e))
      case Ok(remaining) =>
        if remaining <= 0 then Fail(PackageCompleted)
        else if IsCadillacModel(sub.model) && !Contains(Lower(cls.className), "cadillac") then Fail(CadillacPackageOnly)
        else Pass
    else Pass
  }

  /**
   * `validate_booking_rules`, with the expiry test comparing calendar days
   * and the package branch comparing the remaining lessons of the judged
   * subscription with zero. A request is accepted exactly when the user
   * has a subscription and the latest one passes the common checks and its
   * plan's rules.
   */
  function ValidateBookingRules(s: Store, userId: Id, cls: ClassSession): (r: Outcome<Rejection>)
    ensures r == Fail(NoActiveSubscription) <==> Judged(s, userId).None?
    ensures r == Pass <==>
      && Judged(s, userId).Some?
      && PassesCommon(s, userId, cls, Judged(s, userId).value)
      && PassesPlan(s, userId, cls, Judged(s, userId).value)
  {
    match CommonChecks(s, userId, cls)
    case Rejected(why) => Fail(why)
    case Continue(sub) => PlanRules(s, userId, cls, sub)
  }

  /**
   * `validate_booking_rules` as written from the expiry test on, with that
   * test read as a comparison of calendar days (as written it raises first;
   * see `ValidateUpToExpiryAsWritten`): the package branch compares the
   * list `calculate_remaining_classes` returns with the integer 0, which
   * raises a TypeError once the list has been computed.
   */
  function ValidateBookingRulesAsWritten(s: Store, userId: Id, cls: ClassSession): (r: Outcome<Rejection>)
    ensures Judged(s, userId).Some? && IsPackageModel(Judged(s, userId).value.model) ==> r != Pass
    ensures r == Pass ==> ValidateBookingRules(s, userId, cls) == Pass
  {
    match CommonChecks(s, userId, cls)
    case Rejected(why) => Fail(why)
    case Continue(sub) =>
      var weekly := WeeklyBookings(s, userId, cls.date);
      if WeeklyCap(sub.model).Some? && weekly >= WeeklyCap(sub.model).value then
        Fail(WeeklyLimit(WeeklyCap(sub.model).value))
      else if IsPackageModel(sub.model) then
        if FindUser(s.users, userId).None? then Fail(Raised(UserNotFound))
        else Fail(Raised(Crash("TypeError")))
      else Pass
  }

  /**
   * `validate_booking_rules` as written up to its expiry test. The test
   * orders the subscription's end, a timezone-aware timestamp that is never
   * null, against the class's calendar date; Python refuses to order a
   * `datetime` against a `date` and raises a TypeError, so every user who
   * has a subscription stops here.
   */
  function ValidateUpToExpiryAsWritten(s: Store, userId: Id, cls: ClassSession): (r: Outcome<Rejection>)
    ensures r == Fail(NoActiveSubscription) <==> Judged(s, userId).None?
  {
    match LatestSubscription(SubscriptionsOf(s, userId))
    case None => Fail(NoActiveSubscription)
    case Some(_) => Fail(Raised(Crash("TypeError")))
  }

  /** One check of the chain: whether it fails, and the rejection it then gives. */
  datatype Check = Check(fails: bool, why: Rejection)

  /** The outcome of a chain of checks: the first failing check decides. */
  function FirstFailure(checks: seq<Check>): (r: Outcome<Rejection>)
    ensures r == Pass <==> forall i :: 0 <= i < |checks| ==> !checks[i].fails
    ensures r.Fail? ==> exists i :: 0 <= i < |checks| && checks[i].fails && checks[i].why == r.error &&
                          forall j :: 0 <= j < i ==> !checks[j].fails
  {
    if |checks| == 0 then Pass
    else if checks[0].fails then Fail(checks[0].why)
    else
      var r := FirstFailure(checks[1..]);
      assert forall i :: 1 <= i < |checks| ==> checks[i] == checks[1..][i - 1];
      r
  }

  /** Three checks in a row: the first failing one decides. */
  lemma FirstFailureOfThree(a: Check, b: Check, c: Check)
    ensures FirstFailure([a, b, c]) ==
      if a.fails then Fail(a.why) else if b.fails then Fail(b.why) else if c.fails then Fail(c.why) else Pass
  {
    assert [c][1..] == [];
    assert FirstFailure([c]) == if c.fails then Fail(c.why) else Pass;
    assert [b, c][1..] == [c];
    assert FirstFailure([b, c]) == if b.fails then Fail(b.why) else FirstFailure([c]);
    assert [a, b, c][1..] == [b, c];
  }

  /** A chain split in two: the second part runs only when the first passes. */
  lemma {:induction false} FirstFailureAppend(a: seq<Check>, b: seq<Check>)
    ensures FirstFailure(a + b) == if FirstFailure(a).Fail? then FirstFailure(a) else FirstFailure(b)
    decreases |a|
  {
    if |a| == 0 {
      assert a + b == b;
    } else {
      assert (a + b)[0] == a[0];
      assert (a + b)[1..] == a[1..] + b;
      FirstFailureAppend(a[1..], b);
    }
  }

  /** The checks every plan goes through, judged against subscription `sub`. */
  function CommonCheckList(s: Store, userId: Id, cls: ClassSession, sub: Subscription): seq<Check> {
    [ Check(sub.endDate < cls.date, ExpiresBeforeClass),
      Check(SameDayBookings(s, userId, cls.date) >= 1, OneBookingPerDay),
      Check(IsCadillacClass(cls.className) && !IsCadillacModel(sub.model), CadillacClassNeedsCadillacPlan) ]
  }

  /** The weekly caps of the timed plans. */
  function WeeklyCheckList(s: Store, userId: Id, cls: ClassSession, sub: Subscription): seq<Check> {
    var weekly := WeeklyBookings(s, userId, cls.date);
    [ Check(sub.model == Subscription2 && weekly >= 2, WeeklyLimit(2)),
      Check(sub.model == Subscription3 && weekly >= 3, WeeklyLimit(3)),
      Check(sub.model == Subscription5 && weekly >= 5, WeeklyLimit(5)) ]
  }

  /** The package checks: the count can be computed, is positive, and Cadillac packages book Cadillac classes. */
  function PackageCheckList(s: Store, userId: Id, cls: ClassSession, sub: Subscription): seq<Check> {
    var pkg := IsPackageModel(sub.model);
    var remaining := RemainingOnPackage(s, userId, sub);
    [ Check(pkg && remaining.Err?, Raised(Crash("TypeError"))),
      Check(pkg && remaining.Ok? && remaining.value <= 0, PackageCompleted),
      Check(pkg && IsCadillacModel(sub.model) && !IsCadillacClass(cls.className), CadillacPackageOnly) ]
  }

  /** The whole chain as a flat list, in the order the source runs it. */
  function CheckList(s: Store, userId: Id, cls: ClassSession): seq<Check> {
    match LatestSubscription(SubscriptionsOf(s, userId))
    case None => [Check(true, NoActiveSubscription)]
    case Some(sub) =>
      CommonCheckList(s, userId, cls, sub) + WeeklyCheckList(s, userId, cls, sub) + PackageCheckList(s, userId, cls, sub)
  }

  lemma PlanRulesAreChecks(s: Store, userId: Id, cls: ClassSession, sub: Subscription)
    ensures PlanRules(s, userId, cls, sub) ==
      FirstFailure(WeeklyCheckList(s, userId, cls, sub) + PackageCheckList(s, userId, cls, sub))
  {
    var w := WeeklyCheckList(s, userId, cls, sub);
    var p := PackageCheckList(s, userId, cls, sub);
    FirstFailureAppend(w, p);
    FirstFailureOfThree(w[0], w[1], w[2]);
    FirstFailureOfThree(p[0], p[1], p[2]);
  }

  /**
   * The validator runs the checks in the fixed order: the first failing
   * check decides the rejection, and a request failing none is accepted.
   */
  lemma ValidateIsFirstFailure(s: Store, userId: Id, cls: ClassSession)
    ensures ValidateBookingRules(s, userId, cls) == FirstFailure(CheckList(s, userId, cls))
  {
    match LatestSubscription(SubscriptionsOf(s, userId))
    case None =>
      assert [Check(true, NoActiveSubscription)][1..] == [];
    case Some(sub) =>
      var c := CommonCheckList(s, userId, cls, sub);
      var w := WeeklyCheckList(s, userId, cls, sub);
      var p := PackageCheckList(s, userId, cls, sub);
      assert c + w + p == c + (w + p);
      FirstFailureAppend(c, w + p);
      FirstFailureOfThree(c[0], c[1], c[2]);
      PlanRulesAreChecks(s, userId, cls, sub);
  }

  /** With no subscription the booking is refused for that reason, and only then. */
  lemma NoSubscriptionRejected(s: Store, userId: Id, cls: ClassSession)
    ensures ValidateBookingRules(s, userId, cls) == Fail(NoActiveSubscription)
        <==> forall x :: x in s.subscriptions ==> x.userId != userId
  {
    var subs := SubscriptionsOf(s, userId);
    if |subs| > 0 {
      assert subs[0] in subs;
    }
  }

  /** The subscription judged is the user's one with the latest start date. */
  lemma JudgedIsLatest(s: Store, userId: Id, cls: ClassSession)
    requires CommonChecks(s, userId, cls).Continue?
    ensures forall x :: x in s.subscriptions && x.userId == userId ==>
              x.startDate <= CommonChecks(s, userId, cls).sub.startDate
  {
  }

  /**
   * A class after the end date is refused as expired; a class on the end
   * date itself gets past that check.
   */
  lemma ExpiryBoundary(s: Store, userId: Id, cls: ClassSession, sub: Subscription)
    requires LatestSubscription(SubscriptionsOf(s, userId)) == Some(sub)
    ensures sub.endDate < cls.date ==> ValidateBookingRules(s, userId, cls) == Fail(ExpiresBeforeClass)
    ensures sub.endDate >= cls.date ==> ValidateBookingRules(s, userId, cls) != Fail(ExpiresBeforeClass)
  {
  }

  /** An existing booking on the class's day, whatever its status, refuses the booking. */
  lemma SameDayRejected(s: Store, userId: Id, cls: ClassSession, sub: Subscription, b: Booking)
    requires LatestSubscription(SubscriptionsOf(s, userId)) == Some(sub)
    requires sub.endDate >= cls.date
    requires b in s.bookings && OnDay(s, userId, cls.date, b)
    ensures ValidateBookingRules(s, userId, cls) == Fail(OneBookingPerDay)
  {
    var p := (x: Booking) => OnDay(s, userId, cls.date, x);
    assert b in Filter(s.bookings, p);
  }

  /** A Cadillac class booked on any other plan is refused, after the earlier checks pass. */
  lemma CadillacClassNeedsCadillacPlanRejected(s: Store, userId: Id, cls: ClassSession, sub: Subscription)
    requires LatestSubscription(SubscriptionsOf(s, userId)) == Some(sub)
    requires sub.endDate >= cls.date && SameDayBookings(s, userId, cls.date) == 0
    requires IsCadillacClass(cls.className)
    requires sub.model !in {Family3Cadillac, CadillacPackage5, CadillacPackage10}
    ensures ValidateBookingRules(s, userId, cls) == Fail(CadillacClassNeedsCadillacPlan)
  {
  }

  /**
   * The timed plans cap the bookings of the class's week at 2, 3 and 5;
   * below the cap, and on the family, yoga and free plans, nothing more is
   * checked.
   */
  lemma WeeklyCaps(s: Store, userId: Id, cls: ClassSession, sub: Subscription)
    requires CommonChecks(s, userId, cls) == Continue(sub)
    ensures sub.model == Subscription2 ==>
      (ValidateBookingRules(s, userId, cls) == Fail(WeeklyLimit(2)) <==> WeeklyBookings(s, userId, cls.date) >= 2)
    ensures sub.model == Subscription3 ==>
      (ValidateBookingRules(s, userId, cls) == Fail(WeeklyLimit(3)) <==> WeeklyBookings(s, userId, cls.date) >= 3)
    ensures sub.model == Subscription5 ==>
      (ValidateBookingRules(s, userId, cls) == Fail(WeeklyLimit(5)) <==> WeeklyBookings(s, userId, cls.date) >= 5)
    ensures sub.model in {Subscription2, Subscription3, Subscription5} ==>
      (ValidateBookingRules(s, userId, cls) == Pass <==> ValidateBookingRules(s, userId, cls) != Fail(WeeklyLimit(WeeklyCap(sub.model).value)))
    ensures sub.model in {Family2, Family3, Family3Cadillac, Yoga4, Free} ==> ValidateBookingRules(s, userId, cls) == Pass
  {
  }

  /**
   * A package with no lessons left refuses the booking; a Cadillac package
   * with lessons left refuses every class whose name lacks "cadillac".
   */
  lemma PackageRules(s: Store, userId: Id, cls: ClassSession, sub: Subscription)
    requires CommonChecks(s, userId, cls) == Continue(sub)
    requires IsPackageModel(sub.model) && sub.packageTotal.Some?
    ensures EntryFor(s, userId, sub).remainingClasses == 0 ==> ValidateBookingRules(s, userId, cls) == Fail(PackageCompleted)
    ensures EntryFor(s, userId, sub).remainingClasses > 0 && sub.model in {CadillacPackage5, CadillacPackage10} ==>
      (ValidateBookingRules(s, userId, cls) == Pass <==> IsCadillacClass(cls.className))
    ensures EntryFor(s, userId, sub).remainingClasses > 0 && sub.model in {Package10, Package15, Package20} ==>
      ValidateBookingRules(s, userId, cls) == Pass
  {
  }

  /**
   * As written, no package subscriber gets past the package branch: the
   * request fails with a raised error, never with a 400 rejection and
   * never with acceptance.
   */
  lemma AsWrittenPackagePlansNeverPass(s: Store, userId: Id, cls: ClassSession, sub: Subscription)
    requires CommonChecks(s, userId, cls) == Continue(sub)
    requires IsPackageModel(sub.model)
    ensures ValidateBookingRulesAsWritten(s, userId, cls).Fail?
    ensures ValidateBookingRulesAsWritten(s, userId, cls).error.Raised?
    ensures RejectionStatus(ValidateBookingRulesAsWritten(s, userId, cls).error) in {404, 500}
  {
  }

  /**
   * Every user holding a subscription gets a 500 from the expiry test as
   * written, whatever the class and whatever the corrected rules decide.
   */
  lemma AsWrittenExpiryAlwaysRaises(s: Store, userId: Id, cls: ClassSession, sub: Subscription)
    requires sub in s.subscriptions && sub.userId == userId
    ensures ValidateUpToExpiryAsWritten(s, userId, cls) == Fail(Raised(Crash("TypeError")))
    ensures RejectionStatus(ValidateUpToExpiryAsWritten(s, userId, cls).error) == 500
  {
    assert sub in SubscriptionsOf(s, userId);
  }

  /**
   * A concrete request showing the expiry defect: a user on a two-session
   * plan running until day 30 books a mat class on day 10; the corrected
   * rules accept, the code as written raises.
   */
  lemma ExpiryCounterexample()
    ensures var s := Store([User(1, "6900000000", Some(1), "1", Some(Client), Some(UserTable.Subscription2), Some(0), true)], [], [],
                           [Subscription(7, 1, Subscription2, 0, 30, None, None, None, None)]);
            var cls := ClassSession(5, "Mat", 10, 600, 0, 10);
            && ValidateBookingRules(s, 1, cls) == Pass
            && ValidateUpToExpiryAsWritten(s, 1, cls) == Fail(Raised(Crash("TypeError")))
  {
    var s := Store([User(1, "6900000000", Some(1), "1", Some(Client), Some(UserTable.Subscription2), Some(0), true)], [], [],
                   [Subscription(7, 1, Subscription2, 0, 30, None, None, None, None)]);
    var cls := ClassSession(5, "Mat", 10, 600, 0, 10);
    assert Lower("Mat") == "mat";
    MissingCharNotContained("mat", "cadillac", 'c');
    assert SubscriptionsOf(s, 1) == s.subscriptions;
  }

  /** Outside the package branch the code as written and the corrected rules agree. */
  lemma AsWrittenAgreesOffPackages(s: Store, userId: Id, cls: ClassSession)
    requires CommonChecks(s, userId, cls).Rejected? || !IsPackageModel(CommonChecks(s, userId, cls).sub.model)
    ensures ValidateBookingRulesAsWritten(s, userId, cls) == ValidateBookingRules(s, userId, cls)
  {
  }

  /**
   * A concrete request showing the defect: a user on a fresh ten-lesson
   * package books a mat class; the corrected rules accept, the code as
   * written raises.
   */
  lemma PackageBookingCounterexample()
    ensures var s := Store([User(1, "6900000000", Some(1), "1", Some(Client), Some(UserTable.Package10), Some(10), true)], [], [],
                           [Subscription(7, 1, Package10, 0, 30, Some(10), None, None, None)]);
            var cls := ClassSession(5, "Mat", 10, 600, 0, 10);
            && ValidateBookingRules(s, 1, cls) == Pass
            && ValidateBookingRulesAsWritten(s, 1, cls) == Fail(Raised(Crash("TypeError")))
  {
    var s := Store([User(1, "6900000000", Some(1), "1", Some(Client), Some(UserTable.Package10), Some(10), true)], [], [],
                   [Subscription(7, 1, Package10, 0, 30, Some(10), None, None, None)]);
    var cls := ClassSession(5, "Mat", 10, 600, 0, 10);
    assert Lower("Mat") == "mat";
    MissingCharNotContained("mat", "cadillac", 'c');
    assert SubscriptionsOf(s, 1) == s.subscriptions;
  }
}

=== FILE: bookings_page.dfy ===
/**
 * The bookings page: a table of bookings from which a booking is dropped
 * by identifier, with a user column only for instructors.
 */
module BookingsPage {
  import opened Wrappers
  import opened Seqs

  /** One row of the table, as the page holds it. */
  datatype BookingRow = BookingRow(id: int, date: string, name: string, from: string, to: string, user: string)

  /** Keeps the bookings whose identifier differs from `id`. */
  function NotId(id: int): BookingRow -> bool {
    (b: BookingRow) => b.id != id
  }

  /**
   * `handleCancel(id)`: every booking with that identifier removed, the
   * others kept in their order.
   */
  function CancelRows(rows: seq<BookingRow>, id: int): (r: seq<BookingRow>)
    ensures forall b :: b in r ==> b.id != id
    ensures forall b :: b in rows && b.id != id ==> b in r
    ensures IsSubsequence(r, rows)
  {
    FilterIsSubsequence(rows, NotId(id));
    Filter(rows, NotId(id))
  }

  /** Cancelling an identifier no booking has leaves the list as it was. */
  lemma CancelAbsentIsNoop(rows: seq<BookingRow>, id: int)
    requires forall b :: b in rows ==> b.id != id
    ensures CancelRows(rows, id) == rows
  {
    FilterAll(rows, NotId(id));
  }

  /** Cancelling the same identifier twice is cancelling it once. */
  lemma CancelTwiceIsOnce(rows: seq<BookingRow>, id: int)
    ensures CancelRows(CancelRows(rows, id), id) == CancelRows(rows, id)
  {
    FilterIdempotent(rows, NotId(id));
  }

  /** Cancelling two identifiers gives the same list in either order. */
  lemma CancelsCommute(rows: seq<BookingRow>, a: int, b: int)
    ensures CancelRows(CancelRows(rows, a), b) == CancelRows(CancelRows(rows, b), a)
  {
    FilterCommutes(rows, NotId(a), NotId(b));
  }

  /** The role of the stored user, if any user is stored. */
  predicate IsInstructor(role: Option<string>) {
    role == Some("instructor")
  }

  /** The header row: date, name, from, to, the user column for instructors, and the action column. */
  function Columns(role: Option<string>): (r: seq<string>)
    ensures "User" in r <==> IsInstructor(role)
    ensures |r| == if IsInstructor(role) then 6 else 5
    ensures r[..4] == ["Date", "Name", "From", "To"] && r[|r| - 1] == ""
  {
    ["Date", "Name", "From", "To"] + (if IsInstructor(role) then ["User"] else []) + [""]
  }

  /** The cells of a booking's row, matching the header. */
  function Cells(b: BookingRow, role: Option<string>): (r: seq<string>)
    ensures |r| == |Columns(role)|
    ensures IsInstructor(role) ==> r[4] == b.user
    ensures r[..4] == [b.date, b.name, b.from, b.to]
  {
    [b.date, b.name, b.from, b.to] + (if IsInstructor(role) then [b.user] else []) + [""]
  }

  /** The body of the table: one "No bookings found." row spanning the table, or one row per booking. */
  datatype Body = EmptyRow(colSpan: nat, text: string) | Rows(cells: seq<seq<string>>)

  function Render(rows: seq<BookingRow>, role: Option<string>): (r: Body)
    ensures r.EmptyRow? <==> |rows| == 0
    ensures r.EmptyRow? ==> r.colSpan == (if IsInstructor(role) then 6 else 5) && r.text == "No bookings found."
    ensures r.Rows? ==> |r.cells| == |rows|
    ensures r.Rows? ==> forall i :: 0 <= i < |rows| ==> r.cells[i] == Cells(rows[i], role)
  {
    if |rows| == 0 then EmptyRow(if IsInstructor(role) then 6 else 5, "No bookings found.")
    else Rows(seq(|rows|, i requires 0 <= i < |rows| => Cells(rows[i], role)))
  }

  /** Every rendered row, and the empty row's span, is exactly as wide as the header. */
  lemma BodyMatchesHeader(rows: seq<BookingRow>, role: Option<string>)
    ensures Render(rows, role).EmptyRow? ==> Render(rows, role).colSpan == |Columns(role)|
    ensures Render(rows, role).Rows? ==> forall i :: 0 <= i < |rows| ==> |Render(rows, role).cells[i]| == |Columns(role)|
  {
  }

  /** Cancelling the last booking leaves the empty row. */
  lemma CancellingTheLastBooking(b: BookingRow, role: Option<string>)
    ensures Render(CancelRows([b], b.id), role).EmptyRow?
  {
    assert !NotId(b.id)(b);
    assert [b][1..] == [];
  }
}

=== FILE: calc_class.dfy ===
/**
 * Remaining-lesson accounting for package subscriptions: how many
 * confirmed bookings fall inside a package's validity window, and how many
 * lessons are left.
 */
module CalcClass {
  import opened Wrappers
  import opened Text
  import opened Seqs
  import opened Models

  const UserNotFound: ApiError := ApiError(404, "Ο χρήστης δεν βρέθηκε.")
  const SubscriptionNotFound: ApiError := ApiError(404, "Η συνδρομή δεν βρέθηκε για τον χρήστη.")

  /** The SQL filter `class_name ILIKE '%cadillac%'`. */
  predicate IsCadillacClass(name: string) {
    Contains(Lower(name), "cadillac")
  }

  /** The match ignores case and position: "Cadillac Flow" is a Cadillac class, "Reformer" is not. */
  lemma CadillacClassNames()
    ensures IsCadillacClass("Cadillac Flow") && IsCadillacClass("Morning CADILLAC")
    ensures !IsCadillacClass("Reformer")
  {
    assert Lower("Cadillac Flow")[0..8] == "cadillac";
    OccurrenceContained(Lower("Cadillac Flow"), "cadillac", 0);
    assert Lower("Morning CADILLAC")[8..16] == "cadillac";
    OccurrenceContained(Lower("Morning CADILLAC"), "cadillac", 8);
    assert 'c' in "cadillac" && 'c' !in Lower("Reformer");
    MissingCharNotContained(Lower("Reformer"), "cadillac", 'c');
  }

  /** A subscription of `userId` on a package plan. */
  predicate OwnedPackage(sub: Subscription, userId: Id) {
    sub.userId == userId && IsPackageModel(sub.model)
  }

  /**
   * Booking `b` uses up a lesson of `sub`: it is the user's, confirmed, its
   * class lies in the subscription's window (both ends included), and the
   * class is a Cadillac class exactly when the plan is a Cadillac plan.
   */
  predicate UsesLessonOf(s: Store, userId: Id, sub: Subscription, b: Booking) {
    && b.userId == Some(userId)
    && b.status == Confirmed
    && match ClassOf(s, b)
       case None => false
       case Some(c) =>
         && sub.startDate <= c.date <= sub.endDate
         && (IsCadillacClass(c.className) <==> IsCadillacModel(sub.model))
  }

  /** `UsesLessonOf` as a filter argument. */
  function UsesLessonPred(s: Store, userId: Id, sub: Subscription): Booking -> bool {
    (b: Booking) => UsesLessonOf(s, userId, sub, b)
  }

  /** The number of bookings that used a lesson of `sub`. */
  function UsedClasses(s: Store, userId: Id, sub: Subscription): nat {
    Count(s.bookings, UsesLessonPred(s, userId, sub))
  }

  /** `max(0, total - used)`. */
  function Remaining(total: int, used: nat): (r: nat)
    ensures r >= total - used
    ensures r == 0 || r == total - used
    ensures total >= 0 ==> r <= total
    ensures used <= total ==> used + r == total
    ensures used >= total ==> r == 0
  {
    if total - used > 0 then total - used else 0
  }

  /** One element of the report: a package subscription and its usage. */
  datatype Entry = Entry(
    subscriptionId: Id,
    model: SubscriptionModel,
    startDate: Day,
    endDate: Day,
    usedClasses: nat,
    remainingClasses: nat)

  /** The report entry of a package subscription whose total is set. */
  function EntryFor(s: Store, userId: Id, sub: Subscription): (e: Entry)
    requires sub.packageTotal.Some?
    ensures e.subscriptionId == sub.id && e.model == sub.model
    ensures e.startDate == sub.startDate && e.endDate == sub.endDate
    ensures e.usedClasses == UsedClasses(s, userId, sub)
    ensures e.remainingClasses == Remaining(sub.packageTotal.value, e.usedClasses)
    ensures e.usedClasses <= |s.bookings|
    ensures e.usedClasses <= sub.packageTotal.value ==> e.usedClasses + e.remainingClasses == sub.packageTotal.value
  {
    var used := UsedClasses(s, userId, sub);
    Entry(sub.id, sub.model, sub.startDate, sub.endDate, used, Remaining(sub.packageTotal.value, used))
  }

  /** The subscription row after its `remaining_classes` column is refreshed. */
  function Refreshed(s: Store, userId: Id, sub: Subscription): (r: Subscription)
    ensures r.(remainingClasses := sub.remainingClasses) == sub
    ensures OwnedPackage(sub, userId) && sub.packageTotal.Some? ==>
              r.remainingClasses == Some(EntryFor(s, userId, sub).remainingClasses)
    ensures !OwnedPackage(sub, userId) ==> r == sub
  {
    if OwnedPackage(sub, userId) && sub.packageTotal.Some? then
      sub.(remainingClasses := Some(EntryFor(s, userId, sub).remainingClasses))
    else sub
  }

  /** `OwnedPackage` as a filter argument. */
  function OwnedBy(userId: Id): Subscription -> bool {
    (x: Subscription) => OwnedPackage(x, userId)
  }

  /** The package subscriptions of `userId`, in table order. */
  function PackageSubscriptions(s: Store, userId: Id): seq<Subscription> {
    Filter(s.subscriptions, OwnedBy(userId))
  }

  /** A package subscription of the user with a null total, on which `total - used` raises. */
  predicate HasTotalMissing(s: Store, userId: Id) {
    exists i :: 0 <= i < |s.subscriptions| && OwnedPackage(s.subscriptions[i], userId) && s.subscriptions[i].packageTotal.None?
  }

  /** What a successful calculation returns and leaves stored. */
  datatype Calculation = Calculation(entries: seq<Entry>, store: Store)

  /** `entries` lists, in order, the entry of every package subscription of the user in `subs`. */
  predicate EntriesMatch(s: Store, userId: Id, entries: seq<Entry>, subs: seq<Subscription>) {
    var pkgs := Filter(subs, OwnedBy(userId));
    && |entries| == |pkgs|
    && forall k :: 0 <= k < |pkgs| ==> pkgs[k].packageTotal.Some? && entries[k] == EntryFor(s, userId, pkgs[k])
  }

  /**
   * After scanning the rows `subs`: every package row of the user has a
   * total, `entries` lists their entries in order, and `updated` holds the
   * rows with refreshed remaining counts.
   */
  predicate Scanned(s: Store, userId: Id, entries: seq<Entry>, updated: seq<Subscription>, subs: seq<Subscription>) {
    && (forall j :: 0 <= j < |subs| && OwnedPackage(subs[j], userId) ==> subs[j].packageTotal.Some?)
    && EntriesMatch(s, userId, entries, subs)
    && |updated| == |subs|
    && (forall j :: 0 <= j < |subs| ==> updated[j] == Refreshed(s, userId, subs[j]))
  }

  /** Scanning one more row keeps `Scanned`. */
  lemma ScanStep(s: Store, userId: Id, entries: seq<Entry>, updated: seq<Subscription>, subs: seq<Subscription>, sub: Subscription)
    requires Scanned(s, userId, entries, updated, subs)
    requires OwnedPackage(sub, userId) ==> sub.packageTotal.Some?
    ensures OwnedPackage(sub, userId) ==>
      Scanned(s, userId, entries + [EntryFor(s, userId, sub)],
        updated + [sub.(remainingClasses := Some(EntryFor(s, userId, sub).remainingClasses))], subs + [sub])
    ensures !OwnedPackage(sub, userId) ==> Scanned(s, userId, entries, updated + [sub], subs + [sub])
  {
    FilterAppend(subs, [sub], OwnedBy(userId));
  }

  /**
   * `calculate_remaining_classes`: one entry per package subscription of
   * the user, in order, and the refreshed remaining counts written back to
   * the subscription rows.
   */
  method CalculateRemainingClasses(s: Store, userId: Id) returns (r: Result<Calculation, ApiError>)
    ensures FindUser(s.users, userId).None? ==> r == Err(UserNotFound)
    ensures FindUser(s.users, userId).Some? && HasTotalMissing(s, userId) ==> r == Err(Crash("TypeError"))
    ensures r.Ok? <==> FindUser(s.users, userId).Some? && !HasTotalMissing(s, userId)
    ensures r.Ok? ==> EntriesMatch(s, userId, r.value.entries, s.subscriptions)
    ensures r.Ok? ==>
      && r.value.store.users == s.users
      && r.value.store.classes == s.classes
      && r.value.store.bookings == s.bookings
      && |r.value.store.subscriptions| == |s.subscriptions|
      && forall i :: 0 <= i < |s.subscriptions| ==>
           r.value.store.subscriptions[i] == Refreshed(s, userId, s.subscriptions[i])
  {
    if FindUser(s.users, userId).None? {
      return Err(UserNotFound);
    }
    var subs := s.subscriptions;
    var entries: seq<Entry> := [];
    var updated: seq<Subscription> := [];
    var i := 0;
    while i < |subs|
      invariant 0 <= i <= |subs|
      invariant Scanned(s, userId, entries, updated, subs[..i])
    {
      var sub := subs[i];
      assert subs[..i + 1] == subs[..i] + [sub];
      if OwnedPackage(sub, userId) {
        if sub.packageTotal.None? {
          assert OwnedPackage(s.subscriptions[i], userId) && s.subscriptions[i].packageTotal.None?;
          return Err(Crash("TypeError"));
        }
        ScanStep(s, userId, entries, updated, subs[..i], sub);
        var e := EntryFor(s, userId, sub);
        entries := entries + [e];
        updated := updated + [sub.(remainingClasses := Some(e.remainingClasses))];
      } else {
        ScanStep(s, userId, entries, updated, subs[..i], sub);
        updated := updated + [sub];
      }
      i := i + 1;
    }
    assert subs[..i] == subs;
    r := Ok(Calculation(entries, s.(subscriptions := updated)));
  }

  /** What the per-subscription query reports. */
  datatype Report =
    | NotAPackage(subscriptionId: Id, model: SubscriptionModel)
    | PackageReport(entry: Entry)

  /** Subscription `x` has identifier `subscriptionId` and belongs to `userId`: the query's filter. */
  predicate Keyed(x: Subscription, subscriptionId: Id, userId: Id) {
    x.id == subscriptionId && x.userId == userId
  }

  /** The `i`th subscription is the first one the query's filter keeps, the row `.first()` returns. */
  predicate FirstKeyed(subs: seq<Subscription>, i: int, subscriptionId: Id, userId: Id) {
    && 0 <= i < |subs| && Keyed(subs[i], subscriptionId, userId)
    && forall j :: 0 <= j < i ==> !Keyed(subs[j], subscriptionId, userId)
  }

  /**
   * `calculate_remaining_classes_for_subscription`: the usage of one
   * subscription, found by its identifier and its owner.
   */
  function CalculateRemainingForSubscription(s: Store, userId: Id, subscriptionId: Id): (r: Result<Report, ApiError>)
    ensures r == Err(SubscriptionNotFound) <==> forall x :: x in s.subscriptions ==> !Keyed(x, subscriptionId, userId)
    ensures forall i :: FirstKeyed(s.subscriptions, i, subscriptionId, userId) ==>
      var sub := s.subscriptions[i];
      && (!IsPackageModel(sub.model) ==> r == Ok(NotAPackage(subscriptionId, sub.model)))
      && (IsPackageModel(sub.model) && sub.packageTotal.None? ==> r == Err(Crash("TypeError")))
      && (IsPackageModel(sub.model) && sub.packageTotal.Some? ==>
            && r.Ok? && r.value.PackageReport?
            && r.value.entry.subscriptionId == subscriptionId && r.value.entry.model == sub.model
            && r.value.entry.usedClasses == UsedClasses(s, userId, sub)
            && r.value.entry.remainingClasses == Remaining(sub.packageTotal.value, UsedClasses(s, userId, sub)))
  {
    match FirstIndex(s.subscriptions, (x: Subscription) => Keyed(x, subscriptionId, userId))
    case None => Err(SubscriptionNotFound)
    case Some(k) =>
      var sub := s.subscriptions[k];
      if !IsPackageModel(sub.model) then Ok(NotAPackage(sub.id, sub.model))
      else if sub.packageTotal.None? then Err(Crash("TypeError"))
      else Ok(PackageReport(EntryFor(s, userId, sub)))
  }

  /**
   * The two queries agree: the per-subscription report of a package
   * subscription is the entry the whole-user report lists for it.
   */
  lemma ForSubscriptionAgrees(s: Store, userId: Id, sub: Subscription)
    requires sub in s.subscriptions && OwnedPackage(sub, userId) && sub.packageTotal.Some?
    requires forall x :: x in s.subscriptions && x.id == sub.id ==> x == sub
    ensures sub in PackageSubscriptions(s, userId)
    ensures CalculateRemainingForSubscription(s, userId, sub.id) == Ok(PackageReport(EntryFor(s, userId, sub)))
  {
    var p := (x: Subscription) => Keyed(x, sub.id, userId);
    var f := FirstIndex(s.subscriptions, p);
    var i :| 0 <= i < |s.subscriptions| && s.subscriptions[i] == sub;
    assert f.Some? && s.subscriptions[f.value] == sub;
  }

  /** A booking that is not confirmed never uses a lesson. */
  lemma UnconfirmedBookingUsesNothing(s: Store, userId: Id, sub: Subscription, b: Booking)
    requires b.status != Confirmed
    ensures UsedClasses(s.(bookings := s.bookings + [b]), userId, sub) == UsedClasses(s, userId, sub)
  {
    var s' := s.(bookings := s.bookings + [b]);
    FilterSamePredicate(s'.bookings, UsesLessonPred(s', userId, sub), UsesLessonPred(s, userId, sub));
    CountAppend(s.bookings, [b], UsesLessonPred(s, userId, sub));
  }

  /**
   * A confirmed booking of the user for a class on either end of the window,
   * of the plan's kind, uses one more lesson.
   */
  lemma BoundaryBookingCounts(s: Store, userId: Id, sub: Subscription, b: Booking, c: ClassSession)
    requires b.userId == Some(userId) && b.status == Confirmed
    requires ClassOf(s, b) == Some(c)
    requires c.date == sub.startDate || c.date == sub.endDate
    requires sub.startDate <= sub.endDate
    requires IsCadillacClass(c.className) <==> IsCadillacModel(sub.model)
    ensures UsedClasses(s.(bookings := s.bookings + [b]), userId, sub) == UsedClasses(s, userId, sub) + 1
  {
    var s' := s.(bookings := s.bookings + [b]);
    FilterSamePredicate(s'.bookings, UsesLessonPred(s', userId, sub), UsesLessonPred(s, userId, sub));
    CountAppend(s.bookings, [b], UsesLessonPred(s, userId, sub));
  }

  /**
   * A Cadillac package and a general package over the same window share
   * out the user's confirmed bookings in that window: every such booking is
   * used by exactly one of the two.
   */
  lemma PackagesPartitionBookings(s: Store, userId: Id, general: Subscription, cadillac: Subscription)
    requires IsCadillacModel(cadillac.model) && !IsCadillacModel(general.model)
    requires general.startDate == cadillac.startDate && general.endDate == cadillac.endDate
    ensures UsedClasses(s, userId, general) + UsedClasses(s, userId, cadillac)
         == Count(s.bookings, (b: Booking) => InWindow(s, userId, general, b))
  {
    var q := (b: Booking) => match ClassOf(s, b) case None => false case Some(c) => IsCadillacClass(c.className);
    CountSplit(s.bookings, (b: Booking) => InWindow(s, userId, general, b),
      UsesLessonPred(s, userId, cadillac), UsesLessonPred(s, userId, general), q);
  }

  /** A confirmed booking of the user whose class lies in the subscription's window. */
  predicate InWindow(s: Store, userId: Id, sub: Subscription, b: Booking) {
    && b.userId == Some(userId)
    && b.status == Confirmed
    && match ClassOf(s, b)
       case None => false
       case Some(c) => sub.startDate <= c.date <= sub.endDate
  }
}

=== FILE: calendar_dates.dfy ===
/**
 * Proleptic Gregorian calendar dates as (year, month, day) triples, with
 * months counted from 1, shared by the parsers and formatters.
 */
module CalendarDates {
  datatype Date = Date(year: int, month: int, day: int)

  predicate IsLeapYear(y: int) {
    y % 4 == 0 && (y % 100 != 0 || y % 400 == 0)
  }

  function DaysInMonth(y: int, m: int): (n: int)
    requires 1 <= m <= 12
    ensures 28 <= n <= 31
  {
    if m == 2 then (if IsLeapYear(y) then 29 else 28)
    else if m in {4, 6, 9, 11} then 30
    else 31
  }

  /** A date that exists, in the years 1 to 9999 a Python `date` can hold. */
  predicate ValidDate(d: Date) {
    1 <= d.year <= 9999 && 1 <= d.month <= 12 && 1 <= d.day <= DaysInMonth(d.year, d.month)
  }
}

=== FILE: create_user_page.dfy ===
/**
 * The create-user page: a calendar whose day clicks select a one-day range
 * and whose quick second click on the same day clears it, and a form whose
 * submit validates the name and the city and resolves the selected dates.
 */
module CreateUserPage {
  import opened Wrappers
  import opened Text
  import opened Models

  /** Two clicks on the same day count as a double click when less than this many milliseconds apart. */
  const DoubleClickMs: int := 300

  /** The selected range: react-calendar's `[start, end]`, either end possibly null. */
  datatype Range = Range(start: Option<Day>, end: Option<Day>)

  const NoRange: Range := Range(None, None)

  /** The last day clicked and when, in milliseconds. */
  datatype LastClick = LastClick(date: Option<Day>, time: int)

  /** The calendar's state: the range, the last click, and whether a clear just happened. */
  datatype Picker = Picker(range: Range, last: LastClick, justCleared: bool)

  function InitialPicker(): (p: Picker)
    ensures p.range == NoRange && p.last.date.None? && !p.justCleared
  {
    Picker(NoRange, LastClick(None, 0), false)
  }

  /** A click on the day clicked last, less than 300 ms after it. */
  predicate IsDoubleClick(p: Picker, date: Day, now: int) {
    p.last.date == Some(date) && now - p.last.time < DoubleClickMs
  }

  /**
   * `handleDayClick`: a double click clears the range, forgets the last
   * click and notes the clear; any other click selects that one day and
   * records it.
   */
  function DayClick(p: Picker, date: Day, now: int): (r: Picker)
    ensures IsDoubleClick(p, date, now) ==> r == Picker(NoRange, LastClick(None, 0), true)
    ensures !IsDoubleClick(p, date, now) ==> r == Picker(Range(Some(date), Some(date)), LastClick(Some(date), now), false)
  {
    if p.last.date == Some(date) && now - p.last.time < DoubleClickMs then Picker(NoRange, LastClick(None, 0), true)
    else Picker(Range(Some(date), Some(date)), LastClick(Some(date), now), false)
  }

  /** The argument of the calendar's change event: an array of two ends, or something else. */
  datatype ChangeArg = NotArray | Pair(first: Option<Day>, second: Option<Day>)

  /**
   * `handleCalendarChange`: the change right after a clear is swallowed and
   * the note reset; otherwise the range is replaced only by an array whose
   * second end is set.
   */
  function CalendarChange(p: Picker, arg: ChangeArg): (r: Picker)
    ensures p.justCleared ==> r == p.(justCleared := false)
    ensures !p.justCleared && arg.Pair? && arg.second.Some? ==> r == p.(range := Range(arg.first, arg.second))
    ensures !p.justCleared && !(arg.Pair? && arg.second.Some?) ==> r == p
    ensures r.last == p.last
  {
    if p.justCleared then p.(justCleared := false)
    else if arg.Pair? && arg.second.Some? then p.(range := Range(arg.first, arg.second))
    else p
  }

  /**
   * A second click on the same day within 300 ms clears the range, and the
   * calendar change that the click also fires does not bring it back.
   */
  lemma DoubleClickClears(p: Picker, date: Day, t1: int, t2: int, arg: ChangeArg)
    requires !IsDoubleClick(p, date, t1)
    requires t2 - t1 < DoubleClickMs
    ensures DayClick(DayClick(p, date, t1), date, t2).range == NoRange
    ensures CalendarChange(DayClick(DayClick(p, date, t1), date, t2), arg).range == NoRange
    ensures !CalendarChange(DayClick(DayClick(p, date, t1), date, t2), arg).justCleared
  {
  }

  /** Exactly 300 ms apart is two single clicks: the day stays selected. */
  lemma ThreeHundredMsIsNotDouble(p: Picker, date: Day, t: int)
    requires !IsDoubleClick(p, date, t)
    ensures DayClick(DayClick(p, date, t), date, t + DoubleClickMs).range == Range(Some(date), Some(date))
  {
  }

  /** After a clear, the next click on the same day selects it again, however soon. */
  lemma ClickAfterClearSelects(p: Picker, date: Day, now: int)
    requires p.last.date.None?
    ensures DayClick(p, date, now).range == Range(Some(date), Some(date))
  {
  }

  /** Only the first change after a clear is swallowed; the next one with an end applies. */
  lemma SecondChangeApplies(p: Picker, a: ChangeArg, b: ChangeArg)
    requires p.justCleared
    requires b.Pair? && b.second.Some?
    ensures CalendarChange(CalendarChange(p, a), b).range == Range(b.first, b.second)
  {
  }

  /** The form's four text fields. */
  datatype Form = Form(name: string, phone: string, city: string, subscription: string)

  const EmptyForm: Form := Form("", "", "", "")

  /** `/^\d+$/`: one or more ASCII digits and nothing else. */
  predicate NameValid(name: string) {
    |name| > 0 && AllDigits(name)
  }

  /** `\w`: an ASCII letter, digit or underscore; the `i` flag adds nothing to it. */
  predicate IsWordChar(c: char) {
    ('a' <= c <= 'z') || ('A' <= c <= 'Z') || IsDigit(c) || c == '_'
  }

  /** `\s`: JavaScript's white space and line terminators. */
  predicate IsJsSpace(c: char) {
    var n := c as int;
    (9 <= n <= 13) || n == 32 || n == 0xA0 || n == 0x1680 || (0x2000 <= n <= 0x200A) ||
    n == 0x2028 || n == 0x2029 || n == 0x202F || n == 0x205F || n == 0x3000 || n == 0xFEFF
  }

  /** `/^[\w\s\d]+$/i`: one or more word or space characters and nothing else. */
  predicate CityValid(city: string) {
    |city| > 0 && forall i :: 0 <= i < |city| ==> IsWordChar(city[i]) || IsJsSpace(city[i])
  }

  /** A city written in Greek letters is rejected: `\w` covers only ASCII letters. */
  lemma GreekCityRejected()
    ensures !CityValid("Αθήνα")
    ensures CityValid("Athens 2")
  {
    assert !IsWordChar("Αθήνα"[0]) && !IsJsSpace("Αθήνα"[0]);
  }

  /** The result of a submit: a toast key, or the created user's dates, and the form and range afterwards. */
  datatype Submitted = Submitted(toast: Option<string>, created: Option<(Day, Day)>, form: Form, range: Range)

  /** Both ends give the range; only a start gives a one-day range; no start gives nothing. */
  function ResolveDates(range: Range): (r: Option<(Day, Day)>)
    ensures r.Some? <==> range.start.Some?
    ensures r.Some? ==> r.value.0 == range.start.value
    ensures r.Some? ==> r.value.1 == (if range.end.Some? then range.end.value else range.start.value)
  {
    if range.start.Some? && range.end.Some? then Some((range.start.value, range.end.value))
    else if range.start.Some? then Some((range.start.value, range.start.value))
    else None
  }

  /**
   * `handleSubmit`: the name, then the city, then the dates; the first
   * failure sets the toast to its message key and changes nothing else. A
   * success reports the dates and empties the form and the range.
   */
  function Submit(form: Form, range: Range): (r: Submitted)
    ensures !NameValid(form.name) ==> r == Submitted(Some("username_numbers_only"), None, form, range)
    ensures NameValid(form.name) && !CityValid(form.city) ==>
      r == Submitted(Some("location_letters_numbers_only"), None, form, range)
    ensures NameValid(form.name) && CityValid(form.city) && range.start.None? ==>
      r == Submitted(Some("select_dates"), None, form, range)
    ensures r.created.Some? <==> NameValid(form.name) && CityValid(form.city) && range.start.Some?
    ensures r.created.Some? ==> r.created == ResolveDates(range) && r.form == EmptyForm && r.range == NoRange && r.toast.None?
  {
    if !NameValid(form.name) then Submitted(Some("username_numbers_only"), None, form, range)
    else if !CityValid(form.city) then Submitted(Some("location_letters_numbers_only"), None, form, range)
    else match ResolveDates(range)
      case None => Submitted(Some("select_dates"), None, form, range)
      case Some(dates) => Submitted(None, Some(dates), EmptyForm, NoRange)
  }

  /** After a single click on a day, a valid form is created for that one day. */
  lemma SubmitAfterSingleClick(form: Form, p: Picker, date: Day, now: int)
    requires NameValid(form.name) && CityValid(form.city)
    requires !IsDoubleClick(p, date, now)
    ensures Submit(form, DayClick(p, date, now).range).created == Some((date, date))
  {
  }

  /** After a double click, even a valid form is refused for want of dates. */
  lemma SubmitAfterDoubleClick(form: Form, p: Picker, date: Day, now: int)
    requires NameValid(form.name) && CityValid(form.city)
    requires IsDoubleClick(p, date, now)
    ensures Submit(form, DayClick(p, date, now).range).toast == Some("select_dates")
  {
  }

  /**
   * A success empties the form, so `handleSubmit` called again at once
   * refuses at the name. In the page the browser's required-field check
   * stops that second submit earlier; see `FormSubmit`.
   */
  lemma SuccessCannotRepeat(form: Form, range: Range)
    requires Submit(form, range).created.Some?
    ensures var after := Submit(form, range);
            Submit(after.form, after.range).toast == Some("username_numbers_only")
  {
  }

  /** The name, phone, city and plan inputs carry `required`: the browser submits only when all four are filled. */
  predicate RequiredFilled(form: Form) {
    form.name != "" && form.phone != "" && form.city != "" && form.subscription != ""
  }

  /**
   * A submit of the form element: the browser runs `handleSubmit` only when
   * every required field is filled, and otherwise blocks the submit before
   * any handler runs, showing no toast and changing nothing.
   */
  function FormSubmit(form: Form, range: Range): (r: Option<Submitted>)
    ensures r.None? <==> !RequiredFilled(form)
    ensures r.Some? ==> r.value == Submit(form, range)
  {
    if RequiredFilled(form) then Some(Submit(form, range)) else None
  }

  /** After a success the form is empty, so the browser blocks the next submit before `handleSubmit`. */
  lemma BrowserBlocksRepeat(form: Form, range: Range)
    requires FormSubmit(form, range).Some? && FormSubmit(form, range).value.created.Some?
    ensures var after := FormSubmit(form, range).value;
            FormSubmit(after.form, after.range).None?
  {
  }

  /** A filled form reaches `handleSubmit`, and an empty name is refused by the browser, not by the name check. */
  lemma RequiredGateOrder(form: Form, range: Range)
    ensures RequiredFilled(form) ==> FormSubmit(form, range) == Some(Submit(form, range))
    ensures form.name == "" ==> FormSubmit(form, range).None? && Submit(form, range).toast == Some("username_numbers_only")
  {
  }

  /** What the page draws for its toast state. */
  datatype ToastView = NoToast | ToastShown(key: string) | RenderError(exception: string)

  /**
   * The page's local `Toast` component as written: it calls
   * `React.useEffect`, but the page imports only `useRef` and `useState`
   * and never binds `React`, so drawing any toast raises a ReferenceError.
   */
  function RenderToastAsWritten(toast: Option<string>): (v: ToastView)
    ensures v == NoToast <==> toast.None?
    ensures v.RenderError? <==> toast.Some?
  {
    if toast.Some? then RenderError("ReferenceError") else NoToast
  }

  /** The toast as intended: the message of its key, until it is dismissed. */
  function RenderToast(toast: Option<string>): (v: ToastView)
    ensures v == NoToast <==> toast.None?
    ensures toast.Some? ==> v == ToastShown(toast.value)
  {
    if toast.Some? then ToastShown(toast.value) else NoToast
  }

  /**
   * Every refused submit sets a toast, so as written the page fails to
   * draw exactly when the handler refuses, while the intended toast shows
   * the refusal's message; a success draws no toast either way.
   */
  lemma RefusalToastCrashesAsWritten(form: Form, range: Range)
    ensures var r := Submit(form, range);
            && (RenderToastAsWritten(r.toast).RenderError? <==> r.created.None?)
            && (r.created.None? ==> RenderToast(r.toast) == ToastShown(r.toast.value))
            && (r.created.Some? ==> RenderToast(r.toast) == NoToast && RenderToastAsWritten(r.toast) == NoToast)
  {
  }

  /** A name with a letter in it: the handler refuses, and the page as written cannot draw the refusal. */
  lemma LetterNameCounterexample()
    ensures var r := Submit(Form("anna", "6900000000", "Athens", "subscription_2"), NoRange);
            && RenderToast(r.toast) == ToastShown("username_numbers_only")
            && RenderToastAsWritten(r.toast) == RenderError("ReferenceError")
  {
    assert !IsDigit("anna"[0]);
  }
}

=== FILE: main_api.dfy ===
/**
 * The application's own routes: user creation with password
 * auto-numbering, the unauthenticated booking endpoint, the class listing
 * and the user view, each with the participant count it reports.
 */
module MainApi {
  import opened Wrappers
  import opened Seqs
  import opened Models
  import BookingRoutes
  import UserTable

  const UserExists: ApiError := ApiError(400, "User already exists")
  const UserNotFoundEn: ApiError := ApiError(404, "User not found")
  /** The database's unique constraint on passwords rejecting an insert. */
  const PasswordTaken: ApiError := Crash("IntegrityError")
  /** The response model refusing the object a route returns. */
  const ResponseInvalid: ApiError := Crash("ResponseValidationError")

  /** The body of `POST /users`: every field of `UserCreate` is required. */
  datatype UserRequest = UserRequest(
    phone: string,
    password: int,
    name: string,
    role: UserRole,
    subscriptionModel: UserTable.SubscriptionModel,
    packageTotal: int)

  /** A user with this phone number exists. */
  predicate PhoneTaken(s: Store, phone: string) {
    exists i :: 0 <= i < |s.users| && s.users[i].phone == phone
  }

  /** A user holds this password. */
  predicate PasswordInUse(s: Store, password: int) {
    exists i :: 0 <= i < |s.users| && s.users[i].password == Some(password)
  }

  /** The largest password held by any user, if any user holds one. */
  function MaxPassword(users: seq<User>): (r: Option<int>)
    ensures r.None? <==> forall i :: 0 <= i < |users| ==> users[i].password.None?
    ensures r.Some? ==> forall i :: 0 <= i < |users| && users[i].password.Some? ==> users[i].password.value <= r.value
    ensures r.Some? ==> exists i :: 0 <= i < |users| && users[i].password == Some(r.value)
  {
    if |users| == 0 then None
    else
      var rest := MaxPassword(users[1..]);
      assert forall i :: 1 <= i < |users| ==> users[i] == users[1..][i - 1];
      match users[0].password
      case None => rest
      case Some(p) =>
        if rest.None? || p >= rest.value then Some(p) else rest
  }

  /**
   * The password given to a user created with password 0: one more than the
   * highest password in use, or 1 when none is in use or the highest is 0.
   */
  function NextPassword(s: Store): (r: int)
    ensures PasswordInUse(s, r) == false
    ensures forall i :: 0 <= i < |s.users| && s.users[i].password.Some? ==> s.users[i].password.value < r
    ensures MaxPassword(s.users).None? ==> r == 1
    ensures MaxPassword(s.users).Some? ==>
      r == (if MaxPassword(s.users).value == 0 then 1 else MaxPassword(s.users).value + 1)
  {
    match MaxPassword(s.users)
    case None => 1
    case Some(m) => if m != 0 then m + 1 else 1
  }

  /** Passwords, where present, are distinct: the column's unique constraint. */
  predicate UniquePasswords(s: Store) {
    forall i, j :: 0 <= i < j < |s.users| && s.users[i].password.Some? ==> s.users[j].password != s.users[i].password
  }

  /**
   * `POST /users`: an existing phone is refused; a password of 0 (Python's
   * falsy integer) is replaced by `NextPassword`; a password already in use
   * is refused by the database; otherwise the user is appended.
   */
  function CreateUser(s: Store, req: UserRequest, newId: Id): (r: Result<(Store, User), ApiError>)
    ensures PhoneTaken(s, req.phone) <==> r == Err(UserExists)
    ensures r.Err? ==> r.error == UserExists || (r.error == PasswordTaken && req.password != 0 && PasswordInUse(s, req.password))
    ensures r.Ok? ==> && r.value.0.users == s.users + [r.value.1]
                      && r.value.0.classes == s.classes
                      && r.value.0.bookings == s.bookings
                      && r.value.0.subscriptions == s.subscriptions
                      && r.value.1.phone == req.phone && r.value.1.name == req.name && r.value.1.role == Some(req.role)
                      && r.value.1.subscriptionModel == Some(req.subscriptionModel)
                      && r.value.1.packageTotal == Some(req.packageTotal)
                      && r.value.1.id == newId && !r.value.1.hasAcceptedTerms
                      && (req.password != 0 ==> r.value.1.password == Some(req.password))
                      && (req.password == 0 ==> r.value.1.password == Some(NextPassword(s)))
                      && !PasswordInUse(s, r.value.1.password.value)
  {
    if PhoneTaken(s, req.phone) then Err(UserExists)
    else
      var password := if req.password == 0 then NextPassword(s) else req.password;
      if PasswordInUse(s, password) then Err(PasswordTaken)
      else
        var u := User(newId, req.phone, Some(password), req.name, Some(req.role),
                      Some(req.subscriptionModel), Some(req.packageTotal), false);
        Ok((s.(users := s.users + [u]), u))
  }

  /** A user created with password 0 never collides: the auto-numbered password is always free. */
  lemma AutoPasswordNeverCollides(s: Store, req: UserRequest, newId: Id)
    requires !PhoneTaken(s, req.phone) && req.password == 0
    ensures CreateUser(s, req, newId).Ok?
    ensures CreateUser(s, req, newId).value.1.password == Some(NextPassword(s))
  {
  }

  /** Creating a user keeps passwords unique. */
  lemma CreateUserPreservesUniquePasswords(s: Store, req: UserRequest, newId: Id)
    requires UniquePasswords(s)
    requires CreateUser(s, req, newId).Ok?
    ensures UniquePasswords(CreateUser(s, req, newId).value.0)
  {
    var s' := CreateUser(s, req, newId).value.0;
    var u := CreateUser(s, req, newId).value.1;
    var n := |s.users|;
    forall i, j | 0 <= i < j < |s'.users| && s'.users[i].password.Some?
      ensures s'.users[j].password != s'.users[i].password
    {
      if j == n {
        assert s'.users[i] == s.users[i];
      }
    }
  }

  /** The password numbering counts up: with no users, 1; after a user numbered p, p + 1. */
  lemma PasswordNumberingCountsUp(s: Store, req: UserRequest, newId: Id, req2: UserRequest, newId2: Id)
    requires !PhoneTaken(s, req.phone) && req.password == 0 && req2.password == 0
    requires !PhoneTaken(CreateUser(s, req, newId).value.0, req2.phone)
    ensures s.users == [] ==> CreateUser(s, req, newId).value.1.password == Some(1)
    ensures var (s', u) := CreateUser(s, req, newId).value;
            CreateUser(s', req2, newId2).value.1.password == Some(u.password.value + 1)
  {
    var (s', u) := CreateUser(s, req, newId).value;
    var p := u.password.value;
    var m := MaxPassword(s'.users);
    assert s'.users[|s.users|].password == Some(p);
    assert m.Some? && m.value >= p;
    assert forall i :: 0 <= i < |s.users| ==> s'.users[i] == s.users[i];
  }

  /** The body of the unauthenticated `POST /bookings`: the user is named in the body. */
  datatype BodyBooking = BodyBooking(userId: Id, classId: Id, status: string)

  /**
   * The unauthenticated `POST /bookings`: a second booking of the same user
   * for the same class is refused; otherwise the row is appended, with no
   * check of the class or of the time.
   */
  function CreateBookingByBody(s: Store, req: BodyBooking, newId: Id): (r: Result<Store, ApiError>)
    ensures BookingRoutes.HasBooking(s, req.userId, req.classId) <==> r == Err(BookingRoutes.BookingExists)
    ensures r.Err? ==> r == Err(BookingRoutes.BookingExists)
    ensures r.Ok? ==> r.value == s.(bookings := s.bookings + [Booking(newId, Some(req.userId), req.classId, req.status)])
  {
    if BookingRoutes.HasBooking(s, req.userId, req.classId) then Err(BookingRoutes.BookingExists)
    else Ok(s.(bookings := s.bookings + [Booking(newId, Some(req.userId), req.classId, req.status)]))
  }

  /** The body endpoint keeps every user to at most one booking per class, too. */
  lemma CreateByBodyPreservesOneBooking(s: Store, req: BodyBooking, newId: Id)
    requires BookingRoutes.OneBookingPerUserAndClass(s)
    requires CreateBookingByBody(s, req, newId).Ok?
    ensures BookingRoutes.OneBookingPerUserAndClass(CreateBookingByBody(s, req, newId).value)
  {
    var s' := CreateBookingByBody(s, req, newId).value;
    var n := |s.bookings|;
    forall i, j | 0 <= i < j < |s'.bookings| && s'.bookings[i].userId.Some?
      ensures !BookingRoutes.Holds(s'.bookings[j], s'.bookings[i].userId.value, s'.bookings[i].classId)
    {
      if j == n && BookingRoutes.Holds(s'.bookings[j], s'.bookings[i].userId.value, s'.bookings[i].classId) {
        assert BookingRoutes.Holds(s.bookings[i], req.userId, req.classId);
      }
    }
  }

  /** A class as listed: its row, the users holding a booking, and their number. */
  datatype ClassView = ClassView(session: ClassSession, users: seq<Id>, currentParticipants: nat)

  /** The users of a class's bookings that have one, in booking order. */
  function BookedUsers(bookings: seq<Booking>, classId: Id): (r: seq<Id>)
    ensures |r| == Count(bookings, BookingRoutes.ParticipantOf(classId))
    ensures forall u :: u in r <==> exists i :: 0 <= i < |bookings| && BookingRoutes.Holds(bookings[i], u, classId)
  {
    if |bookings| == 0 then []
    else
      var rest := BookedUsers(bookings[1..], classId);
      assert forall i :: 1 <= i < |bookings| ==> bookings[i] == bookings[1..][i - 1];
      if BookingRoutes.Participates(classId, bookings[0]) then [bookings[0].userId.value] + rest else rest
  }

  /** `GET /classes`: every class with its booked users, counting only bookings that have a user. */
  function ListClasses(s: Store): (r: seq<ClassView>)
    ensures |r| == |s.classes|
    ensures forall i :: 0 <= i < |r| ==>
      (&& r[i].session == s.classes[i].(currentParticipants := r[i].currentParticipants)
       && r[i].currentParticipants == |r[i].users|
       && r[i].currentParticipants == BookingRoutes.ParticipantCount(s, s.classes[i].id))
  {
    seq(|s.classes|, i requires 0 <= i < |s.classes| =>
      var users := BookedUsers(s.bookings, s.classes[i].id);
      ClassView(s.classes[i].(currentParticipants := |users|), users, |users|))
  }

  /** A booking of the viewed user, with its class as reported. */
  datatype BookingView = BookingView(booking: Booking, bookedClass: Option<ClassSession>)

  /** A class's bookings with status "confirmed", whoever holds them. */
  function ConfirmedOf(classId: Id): Booking -> bool {
    (b: Booking) => b.classId == classId && b.status == Confirmed
  }

  /** The view of one booking: its class, recounted over confirmed bookings. */
  function ViewBooking(s: Store, b: Booking): (v: BookingView)
    ensures v.booking == b
    ensures v.bookedClass.None? <==> forall c :: c in s.classes ==> c.id != b.classId
    ensures v.bookedClass.Some? ==>
      && v.bookedClass.value.id == b.classId
      && v.bookedClass.value.currentParticipants == Count(s.bookings, ConfirmedOf(b.classId))
      && v.bookedClass.value.(currentParticipants := ClassOf(s, b).value.currentParticipants) in s.classes
  {
    match ClassOf(s, b)
    case None => BookingView(b, None)
    case Some(c) => BookingView(b, Some(c.(currentParticipants := Count(s.bookings, ConfirmedOf(c.id)))))
  }

  /** Booking `b` belongs to user `userId`. */
  function OwnedByUser(userId: Id): Booking -> bool {
    (b: Booking) => b.userId == Some(userId)
  }

  /**
   * The response model `UserOut` accepts user `u`: the password, role,
   * plan and package total it declares as required are set, and every
   * booking of the user has the class that `BookingOut` requires.
   */
  predicate UserOutAccepts(s: Store, u: User) {
    && u.password.Some? && u.role.Some? && u.subscriptionModel.Some? && u.packageTotal.Some?
    && forall b :: b in s.bookings && b.userId == Some(u.id) ==> ClassOf(s, b).Some?
  }

  /**
   * `GET /users/{id}`: an unknown user is a 404; a user the response model
   * refuses is a 500; otherwise the user's bookings in table order, each
   * class with its confirmed bookings counted.
   */
  function GetUser(s: Store, userId: Id): (r: Result<(User, seq<BookingView>), ApiError>)
    ensures FindUser(s.users, userId).None? <==> r == Err(UserNotFoundEn)
    ensures r == Err(ResponseInvalid) <==>
      FindUser(s.users, userId).Some? && !UserOutAccepts(s, FindUser(s.users, userId).value)
    ensures r.Ok? ==> UserOutAccepts(s, r.value.0) && forall k :: 0 <= k < |r.value.1| ==> r.value.1[k].bookedClass.Some?
    ensures r.Ok? ==> && r.value.0 in s.users && r.value.0.id == userId
                      && |r.value.1| == Count(s.bookings, OwnedByUser(userId))
                      && forall k :: 0 <= k < |r.value.1| ==>
                           var v := r.value.1[k];
                           && v.booking in s.bookings && v.booking.userId == Some(userId)
                           && (v.bookedClass.Some? ==>
                                 (v.bookedClass.value.id == v.booking.classId &&
                                  v.bookedClass.value.currentParticipants == Count(s.bookings, ConfirmedOf(v.booking.classId))))
                           && (v.bookedClass.None? ==> ClassOf(s, v.booking).None?)
    ensures r.Ok? ==> && |r.value.1| == |Filter(s.bookings, OwnedByUser(userId))|
                      && forall k :: 0 <= k < |r.value.1| ==> r.value.1[k].booking == Filter(s.bookings, OwnedByUser(userId))[k]
  {
    match FindUser(s.users, userId)
    case None => Err(UserNotFoundEn)
    case Some(u) =>
      if !UserOutAccepts(s, u) then Err(ResponseInvalid)
      else
      var mine := Filter(s.bookings, OwnedByUser(userId));
      var views := seq(|mine|, k requires 0 <= k < |mine| => ViewBooking(s, mine[k]));
      assert forall k :: 0 <= k < |views| ==> views[k].booking == mine[k] && mine[k] in mine;
      Ok((u, views))
  }

  /** The bookings a list of views shows, in order. */
  function ViewedBookings(views: seq<BookingView>): (r: seq<Booking>)
    ensures |r| == |views| && forall k :: 0 <= k < |views| ==> r[k] == views[k].booking
  {
    seq(|views|, k requires 0 <= k < |views| => views[k].booking)
  }

  /**
   * For a known user the response model accepts, the user view lists every
   * booking the user holds and nothing else, each once and in table order.
   */
  lemma GetUserListsOwnBookings(s: Store, userId: Id)
    requires FindUser(s.users, userId).Some?
    ensures GetUser(s, userId).Ok? <==> UserOutAccepts(s, FindUser(s.users, userId).value)
    ensures GetUser(s, userId).Ok? ==>
            var shown := ViewedBookings(GetUser(s, userId).value.1);
            && IsSubsequence(shown, s.bookings)
            && (forall b :: b in shown ==> b.userId == Some(userId))
            && (forall b :: b in s.bookings && b.userId == Some(userId) ==> b in shown)
  {
    if GetUser(s, userId).Ok? {
      var mine := Filter(s.bookings, OwnedByUser(userId));
      var shown := ViewedBookings(GetUser(s, userId).value.1);
      assert shown == mine;
      FilterIsSubsequence(s.bookings, OwnedByUser(userId));
    }
  }

  /**
   * A user imported with an empty password and role field is stored with
   * both null; the user view cannot be serialised and answers 500, as it
   * does for a booking whose class is gone.
   */
  lemma UnservableUserViews()
    ensures GetUser(Store([User(1, "6900000000", None, "A", None, None, None, false)], [], [], []), 1) == Err(ResponseInvalid)
    ensures var s := Store([User(1, "6900000000", Some(1), "A", Some(Client), Some(UserTable.Free), Some(0), false)], [],
                           [Booking(2, Some(1), 9, Confirmed)], []);
            GetUser(s, 1) == Err(ResponseInvalid)
  {
    var s := Store([User(1, "6900000000", Some(1), "A", Some(Client), Some(UserTable.Free), Some(0), false)], [],
                   [Booking(2, Some(1), 9, Confirmed)], []);
    assert s.bookings[0] in s.bookings;
  }

  /**
   * The two routes count differently: the class listing counts bookings
   * that have a user, the user view counts confirmed ones. A cancelled
   * booking is counted by the first and not the second.
   */
  lemma ParticipantCountsDiffer()
    ensures var c := ClassSession(1, "Reformer", 0, 600, 0, 10);
            var s := Store([User(1, "6900000000", Some(1), "A", Some(Client), Some(UserTable.Subscription2), Some(0), false)], [c],
                           [Booking(2, Some(1), 1, "cancelled")], []);
            && ListClasses(s)[0].currentParticipants == 1
            && GetUser(s, 1).Ok?
            && GetUser(s, 1).value.1[0].bookedClass == Some(c.(currentParticipants := 0))
  {
    var c := ClassSession(1, "Reformer", 0, 600, 0, 10);
    var s := Store([User(1, "6900000000", Some(1), "A", Some(Client), Some(UserTable.Subscription2), Some(0), false)], [c],
                   [Booking(2, Some(1), 1, "cancelled")], []);
    assert Filter(s.bookings, OwnedByUser(1)) == s.bookings;
    assert Filter(s.bookings, ConfirmedOf(1)) == [];
    assert Filter(s.bookings, BookingRoutes.ParticipantOf(1)) == s.bookings;
  }
}

=== FILE: models.dfy ===
/**
 * The persisted entities of the booking backend: users, class sessions,
 * bookings and subscriptions, with the enumerations the booking rules
 * branch on.
 *
 * Identifiers (UUIDs in the database) are natural numbers. Calendar dates
 * are day numbers counted from Monday 1 January 2001, so that day `d` is a
 * Monday exactly when `d % 7 == 0`. Times of day are minutes after
 * midnight, and instants are minutes on the same scale as `Day * 1440`.
 */
module Models {
  import opened Wrappers
  import opened Text
  import opened Seqs
  import UserTable

  type Id = nat
  type Day = int
  type Minutes = int

  const MinutesPerDay: int := 1440

  /** Python's `date.weekday()`: Monday is 0 and Sunday is 6. */
  function Weekday(d: Day): (w: nat)
    ensures w < 7
    ensures (d - w) % 7 == 0
  {
    d % 7
  }

  /** Payment state of a subscription. */
  datatype PaymentStatus = Pending | Paid

  function PaymentStatusValue(p: PaymentStatus): string {
    match p
    case Pending => "Εκκρεμεί"
    case Paid => "Πληρωμένη"
  }

  /** The subscription plans a subscription row can hold. */
  datatype SubscriptionModel =
    | Subscription2 | Subscription3 | Subscription5
    | Family2 | Family3 | Family3Cadillac
    | Yoga4
    | Package10 | Package15 | Package20
    | CadillacPackage5 | CadillacPackage10
    | Free

  /** Every plan, in declaration order. */
  const AllModels: seq<SubscriptionModel> := [
    Subscription2, Subscription3, Subscription5,
    Family2, Family3, Family3Cadillac,
    Yoga4,
    Package10, Package15, Package20,
    CadillacPackage5, CadillacPackage10,
    Free
  ]

  /** The enumeration member's name, which the package test inspects. */
  function ModelName(m: SubscriptionModel): string {
    match m
    case Subscription2 => "subscription_2"
    case Subscription3 => "subscription_3"
    case Subscription5 => "subscription_5"
    case Family2 => "family_2"
    case Family3 => "family_3"
    case Family3Cadillac => "family_3_cadillac"
    case Yoga4 => "yoga_4"
    case Package10 => "package_10"
    case Package15 => "package_15"
    case Package20 => "package_20"
    case CadillacPackage5 => "cadillac_package_5"
    case CadillacPackage10 => "cadillac_package_10"
    case Free => "free"
  }

  /** The enumeration member's value, the text shown to users. */
  function ModelValue(m: SubscriptionModel): string {
    match m
    case Subscription2 => "συνδρομή *2"
    case Subscription3 => "συνδρομή *3"
    case Subscription5 => "συνδρομή *5"
    case Family2 => "family *2"
    case Family3 => "family *3"
    case Family3Cadillac => "family *3 + Cadillac"
    case Yoga4 => "πακέτο 4 YOGA"
    case Package10 => "πακέτο 10"
    case Package15 => "πακέτο 15"
    case Package20 => "πακέτο 20"
    case CadillacPackage5 => "πακέτο Cadillac 5"
    case CadillacPackage10 => "πακέτο Cadillac 10"
    case Free => "ελεύθερη"
  }

  /**
   * A plan with a fixed number of lessons. The source decides this by
   * testing whether the member's name contains "package";
   * `PackageModels` proves the two tests agree.
   */
  predicate IsPackageModel(m: SubscriptionModel) {
    m.Package10? || m.Package15? || m.Package20? || m.CadillacPackage5? || m.CadillacPackage10?
  }

  /**
   * A plan whose name mentions Cadillac, the source's test for restricting
   * lessons to Cadillac classes; `CadillacModels` proves the agreement.
   */
  predicate IsCadillacModel(m: SubscriptionModel) {
    m.Family3Cadillac? || m.CadillacPackage5? || m.CadillacPackage10?
  }

  /** The enumeration has exactly thirteen members, listed once each. */
  lemma AllModelsComplete(m: SubscriptionModel)
    ensures |AllModels| == 13
    ensures m in AllModels
    ensures forall i, j :: 0 <= i < j < |AllModels| ==> AllModels[i] != AllModels[j]
  {
  }

  /** No two members share a display value. */
  lemma ModelValuesDistinct(m1: SubscriptionModel, m2: SubscriptionModel)
    ensures ModelValue(m1) == ModelValue(m2) ==> m1 == m2
  {
  }

  /** No two members share a name. */
  lemma ModelNamesDistinct(m1: SubscriptionModel, m2: SubscriptionModel)
    ensures ModelName(m1) == ModelName(m2) ==> m1 == m2
  {
  }

  /**
   * A member's name contains "package" exactly for the three general
   * packages and the two Cadillac packages.
   */
  lemma PackageModels(m: SubscriptionModel)
    ensures Contains(ModelName(m), "package") <==> IsPackageModel(m)
  {
    if IsPackageModel(m) {
      PackageNamesSayPackage(m);
    } else {
      OtherNamesLackPackage(m);
    }
  }

  lemma PackageNamesSayPackage(m: SubscriptionModel)
    requires IsPackageModel(m)
    ensures Contains(ModelName(m), "package")
  {
    if m.CadillacPackage5? || m.CadillacPackage10? {
      assert ModelName(m)[9..16] == "package";
      OccurrenceContained(ModelName(m), "package", 9);
    } else {
      assert ModelName(m)[0..7] == "package";
      OccurrenceContained(ModelName(m), "package", 0);
    }
  }

  lemma OtherNamesLackPackage(m: SubscriptionModel)
    requires !IsPackageModel(m)
    ensures !Contains(ModelName(m), "package")
  {
    assert 'k' in "package" && 'k' !in ModelName(m);
    MissingCharNotContained(ModelName(m), "package", 'k');
  }

  /** The yoga plan's value begins with the Greek word for package, yet it is not a package plan. */
  lemma YogaIsNotAPackage()
    ensures IsPrefix("πακέτο", ModelValue(Yoga4))
    ensures !Contains(ModelName(Yoga4), "package")
  {
    assert ModelValue(Yoga4)[..6] == "πακέτο";
    OtherNamesLackPackage(Yoga4);
  }

  /** A member's name contains "cadillac" exactly for the three Cadillac plans. */
  lemma CadillacModels(m: SubscriptionModel)
    ensures Contains(ModelName(m), "cadillac") <==> IsCadillacModel(m)
  {
    if IsCadillacModel(m) {
      CadillacNamesSayCadillac(m);
    } else {
      OtherNamesLackCadillac(m);
    }
  }

  lemma CadillacNamesSayCadillac(m: SubscriptionModel)
    requires IsCadillacModel(m)
    ensures Contains(ModelName(m), "cadillac")
  {
    if m.Family3Cadillac? {
      assert ModelName(m)[9..17] == "cadillac";
      OccurrenceContained(ModelName(m), "cadillac", 9);
    } else {
      assert ModelName(m)[0..8] == "cadillac";
      OccurrenceContained(ModelName(m), "cadillac", 0);
    }
  }

  lemma OtherNamesLackCadillac(m: SubscriptionModel)
    requires !IsCadillacModel(m)
    ensures !Contains(ModelName(m), "cadillac")
  {
    assert 'd' in "cadillac" && 'd' !in ModelName(m);
    MissingCharNotContained(ModelName(m), "cadillac", 'd');
  }

  /** A subscription row. Model, start and end are mandatory; the rest may be null. */
  datatype Subscription = Subscription(
    id: Id,
    userId: Id,
    model: SubscriptionModel,
    startDate: Day,
    endDate: Day,
    packageTotal: Option<int>,
    remainingClasses: Option<int>,
    paymentStatus: Option<PaymentStatus>,
    note: Option<string>)

  /** Roles of the user table. */
  datatype UserRole = Client | Instructor | Admin

  function RoleName(r: UserRole): string {
    match r
    case Client => "client"
    case Instructor => "instructor"
    case Admin => "admin"
  }

  /**
   * A user row, with the columns the routes read and write. The plan
   * column takes the user table's own enumeration.
   */
  datatype User = User(
    id: Id,
    phone: string,
    password: Option<int>,
    name: string,
    role: Option<UserRole>,
    subscriptionModel: Option<UserTable.SubscriptionModel>,
    packageTotal: Option<int>,
    hasAcceptedTerms: bool)

  /** A scheduled class session. `time` is the start in minutes after midnight. */
  datatype ClassSession = ClassSession(
    id: Id,
    className: string,
    date: Day,
    time: Minutes,
    currentParticipants: int,
    maxParticipants: int)

  /** The instant a class starts, on the minute scale of `now`. */
  function ClassStart(c: ClassSession): Minutes {
    c.date * MinutesPerDay + c.time
  }

  /** A booking row. A null `userId` is a booking whose user is gone. */
  datatype Booking = Booking(id: Id, userId: Option<Id>, classId: Id, status: string)

  const Confirmed: string := "confirmed"

  /** The database as the routes see it: one sequence per table. */
  datatype Store = Store(
    users: seq<User>,
    classes: seq<ClassSession>,
    bookings: seq<Booking>,
    subscriptions: seq<Subscription>)

  /** The class session a booking joins to, if it exists. */
  function ClassOf(s: Store, b: Booking): (r: Option<ClassSession>)
    ensures r.Some? ==> r.value in s.classes && r.value.id == b.classId
    ensures r.None? ==> forall c :: c in s.classes ==> c.id != b.classId
  {
    FindClass(s.classes, b.classId)
  }

  /** The first class session with identifier `id`. */
  function FindClass(classes: seq<ClassSession>, id: Id): (r: Option<ClassSession>)
    ensures r.Some? ==> r.value in classes && r.value.id == id
    ensures r.None? ==> forall c :: c in classes ==> c.id != id
  {
    if |classes| == 0 then None
    else if classes[0].id == id then Some(classes[0])
    else FindClass(classes[1..], id)
  }

  /** The first user with identifier `id`. */
  function FindUser(users: seq<User>, id: Id): (r: Option<User>)
    ensures r.Some? ==> r.value in users && r.value.id == id
    ensures r.None? ==> forall u :: u in users ==> u.id != id
  {
    if |users| == 0 then None
    else if users[0].id == id then Some(users[0])
    else FindUser(users[1..], id)
  }

  /** A user's subscriptions, in table order: the `user.subscriptions` relationship. */
  function SubscriptionsOf(s: Store, userId: Id): (r: seq<Subscription>)
    ensures forall x :: x in r <==> x in s.subscriptions && x.userId == userId
  {
    Filter(s.subscriptions, (x: Subscription) => x.userId == userId)
  }

  /** The member of the subscription table's enumeration with the name of user-table plan `m`. */
  function Counterpart(m: UserTable.SubscriptionModel): (c: SubscriptionModel)
    ensures ModelName(c) == UserTable.ModelName(m)
  {
    match m
    case Subscription2 => Subscription2
    case Subscription3 => Subscription3
    case Subscription5 => Subscription5
    case Package10 => Package10
    case Package15 => Package15
    case Package20 => Package20
    case CadillacPackage5 => CadillacPackage5
    case CadillacPackage10 => CadillacPackage10
    case Free => Free
  }

  /** The plans of the subscription table with no member of their name in the user table's enumeration. */
  predicate OnlyInSubscriptionTable(c: SubscriptionModel) {
    c.Family2? || c.Family3? || c.Family3Cadillac? || c.Yoga4?
  }

  /** The user-table plan of the same name as subscription-table plan `c`, if there is one. */
  function FromSubscriptionTable(c: SubscriptionModel): (r: Option<UserTable.SubscriptionModel>)
    ensures r.None? <==> OnlyInSubscriptionTable(c)
    ensures r.Some? ==> Counterpart(r.value) == c && UserTable.ModelName(r.value) == ModelName(c)
  {
    match c
    case Subscription2 => Some(UserTable.Subscription2)
    case Subscription3 => Some(UserTable.Subscription3)
    case Subscription5 => Some(UserTable.Subscription5)
    case Package10 => Some(UserTable.Package10)
    case Package15 => Some(UserTable.Package15)
    case Package20 => Some(UserTable.Package20)
    case CadillacPackage5 => Some(UserTable.CadillacPackage5)
    case CadillacPackage10 => Some(UserTable.CadillacPackage10)
    case Free => Some(UserTable.Free)
    case _ => None
  }

  /**
   * The two enumerations disagree: the family and yoga plans have no
   * member of their name in the user table's enumeration, and two members
   * of the same name carry different display values.
   */
  lemma EnumerationsDiverge(m: UserTable.SubscriptionModel)
    ensures |UserTable.AllUserModels| == 9 && m in UserTable.AllUserModels
    ensures forall c :: OnlyInSubscriptionTable(c) ==> UserTable.ModelName(m) != ModelName(c)
    ensures UserTable.ModelValue(m) == ModelValue(Counterpart(m)) <==> !(m.Subscription3? || m.Subscription5?)
  {
  }
}

=== FILE: populate_db.dfy ===
/**
 * The CSV import of users: text fields are parsed into integers, dates and
 * enumeration members, and each row is either added or skipped. Rows are
 * checked against the users already stored; rows added earlier in the same
 * import are not visible to later rows.
 */
module PopulateDb {
  import opened Wrappers
  import opened Text
  import opened Seqs
  import opened Models
  import opened CalendarDates
  import UserTable
  import MainApi
  import ProgramsPage

  const ValueError: ApiError := Crash("ValueError")

  /**
   * The characters `int()` skips around its argument: tab to carriage
   * return and the space among ASCII, and above U+007F the characters
   * Unicode calls white space, which `int()` first turns into spaces. The
   * ASCII separators U+001C to U+001F, white space to `str.isspace`, are
   * not skipped.
   */
  predicate IsSpace(c: char) {
    var n := c as int;
    (9 <= n <= 13) || n == 32 || n == 0x85 || n == 0xA0 || n == 0x1680 ||
    (0x2000 <= n <= 0x200A) || n == 0x2028 || n == 0x2029 || n == 0x202F || n == 0x205F || n == 0x3000
  }

  /** The text after its leading spaces. */
  function TrimStart(s: string): (r: string)
    ensures |r| <= |s| && r == s[|s| - |r|..]
    ensures |r| > 0 ==> !IsSpace(r[0])
    ensures forall k :: 0 <= k < |s| - |r| ==> IsSpace(s[k])
    ensures (|s| == 0 || !IsSpace(s[0])) ==> r == s
  {
    if |s| > 0 && IsSpace(s[0]) then
      var r := TrimStart(s[1..]);
      assert forall k :: 1 <= k < |s| - |r| ==> s[k] == s[1..][k - 1];
      r
    else s
  }

  /** The text before its trailing spaces. */
  function TrimEnd(s: string): (r: string)
    ensures |r| <= |s| && r == s[..|r|]
    ensures |r| > 0 ==> !IsSpace(r[|r| - 1])
    ensures forall k :: |r| <= k < |s| ==> IsSpace(s[k])
    ensures (|s| == 0 || !IsSpace(s[|s| - 1])) ==> r == s
  {
    if |s| > 0 && IsSpace(s[|s| - 1]) then
      var r := TrimEnd(s[..|s| - 1]);
      assert forall k :: |r| <= k < |s| - 1 ==> s[k] == s[..|s| - 1][k];
      r
    else s
  }

  /**
   * The argument with its surrounding spaces removed: a slice of it that
   * neither starts nor ends with a space, and outside which there is
   * nothing but spaces.
   */
  function Strip(s: string): (r: string)
    ensures |r| > 0 ==> !IsSpace(r[0]) && !IsSpace(r[|r| - 1])
    ensures var i := |s| - |TrimStart(s)|;
            && 0 <= i <= |s| - |r| && r == s[i..i + |r|]
            && (forall k :: 0 <= k < i ==> IsSpace(s[k]))
            && (forall k :: i + |r| <= k < |s| ==> IsSpace(s[k]))
  {
    var t := TrimStart(s);
    var r := TrimEnd(t);
    TrimmedSlice(s, t, r);
    r
  }

  /** Trimming the start and then the end leaves a slice with only spaces outside it. */
  lemma TrimmedSlice(s: string, t: string, r: string)
    requires |t| <= |s| && t == s[|s| - |t|..] && (forall k :: 0 <= k < |s| - |t| ==> IsSpace(s[k]))
    requires |r| <= |t| && r == t[..|r|] && (forall k :: |r| <= k < |t| ==> IsSpace(t[k]))
    ensures var i := |s| - |t|;
            && r == s[i..i + |r|]
            && forall k :: i + |r| <= k < |s| ==> IsSpace(s[k])
  {
    var i := |s| - |t|;
    assert forall k :: i + |r| <= k < |s| ==> s[k] == t[k - i];
  }

  /**
   * Which characters `int()` skips: the ASCII white space and Unicode's,
   * but not the ASCII separators, so a field starting with U+001C is not a
   * number.
   */
  lemma SkippedCharacters()
    ensures IsSpace(' ') && IsSpace('\t') && IsSpace('\n') && IsSpace(0xA0 as char) && IsSpace(0x3000 as char)
    ensures !IsSpace(0x1C as char) && !IsSpace(0x1F as char) && !IsSpace('_')
    ensures ParseInt([0x1C as char, '5']) == Err(ValueError)
    ensures ParseInt([' ', '5', '\n']) == Ok(Some(5))
  {
    var t := [0x1C as char, '5'];
    StripKeeps(t);
    assert !IsDigitGroup(SignedBody(t));
    var u := [' ', '5', '\n'];
    assert TrimStart(u) == ['5', '\n'] by {
      assert u[1..] == ['5', '\n'];
    }
    assert TrimEnd(['5', '\n']) == ['5'] by {
      assert ['5', '\n'][..1] == ['5'];
    }
    assert DigitsValue(['5']) == 5 by {
      assert ['5'][..0] == [];
    }
    SignedUnsigned(['5']);
  }

  /** Decimal digits, with single underscores allowed between two digits. */
  predicate IsDigitGroup(s: string) {
    && |s| > 0 && IsDigit(s[0]) && IsDigit(s[|s| - 1])
    && (forall i :: 0 <= i < |s| ==> IsDigit(s[i]) || s[i] == '_')
    && (forall i :: 0 <= i < |s| - 1 ==> s[i] == '_' ==> s[i + 1] != '_')
  }

  /** The text with every underscore dropped. */
  function DropUnderscores(s: string): (r: string)
    ensures forall c :: c in r ==> c in s && c != '_'
  {
    if |s| == 0 then [] else (if s[0] == '_' then [] else [s[0]]) + DropUnderscores(s[1..])
  }

  /** The digits of a digit group, underscores dropped. */
  function GroupDigits(s: string): (r: string)
    requires IsDigitGroup(s)
    ensures AllDigits(r) && |r| > 0
  {
    var r := DropUnderscores(s);
    assert r[0] == s[0];
    assert forall c :: c in s ==> IsDigit(c) || c == '_';
    assert forall i :: 0 <= i < |r| ==> r[i] in r;
    r
  }

  /** Python's `int(text)` in base 10: optional spaces, an optional sign, a digit group. */
  function ParseIntText(text: string): (r: Result<int, ApiError>)
    ensures r.Err? ==> r.error == ValueError
    ensures r.Ok? <==> IsDigitGroup(SignedBody(Strip(text)))
  {
    ParseSigned(Strip(text))
  }

  /** An optional sign followed by a digit group, with no surrounding spaces. */
  function ParseSigned(t: string): (r: Result<int, ApiError>)
    ensures r.Err? ==> r.error == ValueError
    ensures r.Ok? <==> IsDigitGroup(SignedBody(t))
    ensures r.Ok? && |t| > 0 && t[0] == '-' ==> r.value <= 0
    ensures r.Ok? && !(|t| > 0 && t[0] == '-') ==> r.value >= 0
  {
    match ParseDigitGroup(SignedBody(t))
    case Err(e) => Err(e)
    case Ok(v) => Ok(if |t| > 0 && t[0] == '-' then -v else v)
  }

  /** The text after an optional leading sign. */
  function SignedBody(t: string): (r: string)
    ensures |r| <= |t|
  {
    if |t| > 0 && (t[0] == '-' || t[0] == '+') then t[1..] else t
  }

  /** A digit group read as its value. */
  function ParseDigitGroup(body: string): (r: Result<int, ApiError>)
    ensures r.Err? <==> !IsDigitGroup(body)
    ensures r.Err? ==> r.error == ValueError
  {
    if !IsDigitGroup(body) then Err(ValueError) else Ok(DigitsValue(GroupDigits(body)))
  }

  /** `parse_int`: the empty field is null; anything else goes through `int()`. */
  function ParseInt(value: string): (r: Result<Option<int>, ApiError>)
    ensures value == "" <==> r == Ok(None)
    ensures r.Err? ==> r.error == ValueError
  {
    if value == "" then Ok(None)
    else match ParseIntText(value)
      case Err(e) => Err(e)
      case Ok(n) => Ok(Some(n))
  }

  /** Every integer's decimal text parses back to it. */
  lemma ParseIntRoundTrip(n: int)
    ensures ParseInt(IntToString(n)) == Ok(Some(n))
  {
    if n < 0 {
      NegativeRoundTrip(n);
    } else {
      NatToStringRoundTrip(n);
      ParseUnsigned(NatToString(n));
    }
  }

  lemma NegativeRoundTrip(n: int)
    requires n < 0
    ensures ParseIntText("-" + NatToString(-n)) == Ok(n)
  {
    var d := NatToString(-n);
    NatToStringRoundTrip(-n);
    assert DigitsValue(d) == -n;
    ParseNegative(d);
    assert ParseIntText("-" + d) == Ok(-(DigitsValue(d) as int));
  }

  lemma ParseUnsigned(digits: string)
    requires |digits| > 0 && AllDigits(digits)
    ensures ParseIntText(digits) == Ok(DigitsValue(digits))
  {
    assert !IsSpace(digits[0]) && !IsSpace(digits[|digits| - 1]);
    StripKeeps(digits);
    SignedUnsigned(digits);
  }

  lemma ParseNegative(digits: string)
    requires |digits| > 0 && AllDigits(digits)
    ensures ParseIntText("-" + digits) == Ok(-(DigitsValue(digits) as int))
  {
    NegativeUnstripped(digits);
    SignedNegative(digits);
  }

  lemma NegativeUnstripped(digits: string)
    requires |digits| > 0 && AllDigits(digits)
    ensures Strip("-" + digits) == "-" + digits
  {
    var t := "-" + digits;
    assert t[0] == '-';
    assert t[|t| - 1] == digits[|digits| - 1];
    StripKeeps(t);
  }

  lemma SignedNegative(digits: string)
    requires |digits| > 0 && AllDigits(digits)
    ensures ParseSigned("-" + digits) == Ok(-(DigitsValue(digits) as int))
  {
    MinusPrefix(digits);
    NegativeBody("-" + digits, digits);
  }

  lemma MinusPrefix(digits: string)
    ensures ("-" + digits)[0] == '-' && ("-" + digits)[1..] == digits
  {
  }

  lemma NegativeBody(t: string, digits: string)
    requires |digits| > 0 && AllDigits(digits)
    requires |t| > 0 && t[0] == '-' && t[1..] == digits
    ensures ParseSigned(t) == Ok(-(DigitsValue(digits) as int))
  {
    BodyAfterSign(t, digits);
    DigitGroupOfDigits(digits);
    SignedOfBody(t, DigitsValue(digits));
  }

  lemma SignedUnsigned(digits: string)
    requires |digits| > 0 && AllDigits(digits)
    ensures ParseSigned(digits) == Ok(DigitsValue(digits))
  {
    BodyWithoutSign(digits);
    DigitGroupOfDigits(digits);
    SignedOfBody(digits, DigitsValue(digits));
  }

  lemma BodyAfterSign(t: string, digits: string)
    requires |t| > 0 && t[0] == '-' && t[1..] == digits
    ensures SignedBody(t) == digits
  {
  }

  lemma BodyWithoutSign(digits: string)
    requires |digits| > 0 && AllDigits(digits)
    ensures SignedBody(digits) == digits
  {
    assert IsDigit(digits[0]);
  }

  /** The signed reading is the body's value, negated after a minus sign. */
  lemma SignedOfBody(t: string, v: int)
    requires ParseDigitGroup(SignedBody(t)) == Ok(v)
    ensures ParseSigned(t) == Ok(if |t| > 0 && t[0] == '-' then -v else v)
  {
  }

  /** A run of digits reads as its value. */
  lemma DigitGroupOfDigits(digits: string)
    requires |digits| > 0 && AllDigits(digits)
    ensures ParseDigitGroup(digits) == Ok(DigitsValue(digits))
  {
    DigitsAreAGroup(digits);
  }

  /** Text with no space at either end is left alone by `strip`. */
  lemma StripKeeps(t: string)
    requires |t| > 0 && !IsSpace(t[0]) && !IsSpace(t[|t| - 1])
    ensures Strip(t) == t
  {
  }

  /** A run of digits is a digit group, and its own digits. */
  lemma DigitsAreAGroup(s: string)
    requires |s| > 0 && AllDigits(s)
    ensures IsDigitGroup(s) && GroupDigits(s) == s
  {
    DigitsKeepUnderscoreFree(s);
  }

  /** Dropping underscores from a run of digits changes nothing. */
  lemma {:induction false} DigitsKeepUnderscoreFree(s: string)
    requires AllDigits(s)
    ensures DropUnderscores(s) == s
  {
    if |s| > 0 {
      DigitsKeepUnderscoreFree(s[1..]);
      assert s == [s[0]] + s[1..];
    }
  }

  /** Python's `datetime.strptime(value, "%Y-%m-%d").date()`, ASCII digits only. */
  function ParseDateText(text: string): (r: Result<Date, ApiError>)
    ensures r.Err? ==> r.error == ValueError
    ensures r.Ok? ==> ValidDate(r.value)
  {
    if |text| < 7 || !AllDigits(text[..4]) || text[4] != '-' then Err(ValueError)
    else match MonthToken(text[5..])
      case None => Err(ValueError)
      case Some((month, used)) =>
        var rest := text[5 + used + 1..];
        match DayToken(rest)
        case None => Err(ValueError)
        case Some((day, dayUsed)) =>
          if dayUsed != |rest| then Err(ValueError)
          else
            var d := Date(DigitsValue(text[..4]), month, day);
            DigitsBound(text[..4]);
            assert Pow10(4) == 10000;
            if d.year < 1 || day > DaysInMonth(d.year, month) then Err(ValueError)
            else Ok(d)
  }

  /**
   * The month alternatives `1[0-2]|0[1-9]|[1-9]`, in order, each followed by
   * the hyphen the format requires: the month and the characters it took.
   */
  function MonthToken(t: string): (r: Option<(int, nat)>)
    ensures r.Some? ==> 1 <= r.value.0 <= 12 && 1 <= r.value.1 <= 2 && r.value.1 < |t| && t[r.value.1] == '-'
  {
    if |t| >= 3 && t[0] == '1' && '0' <= t[1] <= '2' && t[2] == '-' then Some((10 + DigitValue(t[1]), 2))
    else if |t| >= 3 && t[0] == '0' && '1' <= t[1] <= '9' && t[2] == '-' then Some((DigitValue(t[1]), 2))
    else if |t| >= 2 && '1' <= t[0] <= '9' && t[1] == '-' then Some((DigitValue(t[0]), 1))
    else None
  }

  /**
   * The day alternatives `3[01]|[12]\d|0[1-9]|[1-9]| [1-9]`: the first one
   * matching a prefix decides, and its length is compared with the rest.
   */
  function DayToken(t: string): (r: Option<(int, nat)>)
    ensures r.Some? ==> 1 <= r.value.0 <= 31 && 1 <= r.value.1 <= 2 && r.value.1 <= |t|
  {
    if |t| >= 2 && t[0] == '3' && (t[1] == '0' || t[1] == '1') then Some((30 + DigitValue(t[1]), 2))
    else if |t| >= 2 && (t[0] == '1' || t[0] == '2') && IsDigit(t[1]) then Some((10 * DigitValue(t[0]) + DigitValue(t[1]), 2))
    else if |t| >= 2 && t[0] == '0' && '1' <= t[1] <= '9' then Some((DigitValue(t[1]), 2))
    else if |t| >= 1 && '1' <= t[0] <= '9' then Some((DigitValue(t[0]), 1))
    else if |t| >= 2 && t[0] == ' ' && '1' <= t[1] <= '9' then Some((DigitValue(t[1]), 2))
    else None
  }

  /** `parse_date`: the empty field is null; anything else must be a real date. */
  function ParseDate(value: string): (r: Result<Option<Date>, ApiError>)
    ensures value == "" <==> r == Ok(None)
    ensures r.Err? ==> r.error == ValueError
    ensures r.Ok? && r.value.Some? ==> ValidDate(r.value.value)
  {
    if value == "" then Ok(None)
    else match ParseDateText(value)
      case Err(e) => Err(e)
      case Ok(d) => Ok(Some(d))
  }

  /** Two digit characters read as a number. */
  lemma TwoDigitValue(s: string)
    requires |s| == 2 && AllDigits(s)
    ensures DigitsValue(s) == 10 * DigitValue(s[0]) + DigitValue(s[1])
  {
    var a := s[..1];
    assert a[..0] == [] && a[0] == s[0];
    assert DigitsValue(a) == DigitsValue(a[..0]) * 10 + DigitValue(a[0]);
  }

  /** A run of digits is worth less than ten to the power of its length. */
  lemma {:induction false} DigitsBound(s: string)
    requires AllDigits(s)
    ensures DigitsValue(s) < Pow10(|s|)
  {
    if |s| > 0 {
      DigitsBound(s[..|s| - 1]);
    }
  }

  function Pow10(k: nat): (r: nat)
    ensures r >= 1
  {
    if k == 0 then 1 else 10 * Pow10(k - 1)
  }

  /**
   * A date in a four-digit year, written as the programs calendar writes its
   * keys, parses back to the same date.
   */
  lemma ParseDateRoundTrip(d: Date)
    requires ValidDate(d) && d.year >= 1000
    ensures ParseDate(ProgramsPage.FormatDateYMD(d)) == Ok(Some(d))
  {
    var r := ProgramsPage.FormatDateYMD(d);
    ProgramsPage.FourDigitYearsGiveFullDate(d);
    assert r[|r| - 5..|r| - 3] == r[5..7] && r[|r| - 2..] == r[8..];
    ParseKey(r, d);
  }

  /** Ten characters holding a valid date's year, month and day in their places parse as that date. */
  lemma ParseKey(r: string, d: Date)
    requires ValidDate(d)
    requires |r| == 10 && AllDigits(r[..4]) && DigitsValue(r[..4]) == d.year && r[4] == '-' && r[7] == '-'
    requires AllDigits(r[5..7]) && DigitsValue(r[5..7]) == d.month
    requires AllDigits(r[8..]) && DigitsValue(r[8..]) == d.day
    ensures ParseDate(r) == Ok(Some(d))
  {
    assert r[5..][..2] == r[5..7] && r[5..][2] == '-';
    MonthTokenOfTwoDigits(r[5..], d.month);
    DayTokenOfTwoDigits(r[8..], d.day);
    ParseTenCharacterDate(r, d);
  }

  /** Ten characters whose year digits, month token and day token give a valid date parse as that date. */
  lemma ParseTenCharacterDate(r: string, d: Date)
    requires ValidDate(d)
    requires |r| == 10 && AllDigits(r[..4]) && DigitsValue(r[..4]) == d.year && r[4] == '-'
    requires MonthToken(r[5..]) == Some((d.month, 2))
    requires DayToken(r[8..]) == Some((d.day, 2))
    ensures ParseDateText(r) == Ok(d)
  {
    assert r[5..][5 + 2 + 1 - 5..] == r[8..];
  }

  /** Two month digits and a hyphen are read as that month, two characters long. */
  lemma MonthTokenOfTwoDigits(t: string, month: int)
    requires |t| >= 3 && AllDigits(t[..2]) && DigitsValue(t[..2]) == month && 1 <= month <= 12 && t[2] == '-'
    ensures MonthToken(t) == Some((month, 2))
  {
    TwoDigitValue(t[..2]);
    assert t[..2][0] == t[0] && t[..2][1] == t[1];
  }

  /** Two day digits are read as that day, two characters long. */
  lemma DayTokenOfTwoDigits(t: string, day: int)
    requires |t| == 2 && AllDigits(t) && DigitsValue(t) == day && 1 <= day <= 31
    ensures DayToken(t) == Some((day, 2))
  {
    TwoDigitValue(t);
  }

  /** `enum_class[value]`: the first member whose name is `value`. */
  function ByName<T>(members: seq<T>, name: T -> string, value: string): (r: Option<T>)
    ensures r.Some? ==> r.value in members && name(r.value) == value
    ensures r.None? ==> forall i :: 0 <= i < |members| ==> name(members[i]) != value
  {
    if |members| == 0 then None
    else if name(members[0]) == value then Some(members[0])
    else ByName(members[1..], name, value)
  }

  const AllRoles: seq<UserRole> := [Client, Instructor, Admin]

  /** `parse_enum(UserRole, value)`: null for the empty or an unknown name, never an error. */
  function ParseRole(value: string): (r: Option<UserRole>)
    ensures r.Some? <==> value in {"client", "instructor", "admin"}
    ensures r.Some? ==> RoleName(r.value) == value
  {
    if value == "" then None else ByName(AllRoles, RoleName, value)
  }

  /** `parse_enum(SubscriptionModel, value)` over the user table's enumeration. */
  function ParsePlan(value: string): (r: Option<UserTable.SubscriptionModel>)
    ensures r.Some? ==> UserTable.ModelName(r.value) == value
    ensures r.None? ==> forall m :: UserTable.ModelName(m) != value
  {
    if value == "" then None
    else
      var r := ByName(UserTable.AllUserModels, UserTable.ModelName, value);
      forall m | r.None? ensures UserTable.ModelName(m) != value {
        Models.EnumerationsDiverge(m);
      }
      r
  }

  /** Every role name parses back to its role. */
  lemma ParseRoleRoundTrip(role: UserRole)
    ensures ParseRole(RoleName(role)) == Some(role)
  {
  }

  /** Every plan name of the user table parses back to its plan. */
  lemma ParsePlanRoundTrip(m: UserTable.SubscriptionModel)
    ensures ParsePlan(UserTable.ModelName(m)) == Some(m)
  {
    var r := ParsePlan(UserTable.ModelName(m));
    match r
    case Some(m') =>
      assert UserTable.ModelName(m') == UserTable.ModelName(m);
  }

  /**
   * The import resolves plan names against the user table's enumeration:
   * the names of the family and yoga plans of the subscription table are
   * not found, and every other plan's name is.
   */
  lemma FamilyAndYogaPlansUnknown(c: Models.SubscriptionModel)
    ensures Models.OnlyInSubscriptionTable(c) ==> ParsePlan(Models.ModelName(c)) == None
    ensures !Models.OnlyInSubscriptionTable(c) ==>
      ParsePlan(Models.ModelName(c)) == Some(Models.FromSubscriptionTable(c).value)
  {
    var f := ParsePlan(Models.ModelName(c));
    if Models.OnlyInSubscriptionTable(c) {
      if f.Some? {
        Models.EnumerationsDiverge(f.value);
      }
    } else {
      var m := Models.FromSubscriptionTable(c).value;
      ParsePlanRoundTrip(m);
    }
  }

  /** One line of the CSV file: every field as text. */
  datatype CsvRow = CsvRow(
    name: string,
    phone: string,
    password: string,
    role: string,
    city: string,
    subscriptionModel: string,
    subscriptionStarts: string,
    subscriptionExpires: string,
    packageTotal: string,
    remainingClasses: string)

  /** The user record an added row becomes. */
  datatype ImportedUser = ImportedUser(
    name: string,
    phone: string,
    password: Option<int>,
    role: Option<UserRole>,
    city: Option<string>,
    plan: Option<UserTable.SubscriptionModel>,
    starts: Option<Date>,
    expires: Option<Date>,
    packageTotal: Option<int>,
    remainingClasses: Option<int>)

  datatype RowOutcome = Skip | Add(user: ImportedUser)

  /** The row names a plan, and no plan of the user table has that name. */
  predicate UnknownPlan(row: CsvRow) {
    row.subscriptionModel != "" && ParsePlan(row.subscriptionModel).None?
  }

  /** Some numeric or date field of the row does not parse. */
  predicate FieldFails(row: CsvRow) {
    || ParseInt(row.password).Err?
    || ParseDate(row.subscriptionStarts).Err?
    || ParseDate(row.subscriptionExpires).Err?
    || ParseInt(row.packageTotal).Err?
    || ParseInt(row.remainingClasses).Err?
  }

  /**
   * One row: skipped when its phone is already stored or its plan name is
   * given but unknown; otherwise added, with an unknown role stored as null
   * and an empty city as null. A field that fails to parse aborts.
   */
  function ImportRow(s: Store, row: CsvRow): (r: Result<RowOutcome, ApiError>)
    ensures MainApi.PhoneTaken(s, row.phone) ==> r == Ok(Skip)
    ensures !MainApi.PhoneTaken(s, row.phone) ==>
      (r == Ok(Skip) <==> row.subscriptionModel != "" && ParsePlan(row.subscriptionModel).None?)
    ensures r.Err? ==> r.error == ValueError
    ensures r.Err? <==> !MainApi.PhoneTaken(s, row.phone) && !UnknownPlan(row) && FieldFails(row)
    ensures r.Ok? && r.value.Add? ==>
      (&& r.value.user.phone == row.phone && r.value.user.name == row.name
       && r.value.user.role == ParseRole(row.role)
       && r.value.user.plan == ParsePlan(row.subscriptionModel)
       && (r.value.user.city.None? <==> row.city == "")
       && (r.value.user.city.Some? ==> r.value.user.city.value == row.city)
       && ParseInt(row.password) == Ok(r.value.user.password)
       && ParseDate(row.subscriptionStarts) == Ok(r.value.user.starts)
       && ParseDate(row.subscriptionExpires) == Ok(r.value.user.expires)
       && ParseInt(row.packageTotal) == Ok(r.value.user.packageTotal)
       && ParseInt(row.remainingClasses) == Ok(r.value.user.remainingClasses))
  {
    if MainApi.PhoneTaken(s, row.phone) then Ok(Skip)
    else
      var plan := ParsePlan(row.subscriptionModel);
      if plan.None? && row.subscriptionModel != "" then Ok(Skip)
      else
        var password :- ParseInt(row.password);
        var starts :- ParseDate(row.subscriptionStarts);
        var expires :- ParseDate(row.subscriptionExpires);
        var total :- ParseInt(row.packageTotal);
        var remaining :- ParseInt(row.remainingClasses);
        Ok(Add(ImportedUser(row.name, row.phone, password, ParseRole(row.role),
                            if row.city == "" then None else Some(row.city),
                            plan, starts, expires, total, remaining)))
  }

  /** The outcome of a whole import: the users added and the two counters. */
  datatype Imported = Imported(users: seq<ImportedUser>, added: nat, skipped: nat)

  /**
   * `import_users_from_csv`: the rows in file order; the first field that
   * fails to parse aborts the whole import.
   */
  function ImportUsers(s: Store, rows: seq<CsvRow>): (r: Result<Imported, ApiError>)
    ensures r.Ok? <==> forall i :: 0 <= i < |rows| ==> ImportRow(s, rows[i]).Ok?
    ensures r.Ok? ==> r.value.added + r.value.skipped == |rows|
    ensures r.Ok? ==> |r.value.users| == r.value.added
    ensures r.Ok? ==> forall u :: u in r.value.users ==> !MainApi.PhoneTaken(s, u.phone)
    ensures r.Ok? ==> forall u :: u in r.value.users <==> exists i :: 0 <= i < |rows| && ImportRow(s, rows[i]) == Ok(Add(u))
    decreases |rows|
  {
    if |rows| == 0 then Ok(Imported([], 0, 0))
    else
      var rest := ImportUsers(s, rows[1..]);
      assert forall i :: 1 <= i < |rows| ==> rows[i] == rows[1..][i - 1];
      match ImportRow(s, rows[0])
      case Err(e) => Err(e)
      case Ok(Skip) =>
        if rest.Err? then rest else Ok(rest.value.(skipped := rest.value.skipped + 1))
      case Ok(Add(u)) =>
        if rest.Err? then rest else Ok(Imported([u] + rest.value.users, rest.value.added + 1, rest.value.skipped))
  }
}

=== FILE: programs_page.dfy ===
/**
 * The programs calendar: dates are turned into lookup keys, the day's
 * programs are read from a table keyed by them, and month tiles with
 * programs are marked.
 */
module ProgramsPage {
  import opened Text
  import opened CalendarDates

  /** One scheduled program of a day. */
  datatype Program = Program(time: string, name: string, instructor: string)

  /** The calendar view a tile is drawn in. */
  datatype View = Month | Year | Decade | Century

  /** A number below 100 as two decimal digits: `String(n).padStart(2, '0')`. */
  function TwoDigitText(n: nat): (r: string)
    requires n < 100
    ensures |r| == 2 && AllDigits(r) && DigitsValue(r) == n
  {
    TwoDigits(n);
    PadStart2(NatToString(n))
  }

  /** Three fields joined by hyphens. */
  function Hyphenated(y: string, mm: string, dd: string): (r: string)
    requires |mm| == 2 && |dd| == 2
    ensures |r| == |y| + 6 && r[..|y|] == y
    ensures r[|r| - 6] == '-' && r[|r| - 3] == '-'
    ensures r[|r| - 5..|r| - 3] == mm && r[|r| - 2..] == dd
  {
    y + "-" + mm + "-" + dd
  }

  /** `formatDate`: the year as written, then month and day padded to two digits. */
  function FormatDateYMD(d: Date): (r: string)
    requires 1 <= d.month <= 12 && 1 <= d.day <= 31
    ensures |r| >= 7
    ensures r[|r| - 6] == '-' && r[|r| - 3] == '-'
    ensures AllDigits(r[|r| - 5..|r| - 3]) && DigitsValue(r[|r| - 5..|r| - 3]) == d.month
    ensures AllDigits(r[|r| - 2..]) && DigitsValue(r[|r| - 2..]) == d.day
  {
    Hyphenated(IntToString(d.year), TwoDigitText(d.month), TwoDigitText(d.day))
  }

  /**
   * For four-digit years the key is the full-date form of section 5.6 of
   * RFC 3339: four year digits, a hyphen, two month digits, a hyphen, two
   * day digits.
   */
  lemma FourDigitYearsGiveFullDate(d: Date)
    requires 1000 <= d.year <= 9999 && 1 <= d.month <= 12 && 1 <= d.day <= 31
    ensures var r := FormatDateYMD(d);
            && |r| == 10 && AllDigits(r[..4]) && DigitsValue(r[..4]) == d.year
            && r[4] == '-' && r[7] == '-'
  {
    var y := NatToString(d.year);
    NatToStringRoundTrip(d.year);
    NatToStringLength4(d.year);
    assert FormatDateYMD(d) == Hyphenated(y, TwoDigitText(d.month), TwoDigitText(d.day));
  }

  lemma NatToStringLength4(n: nat)
    requires 1000 <= n <= 9999
    ensures |NatToString(n)| == 4
  {
    assert NatToString(n) == NatToString(n / 10) + [DigitChar(n % 10)];
    assert NatToString(n / 10) == NatToString(n / 100) + [DigitChar((n / 10) % 10)];
    assert NatToString(n / 100) == NatToString(n / 1000) + [DigitChar((n / 100) % 10)];
  }

  /** Distinct dates in four-digit years have distinct keys. */
  lemma KeysAreInjective(d1: Date, d2: Date)
    requires 1000 <= d1.year <= 9999 && 1 <= d1.month <= 12 && 1 <= d1.day <= 31
    requires 1000 <= d2.year <= 9999 && 1 <= d2.month <= 12 && 1 <= d2.day <= 31
    requires FormatDateYMD(d1) == FormatDateYMD(d2)
    ensures d1 == d2
  {
    FourDigitYearsGiveFullDate(d1);
    FourDigitYearsGiveFullDate(d2);

  }

  /** The programs of a day: the table entry for its key, or none. */
  function ProgramsFor(table: map<string, seq<Program>>, d: Date): (r: seq<Program>)
    requires 1 <= d.month <= 12 && 1 <= d.day <= 31
    ensures FormatDateYMD(d) in table ==> r == table[FormatDateYMD(d)]
    ensures FormatDateYMD(d) !in table ==> r == []
  {
    var key := FormatDateYMD(d);
    if key in table then table[key] else []
  }

  /** The class name of a tile: 'has-program' for a month tile whose day has an entry. */
  function TileClassName(table: map<string, seq<Program>>, d: Date, view: View): (r: string)
    requires 1 <= d.month <= 12 && 1 <= d.day <= 31
    ensures r == "has-program" <==> view == Month && FormatDateYMD(d) in table
    ensures r == "" || r == "has-program"
  {
    if view == Month && FormatDateYMD(d) in table then "has-program" else ""
  }
}

=== FILE: seqs.dfy ===
/**
 * Sequence queries standing in for the database's filtered reads and for
 * JavaScript's `Array.prototype.filter`.
 */
module Seqs {
  import opened Wrappers

  /** The elements of `s` satisfying `p`, in their original order. */
  function Filter<T>(s: seq<T>, p: T -> bool): (r: seq<T>)
    ensures |r| <= |s|
    ensures forall x :: x in r ==> x in s && p(x)
    ensures forall i :: 0 <= i < |s| && p(s[i]) ==> s[i] in r
    decreases |s|
  {
    if |s| == 0 then []
    else if p(s[0]) then [s[0]] + Filter(s[1..], p)
    else Filter(s[1..], p)
  }

  /** The number of elements of `s` satisfying `p`: a `.count()` query. */
  function Count<T>(s: seq<T>, p: T -> bool): nat {
    |Filter(s, p)|
  }

  /** `r` can be obtained from `s` by deleting elements. */
  predicate IsSubsequence<T(==)>(r: seq<T>, s: seq<T>)
    decreases |s|
  {
    |r| == 0 || (|s| > 0 && if r[0] == s[0] then IsSubsequence(r[1..], s[1..]) else IsSubsequence(r, s[1..]))
  }

  lemma {:induction false} FilterAppend<T>(a: seq<T>, b: seq<T>, p: T -> bool)
    ensures Filter(a + b, p) == Filter(a, p) + Filter(b, p)
    decreases |a|
  {
    if |a| == 0 {
      assert a + b == b;
    } else {
      assert (a + b)[1..] == a[1..] + b;
      FilterAppend(a[1..], b, p);
    }
  }

  /** Filtering keeps the relative order of the kept elements. */
  lemma {:induction false} FilterIsSubsequence<T>(s: seq<T>, p: T -> bool)
    ensures IsSubsequence(Filter(s, p), s)
    decreases |s|
  {
    if |s| > 0 {
      FilterIsSubsequence(s[1..], p);
      var r := Filter(s, p);
      if p(s[0]) {
        assert r[0] == s[0] && r[1..] == Filter(s[1..], p);
      } else if |r| > 0 {
        assert r[0] in r;
      }
    }
  }

  /** Filtering with a predicate every element meets changes nothing. */
  lemma {:induction false} FilterAll<T>(s: seq<T>, p: T -> bool)
    requires forall i :: 0 <= i < |s| ==> p(s[i])
    ensures Filter(s, p) == s
    decreases |s|
  {
    if |s| > 0 {
      FilterAll(s[1..], p);
    }
  }

  /** Filtering twice with the same predicate is filtering once. */
  lemma FilterIdempotent<T>(s: seq<T>, p: T -> bool)
    ensures Filter(Filter(s, p), p) == Filter(s, p)
  {
    var r := Filter(s, p);
    forall i | 0 <= i < |r|
      ensures p(r[i])
    {
      assert r[i] in r;
    }
    FilterAll(r, p);
  }

  /** Filters by two predicates commute. */
  lemma {:induction false} FilterCommutes<T>(s: seq<T>, p: T -> bool, q: T -> bool)
    ensures Filter(Filter(s, p), q) == Filter(Filter(s, q), p)
    decreases |s|
  {
    if |s| > 0 {
      FilterCommutes(s[1..], p, q);
    }
  }

  /** Counting over a concatenation adds up. */
  lemma CountAppend<T>(a: seq<T>, b: seq<T>, p: T -> bool)
    ensures Count(a + b, p) == Count(a, p) + Count(b, p)
  {
    FilterAppend(a, b, p);
  }

  /** Counting with a stronger predicate never gives more. */
  lemma {:induction false} CountMonotone<T>(s: seq<T>, p: T -> bool, q: T -> bool)
    requires forall x :: p(x) ==> q(x)
    ensures Count(s, p) <= Count(s, q)
    decreases |s|
  {
    if |s| > 0 {
      CountMonotone(s[1..], p, q);
    }
  }

  /**
   * Counting the elements satisfying `p` splits by any second predicate:
   * `pq` holds where `p` and `q` do, `pnq` where `p` holds and `q` does not.
   */
  lemma {:induction false} CountSplit<T>(s: seq<T>, p: T -> bool, pq: T -> bool, pnq: T -> bool, q: T -> bool)
    requires forall x :: pq(x) == (p(x) && q(x))
    requires forall x :: pnq(x) == (p(x) && !q(x))
    ensures Count(s, pq) + Count(s, pnq) == Count(s, p)
    decreases |s|
  {
    if |s| > 0 {
      CountSplit(s[1..], p, pq, pnq, q);
    }
  }

  /** Filtering by pointwise-equal predicates gives the same result. */
  lemma {:induction false} FilterSamePredicate<T>(s: seq<T>, p: T -> bool, q: T -> bool)
    requires forall x :: p(x) == q(x)
    ensures Filter(s, p) == Filter(s, q)
    decreases |s|
  {
    if |s| > 0 {
      FilterSamePredicate(s[1..], p, q);
    }
  }

  /** The first position holding an element that satisfies `p`: a `.first()` query. */
  function FirstIndex<T>(s: seq<T>, p: T -> bool): (r: Option<nat>)
    ensures r.Some? ==> r.value < |s| && p(s[r.value])
    ensures r.Some? ==> forall j :: 0 <= j < r.value ==> !p(s[j])
    ensures r.None? ==> forall j :: 0 <= j < |s| ==> !p(s[j])
    decreases |s|
  {
    if |s| == 0 then None
    else if p(s[0]) then Some(0)
    else match FirstIndex(s[1..], p)
      case None => None
      case Some(k) => Some(k + 1)
  }

  /** The first element satisfying `p`, if any. */
  function First<T>(s: seq<T>, p: T -> bool): (r: Option<T>)
    ensures r.Some? <==> exists i :: 0 <= i < |s| && p(s[i])
    ensures r.Some? ==> r.value in s && p(r.value)
  {
    match FirstIndex(s, p)
    case None => None
    case Some(i) => Some(s[i])
  }

  /** `s` without the element at position `i`. */
  function RemoveAt<T>(s: seq<T>, i: nat): (r: seq<T>)
    requires i < |s|
    ensures |r| == |s| - 1
    ensures forall j :: 0 <= j < i ==> r[j] == s[j]
    ensures forall j :: i <= j < |r| ==> r[j] == s[j + 1]
    ensures multiset(r) + multiset{s[i]} == multiset(s)
  {
    assert s == s[..i] + [s[i]] + s[i + 1..];
    s[..i] + s[i + 1..]
  }
}

=== FILE: subscription_modal.dfy ===
/**
 * The subscription modal: dates written day/month/year, the blocks shown
 * for a subscription snapshot, and the loading and error state of the
 * fetch that fills it.
 */
module SubscriptionModal {
  import opened Wrappers
  import opened Text
  import opened Models
  import opened CalendarDates
  import ProgramsPage
  import UserRoutes

  /** Three fields joined by slashes. */
  function Slashed(dd: string, mm: string, y: string): (r: string)
    requires |dd| == 2 && |mm| == 2
    ensures |r| == |y| + 6
    ensures r[..2] == dd && r[2] == '/' && r[3..5] == mm && r[5] == '/' && r[6..] == y
  {
    dd + "/" + mm + "/" + y
  }

  /** `formatDate`: day and month padded to two digits, then the year as written. */
  function FormatDateDMY(d: Date): (r: string)
    requires 1 <= d.month <= 12 && 1 <= d.day <= 31
    ensures |r| >= 7 && r[2] == '/' && r[5] == '/'
    ensures AllDigits(r[..2]) && DigitsValue(r[..2]) == d.day
    ensures AllDigits(r[3..5]) && DigitsValue(r[3..5]) == d.month
    ensures r[6..] == IntToString(d.year)
  {
    Slashed(ProgramsPage.TwoDigitText(d.day), ProgramsPage.TwoDigitText(d.month), IntToString(d.year))
  }

  /** Distinct dates of non-negative years are written differently. */
  lemma FormatDateDMYInjective(d1: Date, d2: Date)
    requires 0 <= d1.year && 1 <= d1.month <= 12 && 1 <= d1.day <= 31
    requires 0 <= d2.year && 1 <= d2.month <= 12 && 1 <= d2.day <= 31
    requires FormatDateDMY(d1) == FormatDateDMY(d2)
    ensures d1 == d2
  {
    NatToStringRoundTrip(d1.year);
    NatToStringRoundTrip(d2.year);
  }

  /** The subscription the modal shows, with the fields the blocks depend on. */
  datatype Snapshot = Snapshot(
    model: string,
    starts: Option<Date>,
    expires: Option<Date>,
    packageTotal: Option<int>,
    remaining: Option<int>)

  /**
   * Which blocks of the snapshot are drawn; `bareZero` is the lone "0" that
   * React draws when the total guard evaluates to the number 0.
   */
  datatype Blocks = Blocks(timed: bool, package: bool, total: bool, bareZero: bool, remaining: bool, extraExpiry: bool)

  /**
   * The blocks for a snapshot: the timed block for a "συνδρομή" model with
   * an expiry, the package block for a "πακέτο" model, inside it the total
   * when truthy (so not 0) and otherwise, for a total of 0, the guard's own
   * value "0", the remaining count when not null (so 0 too), and the extra
   * expiry line when both dates are present.
   */
  function BlocksOf(s: Snapshot): (r: Blocks)
    ensures r.timed <==> Contains(s.model, "συνδρομή") && s.expires.Some?
    ensures r.package <==> Contains(s.model, "πακέτο")
    ensures r.total <==> r.package && s.packageTotal.Some? && s.packageTotal.value != 0
    ensures r.bareZero <==> r.package && s.packageTotal == Some(0)
    ensures !(r.total && r.bareZero)
    ensures r.remaining <==> r.package && s.remaining.Some?
    ensures r.extraExpiry <==> s.starts.Some? && s.expires.Some?
  {
    var package := Contains(s.model, "πακέτο");
    Blocks(Contains(s.model, "συνδρομή") && s.expires.Some?,
           package,
           package && s.packageTotal.Some? && s.packageTotal.value != 0,
           package && s.packageTotal == Some(0),
           package && s.remaining.Some?,
           s.starts.Some? && s.expires.Some?)
  }

  /** The backend's timed plans: the ones whose display value names a "συνδρομή". */
  predicate IsTimedModel(m: SubscriptionModel) {
    m == Subscription2 || m == Subscription3 || m == Subscription5
  }

  /** Timed plans' values contain "συνδρομή". */
  lemma TimedValuesNameSubscription(m: SubscriptionModel)
    requires IsTimedModel(m)
    ensures Contains(ModelValue(m), "συνδρομή")
  {
    assert ModelValue(m)[0..8] == "συνδρομή";
    OccurrenceContained(ModelValue(m), "συνδρομή", 0);
  }

  /** No other plan's value contains "συνδρομή". */
  lemma OtherValuesLackSubscription(m: SubscriptionModel)
    requires !IsTimedModel(m)
    ensures !Contains(ModelValue(m), "συνδρομή")
  {
    assert 'σ' in "συνδρομή" && 'σ' !in ModelValue(m);
    MissingCharNotContained(ModelValue(m), "συνδρομή", 'σ');
  }

  /** Package plans' values, and yoga's, begin with "πακέτο". */
  lemma PackageValuesNamePackage(m: SubscriptionModel)
    requires IsPackageModel(m) || m == Yoga4
    ensures Contains(ModelValue(m), "πακέτο")
  {
    assert ModelValue(m)[0..6] == "πακέτο";
    OccurrenceContained(ModelValue(m), "πακέτο", 0);
  }

  /** No other plan's value contains "πακέτο". */
  lemma OtherValuesLackPackage(m: SubscriptionModel)
    requires !IsPackageModel(m) && m != Yoga4
    ensures !Contains(ModelValue(m), "πακέτο")
  {
    assert 'π' in "πακέτο" && 'π' !in ModelValue(m);
    MissingCharNotContained(ModelValue(m), "πακέτο", 'π');
  }

  /**
   * For a snapshot carrying a backend plan's display value, the timed block
   * belongs to the three timed plans and the package block to the five
   * packages and to the yoga plan, which the backend does not treat as a
   * package.
   */
  lemma BlocksForBackendPlans(s: Snapshot, m: SubscriptionModel)
    requires s.model == ModelValue(m)
    ensures BlocksOf(s).timed <==> IsTimedModel(m) && s.expires.Some?
    ensures BlocksOf(s).package <==> IsPackageModel(m) || m == Yoga4
  {
    if IsTimedModel(m) { TimedValuesNameSubscription(m); } else { OtherValuesLackSubscription(m); }
    if IsPackageModel(m) || m == Yoga4 { PackageValuesNamePackage(m); } else { OtherValuesLackPackage(m); }
  }

  /** The modal's state: the fetched snapshot, the loading flag and the error text. */
  datatype ModalState = ModalState(subscription: Option<Snapshot>, loading: bool, error: Option<string>)

  /** An error is drawn when its text is truthy, that is, present and not empty. */
  predicate ErrorShown(st: ModalState) {
    st.error.Some? && st.error.value != ""
  }

  /** The panels drawn in an open modal. */
  datatype Panels = Panels(spinner: bool, errorBox: bool, content: bool, noSubscription: bool)

  function PanelsOf(st: ModalState): (r: Panels)
    ensures r.spinner <==> st.loading
    ensures r.errorBox <==> ErrorShown(st)
    ensures r.content <==> st.subscription.Some? && !st.loading && !ErrorShown(st)
    ensures r.noSubscription <==> st.subscription.None? && !st.loading && !ErrorShown(st)
  {
    var quiet := !st.loading && !ErrorShown(st);
    Panels(st.loading, ErrorShown(st), st.subscription.Some? && quiet, st.subscription.None? && quiet)
  }

  /**
   * The content and the "no subscription" message never appear together,
   * and once nothing is loading and no error is shown, exactly one of them
   * does.
   */
  lemma ContentOrNoSubscription(st: ModalState)
    ensures !(PanelsOf(st).content && PanelsOf(st).noSubscription)
    ensures !st.loading && !ErrorShown(st) ==> PanelsOf(st).content != PanelsOf(st).noSubscription
  {
  }

  /** The translated text of a non-ok response. */
  const FailedFetch: string := "failed_fetch_subscription"

  /** How the request ended: a body (a snapshot or null), a non-ok status, or an exception with its message. */
  datatype FetchReply = Fetched(data: Option<Snapshot>) | NotOk | Thrown(message: string)

  /** The start of `fetchSubscription`: loading, and the error cleared. */
  function StartFetch(st: ModalState): (r: ModalState)
    ensures r.loading && r.error.None? && r.subscription == st.subscription
  {
    st.(loading := true, error := None)
  }

  /**
   * The end of `fetchSubscription`: a body replaces the snapshot, a non-ok
   * status or an exception sets the error; loading ends in every case.
   */
  function FinishFetch(st: ModalState, reply: FetchReply): (r: ModalState)
    ensures !r.loading
    ensures reply.Fetched? ==> r.subscription == reply.data && r.error == st.error
    ensures reply.NotOk? ==> r.subscription == st.subscription && r.error == Some(FailedFetch)
    ensures reply.Thrown? ==> r.subscription == st.subscription && r.error == Some(reply.message)
  {
    match reply
    case Fetched(data) => st.(subscription := data, loading := false)
    case NotOk => st.(error := Some(FailedFetch), loading := false)
    case Thrown(message) => st.(error := Some(message), loading := false)
  }

  /** The open effect: the fetch runs only for an open modal with a user. */
  function OnOpen(st: ModalState, isOpen: bool, userId: Option<Id>, reply: FetchReply): (r: ModalState)
    ensures !(isOpen && userId.Some?) ==> r == st
    ensures isOpen && userId.Some? ==> r == FinishFetch(StartFetch(st), reply)
  {
    if isOpen && userId.Some? then FinishFetch(StartFetch(st), reply) else st
  }

  /**
   * After a fetch, nothing is loading; a received body leaves no error and
   * shows the content exactly when the body is a snapshot; a non-ok status
   * shows the error box and neither content nor message.
   */
  lemma FetchOutcome(st: ModalState, reply: FetchReply)
    ensures var r := FinishFetch(StartFetch(st), reply);
            && !r.loading
            && (reply.Fetched? ==>
                  && r.error.None?
                  && (PanelsOf(r).content <==> reply.data.Some?)
                  && (PanelsOf(r).noSubscription <==> reply.data.None?))
            && (reply.NotOk? ==> PanelsOf(r).errorBox && !PanelsOf(r).content && !PanelsOf(r).noSubscription)
  {
  }

  /**
   * The value `setSubscription` stores, as JavaScript sees it: null, one
   * object, or an array. A successful `POST /subscription` answers with an
   * array, the user's active subscriptions.
   */
  datatype Held = Null | One(snapshot: Snapshot) | Many(items: seq<Snapshot>)

  /** The exception raised while drawing a held array: its `subscription_model` is undefined, and `includes` of undefined throws. */
  const IncludesOfUndefined: string := "TypeError"

  /** The snapshot a held value amounts to when it is read as one object. */
  function SnapshotOf(held: Held): (r: Option<Snapshot>)
    ensures r.Some? <==> held.One?
    ensures held.One? ==> r.value == held.snapshot
  {
    if held.One? then Some(held.snapshot) else None
  }

  /**
   * Drawing the open modal as written. The content guard only asks that the
   * held value be truthy, which every array is, even an empty one; the
   * content then reads the array's missing `subscription_model`, and drawing
   * fails. Otherwise the panels are the ones the one-snapshot reading gives.
   */
  function DrawAsWritten(held: Held, loading: bool, error: Option<string>): (r: Result<Panels, string>)
    ensures r.Err? <==> held.Many? && !loading && !ErrorShown(ModalState(None, loading, error))
    ensures r.Err? ==> r.error == IncludesOfUndefined
    ensures r.Ok? ==> r.value == PanelsOf(ModalState(SnapshotOf(held), loading, error))
  {
    var shown := error.Some? && error.value != "";
    var quiet := !loading && !shown;
    if held.Many? && quiet then Err(IncludesOfUndefined)
    else Ok(Panels(loading, shown, held.One? && quiet, held.Null? && quiet))
  }

  /**
   * Against the backend as written, a known user's fetch succeeds with an
   * array, and once it is stored with loading over and no error, drawing
   * fails, whatever the array holds.
   */
  lemma BackendReplyBreaksModal(s: Store, userId: Id, today: Day, items: seq<Snapshot>)
    requires FindUser(s.users, userId).Some?
    requires |items| == |UserRoutes.GetUserSubscription(s, userId, today).value|
    ensures UserRoutes.GetUserSubscription(s, userId, today).Ok?
    ensures DrawAsWritten(Many(items), false, None) == Err(IncludesOfUndefined)
  {
  }

  /** A user with no active subscription: the empty array still breaks the modal instead of showing the "no subscription" message. */
  lemma EmptyListCounterexample()
    ensures DrawAsWritten(Many([]), false, None).Err?
    ensures PanelsOf(FinishFetch(StartFetch(ModalState(None, false, None)), Fetched(FirstSnapshot([])))).noSubscription
  {
  }

  /** The corrected reading of the array: its first subscription, or null when it is empty. */
  function FirstSnapshot(items: seq<Snapshot>): (r: Option<Snapshot>)
    ensures r.None? <==> items == []
    ensures r.Some? ==> r.value in items
  {
    if items == [] then None else Some(items[0])
  }

  /**
   * Storing the first element, or null, never makes drawing fail: the
   * as-written drawing of that value gives the panels of the one-snapshot
   * reading, with the content exactly when the array is not empty and the
   * "no subscription" message exactly when it is.
   */
  lemma CorrectedListOutcome(st: ModalState, items: seq<Snapshot>)
    ensures var r := FinishFetch(StartFetch(st), Fetched(FirstSnapshot(items)));
            var held := if items == [] then Null else One(items[0]);
            && DrawAsWritten(held, r.loading, r.error) == Ok(PanelsOf(r))
            && (PanelsOf(r).content <==> items != [])
            && (PanelsOf(r).noSubscription <==> items == [])
  {
    FetchOutcome(st, Fetched(FirstSnapshot(items)));
  }
}

=== FILE: subscriptions_page.dfy ===
/**
 * The subscription page: a subscription record that a confirmed cancel
 * turns to 'Cancelled' once the pending timer fires, and the fields and
 * button shown for it.
 */
module SubscriptionsPage {

  datatype SubscriptionRecord = SubscriptionRecord(
    kind: string,
    status: string,
    expires: string,
    autoRenew: bool,
    paymentMethod: string,
    nextBilling: string)

  /** The page's state: the record, whether a cancel is pending, and whether one completed. */
  datatype PageState = PageState(subscription: SubscriptionRecord, cancelling: bool, cancelled: bool)

  /**
   * `handleCancel`: a declined confirmation changes nothing; a confirmed
   * one marks the cancel as pending until the timer fires.
   */
  function HandleCancel(p: PageState, confirmed: bool): (r: PageState)
    ensures !confirmed ==> r == p
    ensures confirmed ==> r == p.(cancelling := true)
  {
    if !confirmed then p else p.(cancelling := true)
  }

  /** The timer's callback: status 'Cancelled', no renewal, nothing pending, cancel done. */
  function CompleteCancel(p: PageState): (r: PageState)
    ensures r.subscription.status == "Cancelled" && !r.subscription.autoRenew
    ensures !r.cancelling && r.cancelled
    ensures r.subscription.kind == p.subscription.kind && r.subscription.expires == p.subscription.expires
    ensures r.subscription.paymentMethod == p.subscription.paymentMethod
    ensures r.subscription.nextBilling == p.subscription.nextBilling
  {
    PageState(p.subscription.(status := "Cancelled", autoRenew := false), false, true)
  }

  /** The next-billing field is shown only while the subscription renews. */
  function NextBillingShown(sub: SubscriptionRecord): bool {
    sub.autoRenew
  }

  /** The cancel button: absent, or present and enabled or disabled. */
  datatype CancelButton = NoButton | Button(disabled: bool, caption: string)

  /**
   * The cancel button is offered only for an 'Active' subscription; it is
   * disabled, and reads 'Cancelling...', while a cancel is pending.
   */
  function CancelButtonOf(p: PageState): (r: CancelButton)
    ensures r.Button? <==> p.subscription.status == "Active"
    ensures r.Button? ==> (r.disabled <==> p.cancelling)
    ensures r.Button? ==> r.caption == (if p.cancelling then "Cancelling..." else "Cancel Subscription")
  {
    if p.subscription.status == "Active" then
      Button(p.cancelling, if p.cancelling then "Cancelling..." else "Cancel Subscription")
    else NoButton
  }

  /**
   * A confirmed cancel, once completed, leaves no button, no next-billing
   * field and the completion notice; the record differs from the old one
   * only in status and renewal.
   */
  lemma CancelFlow(p: PageState)
    ensures var done := CompleteCancel(HandleCancel(p, true));
            && CancelButtonOf(done) == NoButton
            && !NextBillingShown(done.subscription)
            && done.cancelled
            && done.subscription == p.subscription.(status := "Cancelled", autoRenew := false)
  {
  }

  /** While a cancel is pending, a second click cannot start another. */
  lemma PendingCancelDisablesButton(p: PageState)
    requires p.subscription.status == "Active"
    ensures CancelButtonOf(HandleCancel(p, true)) == Button(true, "Cancelling...")
  {
  }

  /** Completing a cancel a second time changes nothing further. */
  lemma CompleteCancelIdempotent(p: PageState)
    ensures CompleteCancel(CompleteCancel(p)) == CompleteCancel(p)
  {
  }

  /** A declined confirmation leaves the button and fields as they were. */
  lemma DeclineKeepsView(p: PageState)
    ensures CancelButtonOf(HandleCancel(p, false)) == CancelButtonOf(p)
    ensures NextBillingShown(HandleCancel(p, false).subscription) == NextBillingShown(p.subscription)
  {
  }
}

=== FILE: terms_signature.dfy ===
/**
 * The terms-signature page: the redirect of a user who already accepted,
 * the save button's request lifecycle, the dashboard chosen by role, and
 * the canvas height chosen by window width.
 */
module TermsSignature {
  import opened Wrappers
  import opened Models
  import TermsStore
  import CalcClass
  import UserRoutes

  /** The pages the terms page can send the browser to. */
  datatype Route = InstructorDashboard | AdminDashboard | ClientDashboard | LoginPage

  function RoutePath(r: Route): string {
    match r
    case InstructorDashboard => "/instructor-dashboard"
    case AdminDashboard => "/admin-dashboard"
    case ClientDashboard => "/client-dashboard"
    case LoginPage => "/login"
  }

  /**
   * The dashboard for a role text, the same at mount and after a save:
   * 'instructor', then exactly 'Admin', then every other text.
   */
  function RouteForRole(role: string): (r: Route)
    ensures r == InstructorDashboard <==> role == "instructor"
    ensures r == AdminDashboard <==> role == "Admin"
    ensures r == ClientDashboard <==> role != "instructor" && role != "Admin"
  {
    if role == "instructor" then InstructorDashboard
    else if role == "Admin" then AdminDashboard
    else ClientDashboard
  }

  /**
   * The comparison is case-sensitive while the backend's role names are
   * lower case: a backend instructor reaches the instructor dashboard, a
   * backend admin the client dashboard.
   */
  lemma BackendRolesRouted(role: UserRole)
    ensures RouteForRole(RoleName(role)) == (if role == Instructor then InstructorDashboard else ClientDashboard)
  {
  }

  /** The routes are distinct pages. */
  lemma RoutePathsDistinct(a: Route, b: Route)
    ensures RoutePath(a) == RoutePath(b) ==> a == b
  {
    if a != b {
      assert RoutePath(a)[1] != RoutePath(b)[1] || |RoutePath(a)| != |RoutePath(b)|;
    }
  }

  /** The "user" entry of the storage as the page reads it. */
  datatype StoredUser =
    | Absent
    | Malformed
    | Parsed(id: Id, role: string, hasAcceptedTerms: bool)

  /** The mount effect: a parsed user who accepted is sent to their dashboard; nothing else redirects. */
  function MountRedirect(u: StoredUser): (r: Option<Route>)
    ensures r.Some? <==> u.Parsed? && u.hasAcceptedTerms
    ensures r.Some? ==> r.value == RouteForRole(u.role) && r.value != LoginPage
  {
    if u.Parsed? && u.hasAcceptedTerms then Some(RouteForRole(u.role)) else None
  }

  const SignFirst: string := "Παρακαλώ υπογράψτε πριν συνεχίσετε"
  const NoUserData: string := "Δεν βρέθηκαν στοιχεία χρήστη. Παρακαλώ συνδεθείτε ξανά."
  const AcceptedMessage: string := "Οι όροι χρήσης αποδέχθηκαν επιτυχώς!"
  const DefaultError: string := "Σφάλμα κατά την αποδοχή των όρων. Παρακαλώ δοκιμάστε ξανά."
  const ConnectionError: string := "Σφάλμα σύνδεσης. Παρακαλώ ελέγξτε τη σύνδεσή σας και δοκιμάστε ξανά."

  datatype Toast = ErrorToast(text: string) | SuccessToast(text: string)

  /** The page state a save touches. */
  datatype Page = Page(
    isSubmitting: bool,
    preview: Option<string>,
    toasts: seq<Toast>,
    storage: TermsStore.Storage)

  /** The page as first rendered: not submitting, nothing shown. */
  function InitialPage(storage: TermsStore.Storage): (p: Page)
    ensures !p.isSubmitting && p.preview.None? && p.toasts == [] && p.storage == storage
  {
    Page(false, None, [], storage)
  }

  /** How the accept request ended: an ok response, an error response with its body's detail, or an exception. */
  datatype Reply = Accepted | Refused(detail: Option<string>) | Unreachable

  /** `errorData.detail || default`: an absent or empty detail gives the default text. */
  function ErrorText(detail: Option<string>): (r: string)
    ensures detail.Some? && detail.value != "" ==> r == detail.value
    ensures detail.None? || detail.value == "" ==> r == DefaultError
  {
    if detail.Some? && detail.value != "" then detail.value else DefaultError
  }

  /**
   * The page after a save, the user whose acceptance was requested, if
   * any, and the page the browser is sent to, if any.
   */
  datatype Saved = Saved(page: Page, requestFor: Option<Id>, navigate: Option<Route>)

  /**
   * `saveSignature`: an empty canvas only shows an error. Otherwise the page
   * starts submitting and shows the preview; a missing user sends it to the
   * login page and the flag stays set; an unreadable user is an exception;
   * a parsed user's acceptance is requested. Success marks the signature in
   * storage and picks the dashboard, and the flag stays set; failure shows
   * the error and resets the flag.
   */
  function SaveSignature(p: Page, canvasEmpty: bool, dataUrl: string, u: StoredUser, reply: Reply, nowIso: string): (r: Saved)
    ensures r.requestFor.Some? <==> !canvasEmpty && u.Parsed?
    ensures r.requestFor.Some? ==> r.requestFor.value == u.id
    ensures canvasEmpty ==> r.page == p.(toasts := p.toasts + [ErrorToast(SignFirst)])
    ensures !canvasEmpty ==> r.page.preview == Some(dataUrl)
    ensures !canvasEmpty ==> (r.page.isSubmitting <==> u.Absent? || (u.Parsed? && reply.Accepted?))
    ensures r.navigate == Some(LoginPage) <==> !canvasEmpty && u.Absent?
    ensures r.navigate.Some? <==> !canvasEmpty && (u.Absent? || (u.Parsed? && reply.Accepted?))
    ensures !canvasEmpty && u.Parsed? && reply.Accepted? ==>
      && r.navigate == Some(RouteForRole(u.role))
      && r.page.storage == TermsStore.Mark(p.storage, dataUrl, nowIso)
    ensures !(!canvasEmpty && u.Parsed? && reply.Accepted?) ==> r.page.storage == p.storage
    ensures !canvasEmpty && u.Parsed? && reply.Refused? ==> r.page.toasts == p.toasts + [ErrorToast(ErrorText(reply.detail))]
    ensures !canvasEmpty && (u.Malformed? || (u.Parsed? && reply.Unreachable?)) ==>
      r.page.toasts == p.toasts + [ErrorToast(ConnectionError)]
  {
    if canvasEmpty then Saved(p.(toasts := p.toasts + [ErrorToast(SignFirst)]), None, None)
    else
      var started := p.(isSubmitting := true, preview := Some(dataUrl));
      match u
      case Absent =>
        Saved(started.(toasts := p.toasts + [ErrorToast(NoUserData)]), None, Some(LoginPage))
      case Malformed =>
        Saved(started.(toasts := p.toasts + [ErrorToast(ConnectionError)], isSubmitting := false), None, None)
      case Parsed(id, role, _) =>
        var sent := Some(id);
        match reply
        case Accepted =>
          Saved(started.(storage := TermsStore.Mark(p.storage, dataUrl, nowIso),
                         toasts := p.toasts + [SuccessToast(AcceptedMessage)]),
                sent, Some(RouteForRole(role)))
        case Refused(detail) =>
          Saved(started.(toasts := p.toasts + [ErrorToast(ErrorText(detail))], isSubmitting := false), sent, None)
        case Unreachable =>
          Saved(started.(toasts := p.toasts + [ErrorToast(ConnectionError)], isSubmitting := false), sent, None)
  }

  /** A click on the save button, which is disabled while a save is in progress. */
  function ClickSave(p: Page, canvasEmpty: bool, dataUrl: string, u: StoredUser, reply: Reply, nowIso: string): (r: Saved)
    ensures p.isSubmitting ==> r == Saved(p, None, None)
    ensures !p.isSubmitting ==> r == SaveSignature(p, canvasEmpty, dataUrl, u, reply, nowIso)
  {
    if p.isSubmitting then Saved(p, None, None) else SaveSignature(p, canvasEmpty, dataUrl, u, reply, nowIso)
  }

  /**
   * After a successful save the button stays disabled, so no later click
   * sends a second request or changes the page.
   */
  lemma NoSecondRequestAfterSuccess(p: Page, dataUrl: string, id: Id, role: string, accepted: bool, nowIso: string,
                                    canvasEmpty2: bool, dataUrl2: string, u2: StoredUser, reply2: Reply, nowIso2: string)
    requires !p.isSubmitting
    ensures var first := ClickSave(p, false, dataUrl, Parsed(id, role, accepted), Accepted, nowIso);
            && first.requestFor == Some(id)
            && ClickSave(first.page, canvasEmpty2, dataUrl2, u2, reply2, nowIso2) == Saved(first.page, None, None)
  {
  }

  /**
   * The reply the page receives when the backend's accept-terms endpoint
   * answers. An HTTP error carries its detail as JSON with the CORS
   * headers, so the page reads it. An exception escaping the route is
   * answered by the server's outermost error handler, as plain text and
   * without CORS headers: `fetch` rejects, or reading the body as JSON
   * throws, and the page takes its connection-error branch.
   */
  function ReplyFrom(result: Result<(Store, string), ApiError>): (r: Reply)
    ensures result.Ok? <==> r == Accepted
    ensures result.Err? && result.error.status >= 500 <==> r == Unreachable
    ensures result.Err? && result.error.status < 500 ==> r == Refused(Some(result.error.detail))
  {
    match result
    case Ok(_) => Accepted
    case Err(e) => if e.status >= 500 then Unreachable else Refused(Some(e.detail))
  }

  /**
   * A server error from the accept-terms endpoint shows the connection
   * error, not the exception's name, leaves storage alone and lets the
   * user try again.
   */
  lemma ServerErrorShowsConnectionError(p: Page, dataUrl: string, id: Id, role: string, accepted: bool, nowIso: string, e: ApiError)
    requires !p.isSubmitting && e.status >= 500
    ensures var r := ClickSave(p, false, dataUrl, Parsed(id, role, accepted), ReplyFrom(Err(e)), nowIso);
            && r.page.toasts == p.toasts + [ErrorToast(ConnectionError)]
            && !r.page.isSubmitting && r.navigate.None? && r.page.storage == p.storage
  {
  }

  /**
   * End to end: a stored user the backend knows is marked as signed and
   * sent to their dashboard, while one it does not know sees the backend's
   * "user not found" text and may try again.
   */
  lemma SaveAgainstBackend(s: Store, p: Page, dataUrl: string, id: Id, role: string, accepted: bool, nowIso: string)
    requires !p.isSubmitting
    ensures var reply := ReplyFrom(UserRoutes.AcceptTerms(s, id));
            var r := ClickSave(p, false, dataUrl, Parsed(id, role, accepted), reply, nowIso);
            && (FindUser(s.users, id).Some? ==>
                  && TermsStore.SignedIn(r.page.storage)
                  && r.navigate == Some(RouteForRole(role)))
            && (FindUser(s.users, id).None? ==>
                  && !r.page.isSubmitting
                  && r.navigate.None?
                  && r.page.toasts == p.toasts + [ErrorToast(CalcClass.UserNotFound.detail)])
  {
    var reply := ReplyFrom(UserRoutes.AcceptTerms(s, id));
    if FindUser(s.users, id).None? {
      assert reply == Refused(Some(CalcClass.UserNotFound.detail));
    }
  }

  /**
   * The canvas height in pixels for a window width: 288 from 1280, 256
   * from 1024, 192 from 768, 160 from 640, and 128 below.
   */
  function CanvasHeight(width: int): (h: nat)
    ensures h in {128, 160, 192, 256, 288}
    ensures width < 640 <==> h == 128
    ensures 640 <= width < 768 <==> h == 160
    ensures 768 <= width < 1024 <==> h == 192
    ensures 1024 <= width < 1280 <==> h == 256
    ensures width >= 1280 <==> h == 288
  {
    if width >= 1280 then 288
    else if width >= 1024 then 256
    else if width >= 768 then 192
    else if width >= 640 then 160
    else 128
  }

  /** A wider window never gets a shorter canvas. */
  lemma CanvasHeightMonotone(w1: int, w2: int)
    requires w1 <= w2
    ensures CanvasHeight(w1) <= CanvasHeight(w2)
  {
  }
}

=== FILE: terms_store.dfy ===
/**
 * The terms-signature hook: three fixed keys of the browser's key/value
 * storage record that the terms were signed, the signature image and the
 * moment of signing, and the hook mirrors the first of them in its state.
 */
module TermsStore {
  import opened Wrappers

  /** The browser's `localStorage`: text values under text keys. */
  type Storage = map<string, string>

  const SignedKey: string := "hasSignedTerms"
  const ImageKey: string := "signatureImage"
  const DateKey: string := "signatureDate"

  /** The three keys the hook owns; every other key, such as "user", belongs to others. */
  const TermsKeys: set<string> := {SignedKey, ImageKey, DateKey}

  /** `localStorage.getItem(key)`: the stored text, or null. */
  function GetItem(st: Storage, key: string): (r: Option<string>)
    ensures r.Some? <==> key in st
    ensures r.Some? ==> r.value == st[key]
  {
    if key in st then Some(st[key]) else None
  }

  /** The storage says the terms are signed: the flag is exactly the text "true". */
  predicate SignedIn(st: Storage) {
    GetItem(st, SignedKey) == Some("true")
  }

  /** Two storages agree on every key the hook does not own. */
  ghost predicate SameOtherKeys(a: Storage, b: Storage) {
    forall k :: k !in TermsKeys ==> GetItem(a, k) == GetItem(b, k)
  }

  /**
   * `markTermsAsSigned(data)`: the flag "true", the image and the current
   * moment (as ISO text, a parameter here) under the three keys.
   */
  function Mark(st: Storage, signatureData: string, nowIso: string): (r: Storage)
    ensures GetItem(r, SignedKey) == Some("true")
    ensures GetItem(r, ImageKey) == Some(signatureData)
    ensures GetItem(r, DateKey) == Some(nowIso)
    ensures SameOtherKeys(r, st)
    ensures r.Keys == st.Keys + TermsKeys
  {
    st[SignedKey := "true"][ImageKey := signatureData][DateKey := nowIso]
  }

  /** `clearTermsSignature()`: the three keys removed. */
  function Clear(st: Storage): (r: Storage)
    ensures forall k :: k in TermsKeys ==> GetItem(r, k).None?
    ensures SameOtherKeys(r, st)
    ensures r.Keys == st.Keys - TermsKeys
  {
    st - TermsKeys
  }

  /** What `getSignatureData()` reports. */
  datatype SignatureData = SignatureData(hasSignedTerms: bool, signatureImage: Option<string>, signatureDate: Option<string>)

  /** `getSignatureData()`: the flag compared with "true", and the two stored texts or null. */
  function GetSignatureData(st: Storage): (r: SignatureData)
    ensures r.hasSignedTerms <==> SignedIn(st)
    ensures r.signatureImage.Some? <==> ImageKey in st
    ensures r.signatureDate.Some? <==> DateKey in st
    ensures r.signatureImage.Some? ==> r.signatureImage.value == st[ImageKey]
    ensures r.signatureDate.Some? ==> r.signatureDate.value == st[DateKey]
  {
    SignatureData(SignedIn(st), GetItem(st, ImageKey), GetItem(st, DateKey))
  }

  /**
   * The hook: the storage, the `hasSignedTerms` state (null before the
   * mount effect has run) and the `isLoading` flag.
   */
  datatype Hook = Hook(storage: Storage, hasSignedTerms: Option<bool>, isLoading: bool)

  /** The hook as first rendered: state null, loading. */
  function Initial(st: Storage): (h: Hook)
    ensures h.storage == st && h.hasSignedTerms.None? && h.isLoading
  {
    Hook(st, None, true)
  }

  /** The mount effect: the state becomes whether the stored flag is "true"; loading ends. */
  function Mounted(h: Hook): (r: Hook)
    ensures r.storage == h.storage && !r.isLoading
    ensures r.hasSignedTerms == Some(SignedIn(h.storage))
  {
    h.(hasSignedTerms := Some(SignedIn(h.storage)), isLoading := false)
  }

  function MarkHook(h: Hook, signatureData: string, nowIso: string): (r: Hook)
    ensures r.storage == Mark(h.storage, signatureData, nowIso)
    ensures r.hasSignedTerms == Some(true) && r.isLoading == h.isLoading
  {
    h.(storage := Mark(h.storage, signatureData, nowIso), hasSignedTerms := Some(true))
  }

  function ClearHook(h: Hook): (r: Hook)
    ensures r.storage == Clear(h.storage)
    ensures r.hasSignedTerms == Some(false) && r.isLoading == h.isLoading
  {
    h.(storage := Clear(h.storage), hasSignedTerms := Some(false))
  }

  /** The state, once set, agrees with what the storage says. */
  predicate Consistent(h: Hook) {
    h.hasSignedTerms.Some? ==> h.hasSignedTerms.value == GetSignatureData(h.storage).hasSignedTerms
  }

  /** Mounting, marking and clearing all leave the state in agreement with the storage. */
  lemma HookStaysConsistent(h: Hook, signatureData: string, nowIso: string)
    ensures Consistent(Initial(h.storage))
    ensures Consistent(Mounted(h))
    ensures Consistent(MarkHook(h, signatureData, nowIso))
    ensures Consistent(ClearHook(h))
  {
    assert GetItem(Clear(h.storage), SignedKey).None?;
  }

  /** After a clear, the data reports unsigned with no image and no date. */
  lemma ClearThenGet(st: Storage)
    ensures GetSignatureData(Clear(st)) == SignatureData(false, None, None)
  {
    assert GetItem(Clear(st), SignedKey).None?;
    assert GetItem(Clear(st), ImageKey).None?;
    assert GetItem(Clear(st), DateKey).None?;
  }

  /** Clearing twice is clearing once. */
  lemma ClearIdempotent(st: Storage)
    ensures Clear(Clear(st)) == Clear(st)
  {
    assert Clear(Clear(st)).Keys == Clear(st).Keys;
  }

  /** A later mark overwrites the image and the date of an earlier one. */
  lemma LastMarkWins(st: Storage, first: string, second: string, t1: string, t2: string)
    ensures Mark(Mark(st, first, t1), second, t2) == Mark(st, second, t2)
    ensures GetSignatureData(Mark(Mark(st, first, t1), second, t2)) == SignatureData(true, Some(second), Some(t2))
  {
    var a := Mark(Mark(st, first, t1), second, t2);
    var b := Mark(st, second, t2);
    assert a.Keys == b.Keys;
    forall k | k in a.Keys
      ensures a[k] == b[k]
    {
      assert GetItem(a, k) == GetItem(b, k);
    }
  }

  /** Clearing after a mark leaves what clearing alone would: a mark leaves no trace. */
  lemma MarkThenClear(st: Storage, signatureData: string, nowIso: string)
    ensures Clear(Mark(st, signatureData, nowIso)) == Clear(st)
  {
    var a := Clear(Mark(st, signatureData, nowIso));
    var b := Clear(st);
    assert a.Keys == b.Keys;
    forall k | k in a.Keys
      ensures a[k] == b[k]
    {
      assert GetItem(a, k) == GetItem(b, k);
    }
  }

  /** The stored user survives both a mark and a clear. */
  lemma UserEntryUntouched(st: Storage, signatureData: string, nowIso: string)
    ensures GetItem(Mark(st, signatureData, nowIso), "user") == GetItem(st, "user")
    ensures GetItem(Clear(st), "user") == GetItem(st, "user")
  {
    assert "user" !in TermsKeys;
  }
}

=== FILE: text.dfy ===
/**
 * String helpers the source takes from its languages' standard libraries:
 * Python's `in` on strings and `str.lower`, JavaScript's `includes`,
 * `padStart` and `String(n)`, and decimal digits.
 */
module Text {

  /** `p` is a prefix of `s`. */
  predicate IsPrefix(p: string, s: string) {
    |p| <= |s| && s[..|p|] == p
  }

  /** Python's `sub in s` and JavaScript's `s.includes(sub)`. */
  predicate Contains(s: string, sub: string)
    decreases |s|
  {
    IsPrefix(sub, s) || (|s| > 0 && Contains(s[1..], sub))
  }

  /** `sub` occurs in `s` starting at position `i`. */
  predicate OccursAt(s: string, sub: string, i: int) {
    0 <= i <= |s| - |sub| && s[i..i + |sub|] == sub
  }

  /** The recursive test agrees with the positional definition of a substring. */
  lemma {:induction false} ContainsIffOccurs(s: string, sub: string)
    ensures Contains(s, sub) <==> exists i :: OccursAt(s, sub, i)
    decreases |s|
  {
    if IsPrefix(sub, s) {
      assert OccursAt(s, sub, 0);
    } else if |s| == 0 {
    } else {
      ContainsIffOccurs(s[1..], sub);
      if exists i :: OccursAt(s, sub, i) {
        var i :| OccursAt(s, sub, i);
        assert i != 0;
        assert OccursAt(s[1..], sub, i - 1);
      }
      if exists j :: OccursAt(s[1..], sub, j) {
        var j :| OccursAt(s[1..], sub, j);
        assert OccursAt(s, sub, j + 1);
      }
    }
  }

  /** A string lacking one of the characters of `sub` does not contain `sub`. */
  lemma MissingCharNotContained(s: string, sub: string, c: char)
    requires c in sub && c !in s
    ensures !Contains(s, sub)
  {
    var j :| 0 <= j < |sub| && sub[j] == c;
    forall i | 0 <= i <= |s| - |sub|
      ensures !OccursAt(s, sub, i)
    {
      assert s[i..i + |sub|][j] == s[i + j];
    }
    ContainsIffOccurs(s, sub);
  }

  /** An occurrence at a known position makes `sub` a substring. */
  lemma OccurrenceContained(s: string, sub: string, i: int)
    requires OccursAt(s, sub, i)
    ensures Contains(s, sub)
  {
    ContainsIffOccurs(s, sub);
  }

  /** A substring of `s` is a substring of every string that has `s` as a suffix. */
  lemma {:induction false} ContainsSuffix(t: string, s: string, sub: string)
    requires Contains(s, sub)
    ensures Contains(t + s, sub)
    decreases |t|
  {
    if |t| > 0 {
      assert (t + s)[1..] == t[1..] + s;
      ContainsSuffix(t[1..], s, sub);
    } else {
      assert t + s == s;
    }
  }

  /** ASCII upper-case letters map to lower case; every other character is kept. */
  function LowerChar(c: char): char {
    if 'A' <= c <= 'Z' then (c as int + 32) as char else c
  }

  /** `str.lower()` restricted to the ASCII letters. */
  function Lower(s: string): (r: string)
    ensures |r| == |s|
    ensures forall i :: 0 <= i < |s| ==> r[i] == LowerChar(s[i])
  {
    seq(|s|, i requires 0 <= i < |s| => LowerChar(s[i]))
  }

  lemma LowerIdempotent(s: string)
    ensures Lower(Lower(s)) == Lower(s)
  {
  }

  predicate IsDigit(c: char) {
    '0' <= c <= '9'
  }

  predicate AllDigits(s: string) {
    forall i :: 0 <= i < |s| ==> IsDigit(s[i])
  }

  function DigitChar(d: nat): (c: char)
    requires d < 10
    ensures IsDigit(c)
  {
    ('0' as int + d) as char
  }

  function DigitValue(c: char): (d: nat)
    requires IsDigit(c)
    ensures d < 10
  {
    c as int - '0' as int
  }

  /** The value of a run of decimal digits. */
  function DigitsValue(s: string): nat
    requires AllDigits(s)
  {
    if |s| == 0 then 0 else DigitsValue(s[..|s| - 1]) * 10 + DigitValue(s[|s| - 1])
  }

  /** JavaScript's `String(n)` and Python's `str(n)` on a natural number. */
  function NatToString(n: nat): (r: string)
    ensures |r| >= 1 && AllDigits(r)
    ensures r[0] == '0' ==> n == 0
  {
    if n < 10 then [DigitChar(n)] else NatToString(n / 10) + [DigitChar(n % 10)]
  }

  lemma {:induction false} NatToStringRoundTrip(n: nat)
    ensures DigitsValue(NatToString(n)) == n
    decreases n
  {
    if n >= 10 {
      var s := NatToString(n);
      assert s[..|s| - 1] == NatToString(n / 10);
      NatToStringRoundTrip(n / 10);
    }
  }

  /** Decimal text of an integer, with a leading '-' when negative. */
  function IntToString(n: int): (r: string)
    ensures |r| >= 1
  {
    if n < 0 then "-" + NatToString(-n) else NatToString(n)
  }

  /** JavaScript's `s.padStart(2, '0')`. */
  function PadStart2(s: string): (r: string)
    ensures |r| == if |s| < 2 then 2 else |s|
    ensures r[|r| - |s|..] == s
    ensures forall i :: 0 <= i < |r| - |s| ==> r[i] == '0'
  {
    if |s| == 0 then "00" else if |s| == 1 then "0" + s else s
  }

  /** `String(n).padStart(2, '0')` of a number with at most two digits. */
  lemma TwoDigits(n: nat)
    requires n < 100
    ensures |PadStart2(NatToString(n))| == 2
    ensures AllDigits(PadStart2(NatToString(n)))
    ensures DigitsValue(PadStart2(NatToString(n))) == n
  {
    var s := NatToString(n);
    NatToStringRoundTrip(n);
    if n < 10 {
      assert PadStart2(s) == ['0', DigitChar(n)];
    } else {
      assert NatToString(n / 10) == [DigitChar(n / 10)];
      assert PadStart2(s) == s;
    }
  }
}

=== FILE: user_routes.dfy ===
/**
 * The user router: login by phone and password, the active-subscription
 * query, and acceptance of the terms of use.
 */
module UserRoutes {
  import opened Wrappers
  import opened Seqs
  import opened Models
  import CalcClass
  import MainApi

  const InvalidCredentials: ApiError := ApiError(401, "Invalid credentials")
  const AlreadyAccepted: string := "Ο χρήστης έχει ήδη αποδεχθεί τους όρους."
  const AcceptedNow: string := "Οι όροι χρήσης αποδέχθηκαν επιτυχώς."

  /** The position of the first user with this phone number. */
  function FindByPhone(s: Store, phone: string): (r: Option<nat>)
    ensures r.Some? ==> r.value < |s.users| && s.users[r.value].phone == phone
    ensures r.Some? ==> forall j :: 0 <= j < r.value ==> s.users[j].phone != phone
    ensures r.None? <==> !MainApi.PhoneTaken(s, phone)
  {
    FirstIndex(s.users, (u: User) => u.phone == phone)
  }

  /**
   * `POST /login`: the user with this phone, if their stored password
   * equals the one given; a missing user and a wrong password are the same
   * 401. Only the identifier is returned.
   */
  function Login(s: Store, phone: string, password: int): (r: Result<Id, ApiError>)
    ensures r.Err? ==> r.error == InvalidCredentials
    ensures r.Ok? <==> FindByPhone(s, phone).Some? && s.users[FindByPhone(s, phone).value].password == Some(password)
    ensures r.Ok? ==> r.value == s.users[FindByPhone(s, phone).value].id
  {
    match FindByPhone(s, phone)
    case None => Err(InvalidCredentials)
    case Some(i) => if s.users[i].password != Some(password) then Err(InvalidCredentials) else Ok(s.users[i].id)
  }

  /** A newly created user can log in with their phone and the password they were given. */
  lemma LoginAfterCreateUser(s: Store, req: MainApi.UserRequest, newId: Id)
    requires MainApi.CreateUser(s, req, newId).Ok?
    ensures var (s', u) := MainApi.CreateUser(s, req, newId).value;
            Login(s', req.phone, u.password.value) == Ok(newId)
  {
    var (s', u) := MainApi.CreateUser(s, req, newId).value;
    var n := |s.users|;
    assert s'.users[n] == u;
    assert forall j :: 0 <= j < n ==> s'.users[j] == s.users[j];
  }

  /** With a wrong password, login fails even for an existing phone. */
  lemma WrongPasswordRejected(s: Store, phone: string, password: int, i: nat)
    requires i < |s.users| && s.users[i].phone == phone
    requires forall j :: 0 <= j < |s.users| && s.users[j].phone == phone ==> s.users[j].password != Some(password)
    ensures Login(s, phone, password) == Err(InvalidCredentials)
  {
  }

  /** A subscription is active on day `today` when today lies between its start and end, both included. */
  predicate ActiveOn(sub: Subscription, today: Day) {
    sub.startDate <= today <= sub.endDate
  }

  /** `ActiveOn` as a filter argument. */
  function ActiveFilter(today: Day): Subscription -> bool {
    (sub: Subscription) => ActiveOn(sub, today)
  }

  /**
   * `POST /subscription`: an unknown user is a 404; otherwise the user's
   * subscriptions active today, in their original order.
   */
  function GetUserSubscription(s: Store, userId: Id, today: Day): (r: Result<seq<Subscription>, ApiError>)
    ensures FindUser(s.users, userId).None? <==> r == Err(CalcClass.UserNotFound)
    ensures r.Ok? ==> forall x :: x in r.value <==> x in s.subscriptions && x.userId == userId && ActiveOn(x, today)
    ensures r.Ok? ==> IsSubsequence(r.value, SubscriptionsOf(s, userId))
  {
    if FindUser(s.users, userId).None? then Err(CalcClass.UserNotFound)
    else
      FilterIsSubsequence(SubscriptionsOf(s, userId), ActiveFilter(today));
      Ok(Filter(SubscriptionsOf(s, userId), ActiveFilter(today)))
  }

  /** The position of the user with identifier `id`. */
  function UserIndex(s: Store, id: Id): (r: Option<nat>)
    ensures r.Some? ==> r.value < |s.users| && s.users[r.value].id == id
    ensures r.Some? ==> FindUser(s.users, id) == Some(s.users[r.value])
    ensures r.None? <==> FindUser(s.users, id).None?
    decreases |s.users|
  {
    if |s.users| == 0 then None
    else if s.users[0].id == id then Some(0)
    else match UserIndex(s.(users := s.users[1..]), id)
      case None => None
      case Some(k) => Some(k + 1)
  }

  /**
   * `POST /users/{id}/accept_terms`: an unknown user is a 404; a user who
   * already accepted is told so and nothing changes; otherwise the flag is
   * set and nothing else changes.
   */
  function AcceptTerms(s: Store, userId: Id): (r: Result<(Store, string), ApiError>)
    ensures FindUser(s.users, userId).None? <==> r == Err(CalcClass.UserNotFound)
    ensures r.Ok? && FindUser(s.users, userId).value.hasAcceptedTerms ==> r.value == (s, AlreadyAccepted)
    ensures r.Ok? && !FindUser(s.users, userId).value.hasAcceptedTerms ==>
      && r.value.1 == AcceptedNow
      && var i := UserIndex(s, userId).value;
      && r.value.0 == s.(users := s.users[i := s.users[i].(hasAcceptedTerms := true)])
  {
    match UserIndex(s, userId)
    case None => Err(CalcClass.UserNotFound)
    case Some(i) =>
      if s.users[i].hasAcceptedTerms then Ok((s, AlreadyAccepted))
      else Ok((s.(users := s.users[i := s.users[i].(hasAcceptedTerms := true)]), AcceptedNow))
  }

  /**
   * Accepting twice is accepting once: the second call changes nothing and
   * answers that the terms were already accepted.
   */
  lemma AcceptTermsIdempotent(s: Store, userId: Id)
    requires AcceptTerms(s, userId).Ok?
    ensures var s' := AcceptTerms(s, userId).value.0;
            && FindUser(s'.users, userId).Some?
            && FindUser(s'.users, userId).value.hasAcceptedTerms
            && AcceptTerms(s', userId) == Ok((s', AlreadyAccepted))
  {
    var i := UserIndex(s, userId).value;
    var s' := AcceptTerms(s, userId).value.0;
    FirstMatchKept(s, s', userId, i);
  }

  /** Setting a flag on the first user with an identifier keeps that user first. */
  lemma {:induction false} FirstMatchKept(s: Store, s': Store, userId: Id, i: nat)
    requires UserIndex(s, userId) == Some(i)
    requires |s'.users| == |s.users|
    requires forall j :: 0 <= j < |s.users| ==> s'.users[j].id == s.users[j].id
    ensures UserIndex(s', userId) == Some(i)
    decreases |s.users|
  {
    if i > 0 {
      FirstMatchKept(s.(users := s.users[1..]), s'.(users := s'.users[1..]), userId, i - 1);
    }
  }

  /** Every user-keyed endpoint answers 404 for an unknown user. */
  lemma UnknownUserIsNotFound(s: Store, userId: Id, today: Day, subscriptionId: Id)
    requires forall u :: u in s.users ==> u.id != userId
    ensures MainApi.GetUser(s, userId) == Err(MainApi.UserNotFoundEn)
    ensures GetUserSubscription(s, userId, today) == Err(CalcClass.UserNotFound)
    ensures AcceptTerms(s, userId) == Err(CalcClass.UserNotFound)
    ensures (forall x :: x in s.subscriptions ==> x.userId != userId) ==>
              CalcClass.CalculateRemainingForSubscription(s, userId, subscriptionId) == Err(CalcClass.SubscriptionNotFound)
  {
  }
}

=== FILE: user_table.dfy ===
/**
 * The plan enumeration declared beside the user table. The CSV import
 * resolves plan names against this enumeration, not against the one of the
 * subscription table, and the two differ.
 */
module UserTable {

  /** The nine plans the user table's `subscription_model` column accepts. */
  datatype SubscriptionModel =
    | Subscription2 | Subscription3 | Subscription5
    | Package10 | Package15 | Package20
    | CadillacPackage5 | CadillacPackage10
    | Free

  function ModelName(m: SubscriptionModel): string {
    match m
    case Subscription2 => "subscription_2"
    case Subscription3 => "subscription_3"
    case Subscription5 => "subscription_5"
    case Package10 => "package_10"
    case Package15 => "package_15"
    case Package20 => "package_20"
    case CadillacPackage5 => "cadillac_package_5"
    case CadillacPackage10 => "cadillac_package_10"
    case Free => "free"
  }

  function ModelValue(m: SubscriptionModel): string {
    match m
    case Subscription2 => "συνδρομή *2"
    case Subscription3 => "συνδρομή 3"
    case Subscription5 => "συνδρομή 5"
    case Package10 => "πακέτο 10"
    case Package15 => "πακέτο 15"
    case Package20 => "πακέτο 20"
    case CadillacPackage5 => "πακέτο Cadillac 5"
    case CadillacPackage10 => "πακέτο Cadillac 10"
    case Free => "ελεύθερη"
  }

  /** Every member of the user-table enumeration, in declaration order. */
  const AllUserModels: seq<SubscriptionModel> := [
    Subscription2, Subscription3, Subscription5,
    Package10, Package15, Package20,
    CadillacPackage5, CadillacPackage10,
    Free
  ]
}

=== FILE: wrappers.dfy ===
/** Failure-compatible datatypes shared by every module of the model. */
module Wrappers {

  /** A value that may be absent: Python's `None`, JavaScript's `null`. */
  datatype Option<+T> = None | Some(value: T) {
    function GetOr(default: T): T {
      match this
      case Some(v) => v
      case None => default
    }
  }

  /** The outcome of an operation that may raise. */
  datatype Result<+T, +E> = Ok(value: T) | Err(error: E) {
    predicate IsFailure() {
      Err?
    }

    function PropagateFailure<U>(): Result<U, E>
      requires Err?
    {
      Err(error)
    }

    function Extract(): T
      requires Ok?
    {
      value
    }
  }

  /** A check that either passes or fails with an error value. */
  datatype Outcome<+E> = Pass | Fail(error: E)

  /**
   * An error as the web framework reports it: the HTTP status and the
   * `detail` text. An uncaught Python exception becomes status 500 with
   * the exception's class name as detail.
   */
  datatype ApiError = ApiError(status: int, detail: string)

  function Crash(exception: string): ApiError {
    ApiError(500, exception)
  }
}
